=== FILE: README.md ===
# Question assembly and grade analysis of a school platform, in Dafny

This project models the deterministic core of a school platform that builds
tests and evaluations for teachers and analyses students' grades. The
platform asks a language model for questions, but every path around that
call is plain logic, and the model covers it:

- **Evaluation content** (`generateEvaluationContent`,
  `generateDynamicEvaluationContent`):
  - the split of a question count into true/false, single-choice and
    multiple-selection questions;
  - the template generator that rotates through a topic's question bank;
  - the acceptance test on the model's reply, after its Markdown code fences
    are stripped;
  - the fallback engine that is meant to keep questions unique by a
    `type|text` signature, both as written and with its guard corrected;
  - the one-question answers of both error paths.
- **The tests page**:
  - the per-user storage key;
  - `patchTest` and the simulated progress tick;
  - the local generator, which detects the course level and the subject
    family, rotates templates and routes mathematics essay prompts;
  - the splice that maps the model's questions, cuts each type to the
    requested count and fills any shortfall locally.
- **The grade monitor**:
  - `normRut` and the `tiempo` minutes band;
  - the student analysis: positive scores only, subjects other than
    "General" ranked by average;
  - the teacher analysis: `canonicalSubject`, `codeFor`, the assignment
    scope, pass rates over at least five grades, and `extractActType`;
  - the click counter of the assistant bubble.
- **The manual test builder**:
  - the even weight split with the remainder on the first active type;
  - `effectiveAssignments` de-duplication;
  - the course-section and subject chips;
  - `isValid`, the points input and the question transform.
- **The OMR routes** (`/api/analyze-ocr-vision`, `/api/analyze-ocr`):
  - reply cleaning and the `{`…`}` fallback of `safeJsonParse`;
  - data-URL and base64-prefix stripping;
  - focus numbers, the questions outline and the input and key guards.
- **`/api/ai-status`**: provider selection from the environment, and the
  weaker test of its error path.
- **The OpenRouter client**:
  - configuration precedence and `isConfigured`;
  - the request `chat` sends and how it reads the answer;
  - message assembly in `generateContent`;
  - the JSON system prompt and fence stripping in `generateJSON`.

Things outside the core become parameters:
- The environment is a `map<string, string>`, in which an unset variable
  reads as `""`.
- `JSON.parse` is a partial function `string -> Option<J>`.
- The model's reply is a `Result`.
- `Date.now()` and `Math.random()` are natural-number inputs.
- Shuffles are arbitrary functions, and a lemma assumes they are
  permutations wherever a property needs that.
- Template texts are abstract non-empty tables.

JavaScript's `a || b` on strings is "the first non-empty one" (`Js.Or`,
`Env.FirstSet`). `Math.round(a / b)` is `RoundDiv`.

Modules: `Strings`, `Js`, `Patterns` (a small matcher for the keyword
regexes), `Sorting` (a stable sort and insertion-ordered grouping, as
`Array.prototype.sort` and `Map` behave), `Lists`, `Fences` and `Env` are
shared helpers. `EvaluationFlow`, `TestsPage`, `GradeMonitor`,
`TeacherMonitor`, `ManualBuilder`, `OcrVision`, `Ocr`, `AiStatus` and
`OpenRouter` follow the source files.

Behaviours of the code that the model makes explicit:
- The `Env.KeyOrdersDisagree` lemma: the vision route and `/api/ai-status`
  try `GOOGLE_API_KEY` before `GEMINI_API_KEY`, and the plain OMR route
  tries them the other way round.
- `Ocr.ProseDefeatsStrictParse`: the plain OMR route has no `{`…`}`
  fallback, so a reply that the vision route reads is a parse error there.
- `/api/ai-status` and its placeholder key:
  - `AiStatus.PlaceholderHidesLaterKeys`: a placeholder in the first Google
    variable hides real keys in the later ones.
  - The error path ignores `NEXT_PUBLIC_GOOGLE_API_KEY`
    (`AiStatus.FallbackIgnoresPublicKey`) and accepts keys that are too
    short (`AiStatus.FallbackAcceptsShortKey`).
- In `codeFor`, "educacion fisica" is coded `CIE`. The science test, which
  matches `fisic`, comes before the physical-education test
  (`TeacherMonitor.EducacionFisicaIsCie`).
- When none of a teacher's assigned sections has a known course, the section
  filter has no effect (`TeacherMonitor.SectionsIgnoredWithoutCourses`).
- In `courseSectionChips` a key is marked as seen before the name check. So
  an unnamed first entry hides a later named one
  (`ManualBuilder.UnnamedFirstHidesKey`).
- The by-name subject lookup in `handleCreateTest` can only return the id it
  was given (`ManualBuilder.SubjectNameIsNameOrId`).
- With PDF content, a topic mentioning "respiratorio" never reaches the
  content-based single-choice question. Its ten fixed questions come first
  and always answer at position 0 (`EvaluationFlow.ContentChoiceOptions`).
  For other topics the content-based question advertises `index % 4`, and
  that position always holds the correct component, because the distractor
  list always has four entries (`EvaluationFlow.ContentChoiceIndexIsCorrect`).
- The spliced test of the tests page is laid out in this order:
  - the model's kept true/false, single-choice and multiple-selection
    questions;
  - then all local extras, in type order;
  - then the local essays.
- The template path and the `generateEvaluationContent` error path title the
  evaluation "Evaluación - TOPIC". The dynamic generator and its error path
  use "EVALUACIÓN - TOPIC".

## Model

| member | source | states |
|---|---|---|
| `EvaluationFlow.RequestedCount` | src/ai/flows/generate-evaluation-content.ts:76 | An absent or zero count means 15; any other count is kept. |
| `EvaluationFlow.RoundDiv` | src/ai/flows/generate-evaluation-content.ts:99-100 | `Math.round(a / b)` is the integer nearest to a/b, with halves rounded up. |
| `EvaluationFlow.TypeSplit` | src/ai/flows/generate-evaluation-content.ts:99-101 | The three counts sum to n, and all three are non-negative whenever n is. |
| `EvaluationFlow.SplitIsBalanced` | src/ai/flows/generate-evaluation-content.ts:99-101 | The split is as even as integers allow: the three counts differ pairwise by at most one. |
| `EvaluationFlow.SplitLoopsCoverCount` | src/ai/flows/generate-evaluation-content.ts:693-695 | The three generation loops together run exactly n times, and not at all for a negative n. |
| `EvaluationFlow.ChooseBank` | src/ai/flows/generate-evaluation-content.ts:104-190 | The bank is chosen by the first keyword found in the lower-cased topic: respiratorio, célula, fotosíntesis/fotosintesis, and otherwise the generic bank. |
| `EvaluationFlow.MockQuestions` | src/ai/flows/generate-evaluation-content.ts:193-235 | The template path returns one question per loop iteration, and the ids are "1".."n" in order. |
| `EvaluationFlow.MockTfs` | src/ai/flows/generate-evaluation-content.ts:193-203 | True/false question i is built from template i mod length. |
| `EvaluationFlow.MockMcs` | src/ai/flows/generate-evaluation-content.ts:206-219 | Single-choice question i is built from template i mod length, and its id continues the numbering. |
| `EvaluationFlow.MockMss` | src/ai/flows/generate-evaluation-content.ts:222-235 | Multiple-selection question i is built from template i mod length, and its id continues the numbering. |
| `EvaluationFlow.MockTrueFalseCopiesTemplate` | src/ai/flows/generate-evaluation-content.ts:195-201 | Each leading true/false question copies its template's text, answer and explanation. |
| `EvaluationFlow.MockChoiceCopiesTemplate` | src/ai/flows/generate-evaluation-content.ts:208-217 | Each single-choice question, placed after the true/false ones, copies its template's options and correct index. |
| `EvaluationFlow.MockSelectionCopiesTemplate` | src/ai/flows/generate-evaluation-content.ts:224-233 | Each multiple-selection question, placed after the single-choice ones, copies its template's options and correct indices. |
| `EvaluationFlow.MockIdsDistinct` | src/ai/flows/generate-evaluation-content.ts:194-197 | No two questions of the template path share an id. |
| `EvaluationFlow.ErrorFallback` | src/ai/flows/generate-evaluation-content.ts:252-272 | When generation throws, the answer is exactly one true/false question with id "1" and answer true, under the template title. |
| `EvaluationFlow.GenerateEvaluationContent` | src/ai/flows/generate-evaluation-content.ts:74-274 | The answer has the requested number of questions or is the fallback. Without a usable key it comes from the templates with ids 1..n. With a usable key, a model answer is taken exactly when its count is exact; a failed call or a wrong count gives the one-question fallback. |
| `EvaluationFlow.NormalizeText` | src/ai/flows/generate-evaluation-content.ts:704-709 | The result is trimmed, no longer than the input, and holds only characters that case and accent folding leave alone. |
| `EvaluationFlow.NormalizeTextIdempotent` | src/ai/flows/generate-evaluation-content.ts:704-709 | Normalising an already normalised text changes nothing. |
| `EvaluationFlow.NormalizeTextIgnoresCaseAndAccents` | src/ai/flows/generate-evaluation-content.ts:704-709 | A text and its folded form normalise to the same result. |
| `EvaluationFlow.MakeIdInjective` | src/ai/flows/generate-evaluation-content.ts:689 | Within one evaluation (same timestamp and seed), different positions get different ids. |
| `EvaluationFlow.Renumber` | src/ai/flows/generate-evaluation-content.ts:658-661 | Accepted questions keep their order and content; only the id changes, to `q{i+1}_{timestamp}_{seed}`. |
| `EvaluationFlow.AcceptReply` | src/ai/flows/generate-evaluation-content.ts:641-672 | A reply is accepted exactly when, after fence stripping, it parses and holds exactly `count` questions; accepted questions are renumbered in order. The reply's title is kept, and without one the title is "Evaluación - topic" or "Evaluation - topic", with the topic as given. |
| `EvaluationFlow.InsertAt` | src/ai/flows/generate-evaluation-content.ts:1174 | `splice(start, 0, x)` puts x at the clamped position, keeps every other element in order and grows the list by one. |
| `EvaluationFlow.Distractors` | src/ai/flows/generate-evaluation-content.ts:805-843 | There are always exactly four distractors, chosen by the first keyword found in the lower-cased topic; the generic set names the topic. |
| `EvaluationFlow.ContentChoiceOptions` | src/ai/flows/generate-evaluation-content.ts:1001-1225 | With PDF content, a topic containing "respiratorio" gets fixed question `index mod 10` with its answer at position 0. Otherwise the content branch applies exactly when there are at least two component names, and it advertises `index mod 4`. Anything else falls through to the topic banks. |
| `EvaluationFlow.ContentChoiceIndexIsCorrect` | src/ai/flows/generate-evaluation-content.ts:1164-1174 | For a topic that is not respiratory, with at least two component names, there are four options. The option at the advertised index is the correct component, and removing it leaves the first three distractors in order. |
| `EvaluationFlow.SignatureTextIsFaithful` | src/ai/flows/generate-evaluation-content.ts:1617-1620 | Two `type|text` signature strings are equal exactly when type and normalised text are both equal. |
| `EvaluationFlow.AttemptSigs` | src/ai/flows/generate-evaluation-content.ts:1625-1627 | The 25 attempts are `make(base + 7a)` for a = 0..24, in order. |
| `EvaluationFlow.FirstFresh` | src/ai/flows/generate-evaluation-content.ts:1625-1632 | The chosen attempt is the first one whose signature is unused; -1 means every attempt was used. |
| `EvaluationFlow.TryMakeUniqueAsWritten` | src/ai/flows/generate-evaluation-content.ts:1623-1638 | As written, the set only grows, by the returned signature. The result is the first fresh attempt, or else the forced `make(base + 999)` variant, whose signature is not checked. |
| `EvaluationFlow.ConstantMakerExhausted` | src/ai/flows/generate-evaluation-content.ts:1625-1632 | A generator that ignores its index, once its signature is used, exhausts all 25 attempts. |
| `EvaluationFlow.AsWrittenRepeatsForcedQuestion` | src/ai/flows/generate-evaluation-content.ts:1633-1637 | As written, two calls with such a generator return the same forced question twice, so uniqueness fails. |
| `EvaluationFlow.AppendAsWritten` | src/ai/flows/generate-evaluation-content.ts:1640-1643 | As written, one loop appends `count` questions with positional ids and records every signature, but promises no distinctness. |
| `EvaluationFlow.AsWrittenLoopRepeats` | src/ai/flows/generate-evaluation-content.ts:1623-1643 | As written, a loop of three or more questions over a generator that ignores its index emits two questions with the same signature, the second and the third. |
| `EvaluationFlow.SignatureGrows` | src/ai/flows/generate-evaluation-content.ts:1635 | Appending " (variante)" makes the signature strictly longer. |
| `EvaluationFlow.ForceFresh` | src/ai/flows/generate-evaluation-content.ts:1633-1637 | The corrected forced branch returns the forced question, with one or more " (variante)" suffixes, whose signature is unused. |
| `EvaluationFlow.TryMakeUnique` | src/ai/flows/generate-evaluation-content.ts:1623-1638 | The corrected guard always returns a question with an unused signature and records it. A fresh attempt is returned as the original code returns it. |
| `EvaluationFlow.AppendUnique` | src/ai/flows/generate-evaluation-content.ts:1641-1643 | With the corrected guard, one loop appends `count` questions of its type with positional ids, keeps the earlier ones, and keeps all signatures distinct and recorded. |
| `EvaluationFlow.GenerateUniqueQuestions` | src/ai/flows/generate-evaluation-content.ts:1640-1653 | With the corrected guard, the fallback engine emits the split's counts in type order, with positional ids and pairwise-distinct signatures. |
| `EvaluationFlow.OrNow` | src/ai/flows/generate-evaluation-content.ts:468-469 | A given non-zero timestamp or seed is kept; zero means the clock or random value. |
| `EvaluationFlow.GenerateDynamicEvaluation` | src/ai/flows/generate-evaluation-content.ts:457-658 | The answer has exactly the requested count with ids `q{i+1}_{ts}_{seed}`. An acceptable reply is used as is. Otherwise the fallback engine, with the corrected guard, answers under "EVALUACIÓN - TOPIC" with distinct signatures: first the true/false questions of the type split, then the single-choice ones, then the multiple-selection ones. |
| `EvaluationFlow.DynamicErrorFallback` | src/ai/flows/generate-evaluation-content.ts:1659-1683 | When generation throws, the answer is one true/false question answering true, with id `fallback_tf1_{ts}_{seed}`, under the dynamic title. |
| `TestsPage.TestsKey` | src/app/dashboard/pruebas/page.tsx:48-51 | The key is the base key, suffixed with `_name` when the trimmed, lower-cased user name is non-empty. |
| `TestsPage.TestsKeyIdentifiesUser` | src/app/dashboard/pruebas/page.tsx:48-51 | Two users share a stored history exactly when their normalised names agree. |
| `TestsPage.PatchTest` | src/app/dashboard/pruebas/page.tsx:131-139 | Length, order, ids and titles are kept. Only items with the given id change, and they take exactly the patched fields. |
| `TestsPage.PatchTestIdempotent` | src/app/dashboard/pruebas/page.tsx:131-139 | Applying the same patch twice equals applying it once. |
| `TestsPage.TickItem` | src/app/dashboard/pruebas/page.tsx:147-153 | A generating test advances to min(100, progress + inc) and becomes ready exactly at 100; other tests are unchanged. |
| `TestsPage.Tick` | src/app/dashboard/pruebas/page.tsx:145-156 | One interval callback advances every item independently and keeps the list's length. |
| `TestsPage.TicksAdvance` | src/app/dashboard/pruebas/page.tsx:147-153 | With increments from 3 to 10, a test still generating after n rounds has advanced by at least 3n. |
| `TestsPage.AllReadyAfter34Ticks` | src/app/dashboard/pruebas/page.tsx:147-153 | With increments from 3 to 10, no test is still generating after 34 callbacks. |
| `TestsPage.CourseLevel` | src/app/dashboard/pruebas/page.tsx:211-222 | The level is always between 1 and 5. |
| `TestsPage.FirstBand` | src/app/dashboard/pruebas/page.tsx:212-222 | The index found is that of the first band that matches; -1 means no band matches. |
| `TestsPage.CourseLevelIsFirstBand` | src/app/dashboard/pruebas/page.tsx:211-222 | The level is the number of the first matching band, and 3 when none matches. |
| `TestsPage.Detect` | src/app/dashboard/pruebas/page.tsx:227-232 | Mathematics is an exact science. |
| `TestsPage.FamilyPriority` | src/app/dashboard/pruebas/page.tsx:240-500 | Tables are chosen with exact science first, then science, then history, then general. Single choice has no history table. Multiple selection is general outside exact science. |
| `TestsPage.MathFamilyOf` | src/app/dashboard/pruebas/page.tsx:548-614 | The sums family carries a level band of 1, 2 or 3. |
| `TestsPage.MathFamilyIsFirstMatch` | src/app/dashboard/pruebas/page.tsx:544-731 | The mathematics family is that of the first band matching the lower-cased topic, for each of the seven bands: sums (with its level band 1, 2 or 3), products, division, fractions, percentages, equations, geometry; none when no band matches. |
| `TestsPage.GenericMathPrompt` | src/app/dashboard/pruebas/page.tsx:727-731 | The generic prompt starts "Problema num" and mentions the topic. |
| `TestsPage.MathProblem` | src/app/dashboard/pruebas/page.tsx:544-732 | A known family yields problem `num mod n` of its own table of `n` problems; an unknown topic yields the generic prompt and answer. |
| `TestsPage.MathProblemOfFirstBand` | src/app/dashboard/pruebas/page.tsx:544-732 | The problem asked is problem `num mod n` of the family of the first matching band, read independently as `TestsPage.FamilyAt`, or the generic prompt when no band matches. |
| `TestsPage.PlanPermutesTables` | src/app/dashboard/pruebas/page.tsx:330-505 | With permuting shuffles, each rotation holds exactly the selected table's templates. |
| `TestsPage.TfItems` | src/app/dashboard/pruebas/page.tsx:330-334 | Exactly `count` true/false items, item i copying template i mod length. |
| `TestsPage.McItems` | src/app/dashboard/pruebas/page.tsx:396-400 | Exactly `count` single-choice items, item i copying text, options and correct index of template i mod length. |
| `TestsPage.MsItems` | src/app/dashboard/pruebas/page.tsx:502-506 | Exactly `count` multiple-selection items, item i keeping template i mod length's text with shuffled options. |
| `TestsPage.DesItems` | src/app/dashboard/pruebas/page.tsx:509-539 | Exactly `count` essay items, item i being the essay prompt of position i. |
| `TestsPage.Build` | src/app/dashboard/pruebas/page.tsx:330-540 | A batch holds one item per requested question of every type. |
| `TestsPage.GenerateLocal` | src/app/dashboard/pruebas/page.tsx:194-540 | Without counts there are no items; with counts, the batch of the tables the detection selects. |
| `TestsPage.BuildTypeOrder` | src/app/dashboard/pruebas/page.tsx:331-539 | Items come in type order: true/false, then single choice, then multiple selection, then essays. |
| `TestsPage.BuildChoiceCopiesTemplate` | src/app/dashboard/pruebas/page.tsx:397-400 | Each single-choice item copies its template's text, options and correct index unchanged. |
| `TestsPage.BuildSelectionPermutesOptions` | src/app/dashboard/pruebas/page.tsx:503-506 | Each multiple-selection item keeps its template's text, and its options are a permutation of the template's. |
| `TestsPage.GenerateLocalEssayRouting` | src/app/dashboard/pruebas/page.tsx:509-538 | Essay i is mathematics problem i+1 for a mathematics subject, and otherwise general essay template i mod 5 of the five-entry table. |
| `TestsPage.MapAi` | src/app/dashboard/pruebas/page.tsx:847-861 | Each reply type maps to its local type, with correct index defaulting to 0 and selection flags set from `correctAnswerIndices`. Unknown types become essays. |
| `TestsPage.MapAll` | src/app/dashboard/pruebas/page.tsx:847-861 | The mapping keeps count and order; question i is mapped with index i. |
| `TestsPage.OfType` | src/app/dashboard/pruebas/page.tsx:864-866 | The filter keeps only items of the type, never more than there are. |
| `TestsPage.SliceTo` | src/app/dashboard/pruebas/page.tsx:864-866 | `slice(0, end)` is a prefix of length min(end, n), counting a negative end from the back. |
| `TestsPage.BuildCounts` | src/app/dashboard/pruebas/page.tsx:331-539 | A local batch holds exactly the requested number of items of each type. |
| `TestsPage.KeptCounts` | src/app/dashboard/pruebas/page.tsx:864-869 | Each type keeps min(available, requested) of the reply's questions, and no essays. |
| `TestsPage.ExtrasCounts` | src/app/dashboard/pruebas/page.tsx:872-880 | The first local call makes up exactly what the kept questions lack of each type, and adds no essay. |
| `TestsPage.ShortfallCounts` | src/app/dashboard/pruebas/page.tsx:872-880 | Kept questions plus local extras hold exactly the requested true/false, single-choice and multiple-selection counts. |
| `TestsPage.SpliceCounts` | src/app/dashboard/pruebas/page.tsx:863-885 | The spliced test holds exactly the requested number of questions of each type, essays included. |
| `TestsPage.SpliceKeepsReplyOrder` | src/app/dashboard/pruebas/page.tsx:864-869 | The reply's kept true/false questions come first, in reply order. |
| `TestsPage.Kept` | src/app/dashboard/pruebas/page.tsx:864-869 | No essay of the reply is ever kept. |
| `TestsPage.Shortfall` | src/app/dashboard/pruebas/page.tsx:872-878 | For a non-negative request, the local call asks for what the reply lacks of each type, max(requested - available, 0), and for no essays. |
| `TestsPage.SpliceKeptFirst` | src/app/dashboard/pruebas/page.tsx:863-885 | `SpliceOf` has no contract of its own; this lemma states it. The kept questions of the reply come first in the spliced test. When the reply covers every requested type and no essays are asked for, nothing local is added. |
| `TestsPage.Done` | src/app/dashboard/pruebas/page.tsx:841-887 | Whatever the reply, even a missing one, the finished test holds exactly the requested number of questions of each type. |
| `TestsPage.IsMathSubject` | src/app/dashboard/pruebas/page.tsx:811-812 | A subject sent straight to the local generator is one the generator treats as exact science, and every subject it treats as mathematics is sent there. |
| `GradeMonitor.NormRut` | src/components/monito-calificaciones.tsx:90 | The result has no dots or dashes, is lower-cased and trimmed, and is no longer than the input. |
| `GradeMonitor.NormRutFixedPoint` | src/components/monito-calificaciones.tsx:90 | An identifier that is already lower case, trimmed and free of dots and dashes normalises to itself. With the ensures of `NormRut`, the normal forms are exactly these strings. |
| `GradeMonitor.NormRutIdempotent` | src/components/monito-calificaciones.tsx:90 | Normalising a normalised identifier changes nothing. |
| `GradeMonitor.NormRutIgnoresSeparators` | src/components/monito-calificaciones.tsx:90 | Inserting a dot or a dash anywhere in an identifier does not change its normal form, so "12.345.678-9" and "123456789" compare equal. |
| `GradeMonitor.Tiempo` | src/components/monito-calificaciones.tsx:516 | The suggested minutes are one of 10, 15, 20 or 30. |
| `GradeMonitor.TiempoNonIncreasing` | src/components/monito-calificaciones.tsx:634 | A better average never asks for more minutes. |
| `GradeMonitor.Collapse` | src/components/monito-calificaciones.tsx:396 | After collapsing, white space is single blanks only, never two in a row, and the text never grows. |
| `GradeMonitor.CollapseIdempotent` | src/components/monito-calificaciones.tsx:396 | Collapsing twice equals collapsing once. |
| `GradeMonitor.TitleWords` | src/components/monito-calificaciones.tsx:398-400 | Exactly the first letter of each blank-separated word is upper-cased, and the length is kept. |
| `GradeMonitor.Lookup` | src/components/monito-calificaciones.tsx:408-421 | A record lookup finds an entry with that key, or reports that there is none. |
| `GradeMonitor.Pretty` | src/components/monito-calificaciones.tsx:401-423 | An unknown subject keeps its readable name. |
| `GradeMonitor.Scored` | src/components/monito-calificaciones.tsx:425-432 | Only positive scores enter the analysis. |
| `GradeMonitor.NotGeneral` | src/components/monito-calificaciones.tsx:438 | Exactly the subjects other than "General" are kept. |
| `GradeMonitor.Ranked` | src/components/monito-calificaciones.tsx:436-439 | The subject averages other than "General" are ordered ascending by average, as a permutation. |
| `GradeMonitor.Minutes` | src/components/monito-calificaciones.tsx:524 | Each listed subject gets the minutes band of its own average. |
| `GradeMonitor.ReportOf` | src/components/monito-calificaciones.tsx:441-481 | The worst subjects are the first min(2, n) ranked, the priorities the first min(3, n), and each worst subject carries its minutes. |
| `GradeMonitor.Analyze` | src/components/monito-calificaciones.tsx:375-441 | The "no grades" answer comes exactly for an empty list. |
| `GradeMonitor.RankedAreSubjectMeans` | src/components/monito-calificaciones.tsx:436-439 | Every ranked subject is not "General" and carries the mean of its own positive scores. |
| `GradeMonitor.RankedIsComplete` | src/components/monito-calificaciones.tsx:436-439 | Every subject other than "General" with a positive score is ranked. |
| `GradeMonitor.AnalyzeReport` | src/components/monito-calificaciones.tsx:435-441 | For a non-empty list, the report's average is the mean of all positive scores, over the ranking of their subjects. |
| `GradeMonitor.NonPositiveScoresIgnored` | src/components/monito-calificaciones.tsx:427 | Adding a grade without a positive score does not change the analysis. |
| `GradeMonitor.Click` | src/components/monito-calificaciones.tsx:1076-1264 | Click 1 and clicks from 8 on show the main analysis, and from 8 the counter resets. Clicks 2-7 show the current AI message and advance the index modulo the count. |
| `GradeMonitor.ClicksCycle` | src/components/monito-calificaciones.tsx:1230-1264 | From any count below 8, the counter returns to 0 after 8 - count clicks. |
| `GradeMonitor.AiMessagesRotate` | src/components/monito-calificaciones.tsx:1250-1253 | Consecutive clicks walk through the loaded AI messages in order, wrapping around. |
| `TeacherMonitor.KeepSubjectChars` | src/components/monito-calificaciones.tsx:670 | Only `[a-z0-9]` and white space survive, and text made only of those is unchanged. |
| `TeacherMonitor.NormSubj` | src/components/monito-calificaciones.tsx:665-672 | The normalised subject is trimmed. |
| `TeacherMonitor.ReplaceAbsentWord` | src/components/monito-calificaciones.tsx:676-680 | A word repair leaves text without that word unchanged. |
| `TeacherMonitor.FirstPrefix` | src/components/monito-calificaciones.tsx:681-699 | The name found is the canonical name of some listed prefix of the text; none means no listed prefix matches. |
| `TeacherMonitor.CanonicalOf` | src/components/monito-calificaciones.tsx:681-700 | The canonical name is either the repaired name itself or one of the known subject names. |
| `TeacherMonitor.Canonical` | src/components/monito-calificaciones.tsx:673-701 | `canonicalSubject` yields the normalised, repaired name or a known subject name. |
| `TeacherMonitor.CanonicalFirstPrefix` | src/components/monito-calificaciones.tsx:681-693 | The first known prefix of the text names its subject. |
| `TeacherMonitor.CanonicalHistory` | src/components/monito-calificaciones.tsx:694 | A "historia geograf…" text that no earlier prefix catches is "historia y geografia". |
| `TeacherMonitor.CanonicalLaterPrefix` | src/components/monito-calificaciones.tsx:695-699 | After the history test, the first later prefix names its subject. |
| `TeacherMonitor.CanonicalOtherwise` | src/components/monito-calificaciones.tsx:700 | A name matching no known prefix keeps its normalised, repaired form. |
| `TeacherMonitor.FirstHit` | src/components/monito-calificaciones.tsx:704-713 | The rule found is the first one that accepts the text; none means no rule accepts it. |
| `TeacherMonitor.FallbackCode` | src/components/monito-calificaciones.tsx:714 | The code when no rule applies has at most three characters. |
| `TeacherMonitor.CodeFor` | src/components/monito-calificaciones.tsx:702-715 | The code is that of the first rule accepting the canonical name, else the first three letters of the upper-cased raw name ("GEN" when empty); it is never empty and never longer than three. |
| `TeacherMonitor.FisicaIsCodedBeforeEfi` | src/components/monito-calificaciones.tsx:704-709 | A canonical name containing "fisic" is coded MAT, LEN, HIS or CIE, never EFI. |
| `TeacherMonitor.EfiOnlyForEfWord` | src/components/monito-calificaciones.tsx:709 | EFI is reached only through a standalone "ef" word, never through "fisica". |
| `TeacherMonitor.EducacionFisicaIsCie` | src/components/monito-calificaciones.tsx:695-707 | Every name normalising to "educacion fisica…" is canonically "educacion fisica" and coded CIE. |
| `TeacherMonitor.FisicWithoutEarlierLettersIsCie` | src/components/monito-calificaciones.tsx:704-707 | A name with "fisic" that can match no earlier rule is coded CIE. |
| `TeacherMonitor.CourseBySection` | src/components/monito-calificaciones.tsx:727-730 | Only sections with an id and a course are mapped. |
| `TeacherMonitor.MyAssignments` | src/components/monito-calificaciones.tsx:733-737 | An assignment is the teacher's exactly when its teacher, lower-cased and non-empty, equals the user's lower-cased id. |
| `TeacherMonitor.ScopeOf` | src/components/monito-calificaciones.tsx:739-741 | Known courses imply assigned sections. |
| `TeacherMonitor.Relevant` | src/components/monito-calificaciones.tsx:744-761 | A relevant grade has a positive score, and without any assigned subject, section or course every positive grade is relevant. |
| `TeacherMonitor.SectionsIgnoredWithoutCourses` | src/components/monito-calificaciones.tsx:752-760 | When no assigned section has a known course, a grade is relevant exactly when it is positive and its subject is assigned (or none are). |
| `TeacherMonitor.CoursesRestrict` | src/components/monito-calificaciones.tsx:755-760 | With courses known, a relevant grade comes from an assigned section or an allowed course. |
| `TeacherMonitor.RelevantGrades` | src/components/monito-calificaciones.tsx:744-761 | Exactly the relevant grades are kept, in input order. |
| `TeacherMonitor.Entries` | src/components/monito-calificaciones.tsx:799-803 | Each grade is filed under its canonical subject, with the code of its raw subject name and its score. |
| `TeacherMonitor.StatOf` | src/components/monito-calificaciones.tsx:804-807 | A subject's figures: its first code, total = grade count, ok = count of scores ≥ 60, rate between 0 and 100. |
| `TeacherMonitor.WellSampled` | src/components/monito-calificaciones.tsx:829 | Exactly the subjects with at least five grades are kept. |
| `TeacherMonitor.StatsOf` | src/components/monito-calificaciones.tsx:799-825 | Relevant grades yield at least one subject. |
| `TeacherMonitor.RankStats` | src/components/monito-calificaciones.tsx:827-867 | The ranking is ascending by rate and the worst is its head. Without a well-sampled subject every subject is ranked. The averages list is every subject, ascending by average. |
| `TeacherMonitor.WorstHasLowestRate` | src/components/monito-calificaciones.tsx:842 | The worst subject's rate is the lowest of the ranking. |
| `TeacherMonitor.RankingUsesThreshold` | src/components/monito-calificaciones.tsx:827-835 | The five-grade threshold applies exactly when some subject meets it. |
| `TeacherMonitor.AnalyzeTeacher` | src/components/monito-calificaciones.tsx:744-835 | "No relevant grades" comes exactly when the filter keeps nothing; otherwise the statistics of the relevant grades are ranked. |
| `TeacherMonitor.StatsCountSubjectGrades` | src/components/monito-calificaciones.tsx:799-807 | Each subject's total and ok count are those of exactly its own relevant grades. |
| `TeacherMonitor.ExtractActType` | src/components/monito-calificaciones.tsx:851-861 | Without a keyword the label is the title's first 15 characters, or "Act" for an empty title. |
| `TeacherMonitor.TareaFirst` | src/components/monito-calificaciones.tsx:853 | "Tarea" wins over every later keyword. |
| `TeacherMonitor.NoKeywordKeepsPrefix` | src/components/monito-calificaciones.tsx:860 | A title with no keyword is cut to 15 characters. |
| `ManualBuilder.Pick` | src/components/pruebas/ManualTestBuilder.tsx:173 | A `||` chain over fields gives the value of some field that holds it, and "" exactly when all are empty. |
| `ManualBuilder.Active` | src/components/pruebas/ManualTestBuilder.tsx:260 | The active types are exactly those with a positive count, in order. |
| `ManualBuilder.Redistribute` | src/components/pruebas/ManualTestBuilder.tsx:259-273 | With no active type the weights are unchanged. |
| `ManualBuilder.WeightsTotal100` | src/components/pruebas/ManualTestBuilder.tsx:262-271 | With an active type, the adjusted weights total exactly 100. |
| `ManualBuilder.WeightsPerType` | src/components/pruebas/ManualTestBuilder.tsx:262-271 | Inactive types get 0 and each active type floor(100/k); the first active type also gets the remainder. |
| `ManualBuilder.FindMe` | src/components/pruebas/ManualTestBuilder.tsx:118 | The profile found is one of the stored users, matched by the signed-in user's id or username. |
| `ManualBuilder.FromTeaching` | src/components/pruebas/ManualTestBuilder.tsx:123-142 | Every assignment built from one teaching entry carries the teacher's id and username. |
| `ManualBuilder.SubjectByName` | src/components/pruebas/ManualTestBuilder.tsx:121-122 | Only subjects with both a name and an id are mapped. |
| `ManualBuilder.FromProfile` | src/components/pruebas/ManualTestBuilder.tsx:123-144 | Every assignment built from the profile carries the signed-in teacher's id and username. |
| `ManualBuilder.Mine` | src/components/pruebas/ManualTestBuilder.tsx:168 | No contract of its own; `ManualBuilder.BuiltAreMine` states what it accepts. |
| `ManualBuilder.BuiltAreMine` | src/components/pruebas/ManualTestBuilder.tsx:118-168 | Every assignment built from the signed-in user's profile passes the ownership test of the chips. |
| `ManualBuilder.EffectiveAssignments` | src/components/pruebas/ManualTestBuilder.tsx:109-158 | The list is the stored assignments then those from the profile, keeping the first of each teacher/course/section/subject key. |
| `ManualBuilder.Built` | src/components/pruebas/ManualTestBuilder.tsx:117-146 | Without a profile for the user nothing is built. |
| `ManualBuilder.CandidateOf` | src/components/pruebas/ManualTestBuilder.tsx:173-181 | A candidate has a non-empty section id and course id, and its key is `cid-sid`. |
| `ManualBuilder.Candidates` | src/components/pruebas/ManualTestBuilder.tsx:172-177 | Every candidate has a section id and a course id. |
| `ManualBuilder.ChipsNamedAndDistinct` | src/components/pruebas/ManualTestBuilder.tsx:181-186 | Every chip has usable names, and no two chips share a course-section key. |
| `ManualBuilder.UnnamedFirstHidesKey` | src/components/pruebas/ManualTestBuilder.tsx:182-184 | A key whose first candidate lacks usable names gets no chip, even if a later candidate is named. |
| `ManualBuilder.CourseSectionChips` | src/components/pruebas/ManualTestBuilder.tsx:161-189 | No user means no chips. Otherwise the chips are the first candidate of each key, among those with usable names. |
| `ManualBuilder.NameById` | src/components/pruebas/ManualTestBuilder.tsx:200 | Every subject id maps to a non-empty display name. |
| `ManualBuilder.SubjectChips` | src/components/pruebas/ManualTestBuilder.tsx:192-211 | No user or no section means no chips; chips have distinct, non-empty keys and labels. |
| `ManualBuilder.SubjectChipsCover` | src/components/pruebas/ManualTestBuilder.tsx:194-209 | Every keyed assignment of the teacher in the section has a chip. |
| `ManualBuilder.SubjectChipsSound` | src/components/pruebas/ManualTestBuilder.tsx:194-209 | Every chip comes from an assignment of the teacher in that section. |
| `ManualBuilder.IdSuffixIsIndex` | src/components/pruebas/ManualTestBuilder.tsx:306 | The stored id gives back the question's position. |
| `ManualBuilder.Store` | src/components/pruebas/ManualTestBuilder.tsx:305-327 | Type and text are kept. A true/false answer defaults to false, a choice index to 0 and options to []. An essay has a prompt exactly when prompt or text is non-empty. |
| `ManualBuilder.Transform` | src/components/pruebas/ManualTestBuilder.tsx:304-328 | The transform keeps count and order, storing question i with index i. |
| `ManualBuilder.TransformIdsDistinct` | src/components/pruebas/ManualTestBuilder.tsx:306 | No two stored questions share an id. |
| `ManualBuilder.PointsInput` | src/components/pruebas/ManualTestBuilder.tsx:645 | The points are always at least 1, and an entry of at least 1 is kept. |
| `ManualBuilder.AfterAnalysis` | src/components/pruebas/ManualTestBuilder.tsx:246-272 | A failed analysis changes nothing. A successful one redistributes the weights and fills an empty topic with a detected one. |
| `ManualBuilder.SubjectNameIsNameOrId` | src/components/pruebas/ManualTestBuilder.tsx:296-301 | The subject name is the name of the subject with that id, else the id itself; the by-name lookup never changes it. |
| `ManualBuilder.SubjectNameFor` | src/components/pruebas/ManualTestBuilder.tsx:296-301 | A chosen subject id never yields an empty subject name. |
| `ManualBuilder.IsValid` | src/components/pruebas/ManualTestBuilder.tsx:284-286 | No contract of its own; `ManualBuilder.CreateTest` states that a test is built exactly when it holds and a user is signed in. |
| `ManualBuilder.FindBy` | src/components/pruebas/ManualTestBuilder.tsx:297 | A record found is in the list and has the sought field value. |
| `ManualBuilder.CreateTest` | src/components/pruebas/ManualTestBuilder.tsx:284-351 | A test is built exactly when the form is valid and a user is signed in. It has a non-empty title and topic, and its questions are the transform of the analysis. |
| `Lists.FirstOccurrences` | src/components/pruebas/ManualTestBuilder.tsx:148-156 | The first occurrence of each key is kept: keys are distinct, none is lost, and the elements come from the input. |
| `Lists.KeptAreFirst` | src/components/pruebas/ManualTestBuilder.tsx:153-155 | Every element kept is the first in the input with its key. |
| `Lists.Unique` | src/components/pruebas/ManualTestBuilder.tsx:148-156 | The loop with a `seen` set computes exactly the first occurrences. |
| `Lists.UniqueThenFilter` | src/components/pruebas/ManualTestBuilder.tsx:170-188 | The chip loop, which marks a key seen before the name check, computes the named first occurrences. |
| `Fences.StripFences` | src/ai/flows/generate-evaluation-content.ts:641-652 | The stripped reply is trimmed and never longer than the reply. |
| `Fences.UnfencedReplyOnlyTrimmed` | src/ai/flows/generate-evaluation-content.ts:641-652 | An unfenced reply is only trimmed. |
| `Fences.JsonFenceRoundTrip` | src/lib/openrouter.ts:160-170 | A body fenced as "```json" … "```" comes back trimmed. |
| `Fences.PlainFenceRoundTrip` | src/lib/openrouter.ts:160-170 | A body fenced as "```" … "```" comes back trimmed. |
| `Fences.CleanReply` | src/app/api/analyze-ocr-vision/route.ts:7-10 | Removing every fence marker and trimming gives trimmed text no longer than the reply. |
| `Fences.CleanPlainReply` | src/app/api/analyze-ocr/route.ts:156 | A reply without backticks is only trimmed. |
| `Fences.CleanFencedReply` | src/app/api/analyze-ocr-vision/route.ts:7-10 | A "```json" block is read as its trimmed body. |
| `Env.FirstSet` | src/app/api/analyze-ocr-vision/route.ts:24-31 | The key found is a non-empty value of some listed variable; none means every listed variable is unset. |
| `Env.KeyOrdersDisagree` | src/app/api/analyze-ocr/route.ts:16 | The two key orders can pick different keys from the same environment. |
| `OcrVision.BraceSlice` | src/app/api/analyze-ocr-vision/route.ts:16-19 | The slice starts with '{' and ends with '}'. |
| `OcrVision.SafeJsonParse` | src/app/api/analyze-ocr-vision/route.ts:6-22 | A cleaned reply that parses is the answer. Otherwise the brace slice is tried, and "no JSON" is reported exactly when there is no well-placed brace pair. |
| `OcrVision.ProseAroundObjectIgnored` | src/app/api/analyze-ocr-vision/route.ts:16-20 | Prose around a single object, with no braces of its own, is ignored: the object alone is parsed. |
| `OcrVision.FencedReplyReadsAsBody` | src/app/api/analyze-ocr-vision/route.ts:7-10 | A fenced reply is read exactly as its body. |
| `OcrVision.StripDataUrl` | src/app/api/analyze-ocr-vision/route.ts:33-38 | Text that is not a data URL is PNG data, unchanged. |
| `OcrVision.DataUrlRoundTrip` | src/app/api/analyze-ocr-vision/route.ts:34-35 | "data:M;base64,P" comes back as media type M and payload P. |
| `OcrVision.PlainPayloadIsPng` | src/app/api/analyze-ocr-vision/route.ts:36-37 | A payload without the "data:" prefix is taken as PNG, unchanged. |
| `OcrVision.QuestionCount` | src/app/api/analyze-ocr-vision/route.ts:62 | The count is positive exactly for a positive number, and is then that number. |
| `OcrVision.Present` | src/app/api/analyze-ocr-vision/route.ts:63 | Only non-empty values are kept, and none are kept exactly when all are absent or empty. |
| `OcrVision.ContextLineEmpty` | src/app/api/analyze-ocr-vision/route.ts:63 | The context line is empty exactly when title, subject and topic are all falsy. |
| `OcrVision.ContextLineJoinsPresent` | src/app/api/analyze-ocr-vision/route.ts:63 | The context line joins the truthy values with " \| ", in order. |
| `OcrVision.Prepare` | src/app/api/analyze-ocr-vision/route.ts:50-178 | No images means a 400 error, and no key means "not configured". Otherwise the model call carries the first key and one image part per image. |
| `OcrVision.NoModelCallWithoutInputOrKey` | src/app/api/analyze-ocr-vision/route.ts:50-57 | Without images or a key the answer does not depend on the model. |
| `OcrVision.StatusCodes` | src/app/api/analyze-ocr-vision/route.ts:50-197 | Status 400 comes exactly for missing images, and 500 only when the model call fails. Every failure carries a message. |
| `OcrVision.Respond` | src/app/api/analyze-ocr-vision/route.ts:180-197 | A failed model call is a 500 with a non-empty message (the error's own when it has one). A reply the tolerant parse reads is the analysis with the raw text; otherwise the raw text is reported unparsed. |
| `OcrVision.Post` | src/app/api/analyze-ocr-vision/route.ts:40-197 | 400 exactly without images, "not configured" exactly without a key, a failure exactly when the model call throws, and an analysis only from the tolerant parse of the reply. |
| `Ocr.PrefixesExclusive` | src/app/api/analyze-ocr/route.ts:28 | No text starts with two different image prefixes. |
| `Ocr.StripImagePrefix` | src/app/api/analyze-ocr/route.ts:28 | A leading image prefix is removed; any other text is unchanged. |
| `Ocr.ImagePrefixRoundTrip` | src/app/api/analyze-ocr/route.ts:28 | Stripping a prefixed payload gives back the payload. |
| `Ocr.Positives` | src/app/api/analyze-ocr/route.ts:45 | Exactly the positive numbers are kept. |
| `Ocr.PositivesAppend` | src/app/api/analyze-ocr/route.ts:45 | The filter works piecewise, so it keeps input order. |
| `Ocr.FocusNums` | src/app/api/analyze-ocr/route.ts:44-46 | Without a list there are no focus numbers; otherwise they are the positive conversions, in order. |
| `Ocr.FocusLine` | src/app/api/analyze-ocr/route.ts:47-49 | The focus line is empty exactly when there are no focus numbers. |
| `Ocr.FocusLineInjective` | src/app/api/analyze-ocr/route.ts:47-49 | Different focus numbers give different lines, so the line lists exactly those numbers. |
| `Ocr.Clip` | src/app/api/analyze-ocr/route.ts:35 | `substring(0, n)` is a prefix of at most n characters, and an absent text prints "undefined". |
| `Ocr.Letter` | src/app/api/analyze-ocr/route.ts:37 | Option j is labelled with the character code 65+j. |
| `Ocr.QuestionLine` | src/app/api/analyze-ocr/route.ts:33-41 | Line i starts with `P{i+1}: `. |
| `Ocr.LineNumbersDistinct` | src/app/api/analyze-ocr/route.ts:35-40 | Different positions give different lines. |
| `Ocr.QuotedTextIsClipped` | src/app/api/analyze-ocr/route.ts:34-38 | True/false lines quote the first 50 characters of the text. Single-choice lines quote the first 40 and list the options, the first labelled "A) ". |
| `Ocr.Lines` | src/app/api/analyze-ocr/route.ts:33-41 | There is one line per question, in order. |
| `Ocr.QuestionsContext` | src/app/api/analyze-ocr/route.ts:31-42 | Without questions the generic outline is used. |
| `Ocr.OutlineListsEveryQuestion` | src/app/api/analyze-ocr/route.ts:31-41 | The outline contains every question's line. |
| `Ocr.TotalQuestions` | src/app/api/analyze-ocr/route.ts:51 | The total is the length of the question list, and 0 without one. |
| `Ocr.OutlineMatchesTotal` | src/app/api/analyze-ocr/route.ts:31-58 | The range "from 1 to N" of the prompt agrees with the outline: each of the first N questions appears in it as its numbered line, and with N = 0 the outline is the generic hint. |
| `Ocr.Prepare` | src/app/api/analyze-ocr/route.ts:12-145 | No image means a 400 error, and no key means "not configured". Otherwise the call carries the first key and a JPEG part with the stripped payload; the focus line is empty exactly without focus numbers. The call's outline is the question outline and its total is the question count. |
| `Ocr.NoModelCallWithoutInputOrKey` | src/app/api/analyze-ocr/route.ts:12-21 | Without an image or a key the answer does not depend on the model: status 400 or 200. |
| `Ocr.Respond` | src/app/api/analyze-ocr/route.ts:148-182 | A failed model call reports the error's message. A reply whose cleaned text parses, and on whose analysis the log line of 159 does not throw, is the analysis, echoing the page number. Every other reply, including a parsed one that makes that line throw, is reported unparsed with its raw text. |
| `Ocr.Post` | src/app/api/analyze-ocr/route.ts:8-183 | 400 exactly without an image, "not configured" exactly without a key, a failure exactly when the model call throws, and an analysis only from the strict parse of the cleaned reply on which the log line of 159 does not throw, with the page number echoed. |
| `Ocr.LogThrowIsParseError` | src/app/api/analyze-ocr/route.ts:155-172 | A reply that parses but makes the log line throw (for example `null`, `{"answers":5}` or `{"answers":[null]}`) is answered as a parse error carrying the raw text. |
| `Ocr.ProseDefeatsStrictParse` | src/app/api/analyze-ocr/route.ts:155-174 | A reply with prose around its object is a parse failure here, although the vision route's parser would read it. |
| `AiStatus.Status` | src/app/api/ai-status/route.ts:6-66 | AI is active exactly when OpenRouter or Google is configured, and OpenRouter is preferred. Google reports its fixed model and a key length of at least 30. |
| `AiStatus.OpenRouterModelChoice` | src/app/api/ai-status/route.ts:22 | OpenRouter runs OPENROUTER_MODEL when it is set, else the default model. |
| `AiStatus.ShortKeysInactive` | src/app/api/ai-status/route.ts:7-14 | With every key shorter than 30 characters, AI is inactive. |
| `AiStatus.PlaceholderHidesLaterKeys` | src/app/api/ai-status/route.ts:10-14 | A placeholder in GOOGLE_AI_API_KEY hides real keys in the later variables. |
| `AiStatus.Fallback` | src/app/api/ai-status/route.ts:68-78 | The error answer is active exactly when an OpenRouter key or one of the first three Google keys is set, and always gives a reason. |
| `AiStatus.FallbackAcceptsActive` | src/app/api/ai-status/route.ts:70-74 | Whatever the regular check accepts, the error path accepts too, unless the only key is the public one. |
| `AiStatus.FallbackAcceptsShortKey` | src/app/api/ai-status/route.ts:70 | The error path accepts an OpenRouter key the regular check rejects as too short. |
| `AiStatus.FallbackIgnoresPublicKey` | src/app/api/ai-status/route.ts:71 | A lone valid NEXT_PUBLIC_GOOGLE_API_KEY activates the regular answer but not the error answer. |
| `OpenRouter.NewClient` | src/lib/openrouter.ts:46-52 | Every setting except the key has a non-empty default. The key is empty exactly when neither the config nor the environment gives one. |
| `OpenRouter.ConfigOverridesEnv` | src/lib/openrouter.ts:47-50 | Settings given in the config make the client independent of the environment. |
| `OpenRouter.SharedClientFromEnv` | src/lib/openrouter.ts:272 | The shared client takes its key and model from the environment, falling back to the default model and site name. |
| `OpenRouter.ChatRequest` | src/lib/openrouter.ts:67-90 | Without a key, `chat` fails before sending. Otherwise the request carries the messages, the bearer key and the response format; temperature and max tokens default with `??` (0.7 and 4096). |
| `OpenRouter.ReadReply` | src/lib/openrouter.ts:92-106 | The answer is the first choice. An empty or missing choice list is "No response", and an HTTP error is reported with its status. |
| `OpenRouter.Chat` | src/lib/openrouter.ts:58-107 | Without a key every call fails with the configuration error. With one, the answer is the first choice when there is one, and an HTTP error is reported as such. |
| `OpenRouter.Messages` | src/lib/openrouter.ts:116-128 | The conversation is [system, user] with a system prompt and [user] without one; the user turn is the prompt. |
| `OpenRouter.ToChatOptions` | src/lib/openrouter.ts:130-135 | A response format is requested exactly in JSON mode, and it is `json_object`. |
| `OpenRouter.JsonSystemPrompt` | src/lib/openrouter.ts:147-149 | A given system prompt is kept and extended with the JSON instruction; without one, the fixed default is used. |
| `OpenRouter.JsonRequestShape` | src/lib/openrouter.ts:147-155 | Every configured JSON request asks for a JSON object, opens with a system turn demanding JSON, and ends with the prompt. |
| `OpenRouter.ParseCleaned` | src/lib/openrouter.ts:172-176 | A cleaned reply that parses is the answer; otherwise the fixed parse error is reported. |
| `OpenRouter.GenerateJson` | src/lib/openrouter.ts:138-177 | Without a key the call fails with the configuration error. Otherwise it succeeds exactly when a first choice exists and parses after fence stripping, and a first choice that does not parse is the parse error. |
| `OpenRouter.UnconfiguredNeverSends` | src/lib/openrouter.ts:67-69 | Without a key every call fails the same way, whatever the server would have said. |
| `OpenRouter.FencedJsonReplyParses` | src/lib/openrouter.ts:159-172 | A "```json" fenced reply is parsed as its trimmed body. |

## Left out

- Network and model calls (Gemini, OpenRouter `fetch`, Genkit prompts, the server-sent events of the tests page) are replies given as inputs. Request bodies are reduced to the fields the logic reads.
- `JSON.parse` and the zod schemas are an abstract partial function. The parsed shape is a datatype holding only the fields the code reads.
- Randomness and time are inputs:
  - `Date.now()` and `Math.random()` are natural numbers;
  - shuffles are arbitrary functions;
  - the progress increments are a function of round and position.
- The literal prompt texts, question banks and template tables are abstract non-empty tables. The five general essay templates are opaque apart from their number, which the type `TestsPage.EssayTable` fixes.
- React state, effects, rendering, `localStorage`, `StorageEvent` dispatch, the dynamic `LocalStorageManager` import and the guardian lookup chains of the grade monitor are not modelled.
- Logging output, `timestamp` fields of responses, `features` lists and other display-only texts (`toFixed(1)` formatting, suggestion texts, activity breakdowns `bySubjectActivity` and `cleanTopic`) are not modelled.
- The log line of the strict parse in the OCR route can throw, and that changes the response (`Ocr.Respond`, `Ocr.LogThrowIsParseError`). When it throws is an abstract predicate `logs` over the parsed analysis, because JSON objects are not modelled field by field.
- `src/app/api/notifications/send-email/route.ts`, `src/app/api/test-ai/route.ts` and `src/ai/genkit.ts` are not part of this model. They are e-mail templating, a connectivity test and provider dispatch over SDKs.
- The convenience methods of the OpenRouter client (`generateEvaluation`, `generateSummary`, `generateSlideContent`) only fill prompt texts and call `generateContent`, so they are not modelled separately.
- The exception paths of the routes that only a failing `request.json()` or a malformed body reaches (for example a non-string `imageBase64`) are not modelled. The model's call failing is modelled, as a 500.
- `isLanguage` in the test page detection is computed but never used, so it is not modelled.
- `Strings.Lower`/`Strings.Upper` map ASCII and Latin-1 letters only. The accent stripping of `normalize('NFD')` followed by the removal of U+0300-U+036F is modelled as a per-character fold over the Latin-1 accented letters.
- String lengths and cut positions (`substring`, `slice`, `length >= 30`) count characters, not UTF-16 code units. The two differ only on characters outside the Basic Multilingual Plane, such as emoji. This applies to `Ocr.Clip`, `Ocr.QuotedTextIsClipped`, `TeacherMonitor.ExtractActType`, `TeacherMonitor.NoKeywordKeepsPrefix`, `TeacherMonitor.FallbackCode`, `TeacherMonitor.CodeFor`, `AiStatus.HasOpenRouter` and `AiStatus.HasGoogle`.
- `Ocr.Letter`: the `String.fromCharCode(65 + j)` label is stated only below U+D800. Surrogate code units are not characters in Dafny.
- `Ocr.FocusNums`: `Number(n)` is a parameter returning an integer or nothing. Fractional focus numbers, which JavaScript keeps when positive, are not modelled.
- `OcrVision.QuestionCount`: the count is an integer. Positive fractional counts and `Infinity`, which the route keeps and echoes as `typeof number` values, are not modelled.
- `EvaluationFlow.RequestedCount`: the count is an integer. The input schema's `z.number()` also admits a fractional count such as 2.5. The type split would then hand the third loop a fractional count, and no reply could match the count exactly. Fractional and infinite counts are not modelled.
- `ManualBuilder.Redistribute`: assumes the analysis response lists its counts in the key order tf, mc, ms, des. The remainder goes to the first active type in that order; a response with another key order is not modelled.
- `ManualBuilder.PointsInput`: the entered value is an integer. `Math.max(1, Number(value || 0))` keeps a fractional entry such as 2.5, which is not modelled.
- `GradeMonitor.Analyze`: scores and averages are exact reals, not JavaScript doubles.
- `TestsPage.Detect`: the contract states only that mathematics implies exact science. The keyword patterns themselves are the `Patterns` expressions in the body.
- `TestsPage.MathFamilyOf`: the contract states only the level band of the sums family. The first-match order, for all seven bands, is the `TestsPage.MathFamilyIsFirstMatch` lemma.
- `TestsPage.CourseLevel`: the contract states only the range 1-5. The first-match order is the `TestsPage.CourseLevelIsFirstBand` lemma.
- `TeacherMonitor.ExtractActType`: the contract states the no-keyword case. The keyword order is the `TeacherMonitor.FirstHit` contract, and "Tarea" winning is the `TeacherMonitor.TareaFirst` lemma.
- `EvaluationFlow.AppendUnique`: follows the corrected guard `EvaluationFlow.TryMakeUnique`, not the code. The loop as written is `EvaluationFlow.AppendAsWritten`, which can repeat a question (`EvaluationFlow.AsWrittenLoopRepeats`).
- `EvaluationFlow.GenerateUniqueQuestions`: its distinct signatures come from the corrected guard. As written, the three loops can repeat a forced " (variante)" question.
- `EvaluationFlow.GenerateDynamicEvaluation`: the distinct signatures of its fallback answer come from the corrected guard, not from the code as written.
- `EvaluationFlow.GenerateDynamicEvaluation`: the fallback generators are given as functions of their index (`Makers`). Their template bodies (lines 712-1614) are not modelled.
- The Google branch of `generateDynamicEvaluationContent` (lines 679-684) does nothing and is not modelled.

## Findings

| source | as written | input that shows it | evidently intended | confidence | as-written member | corrected member |
|---|---|---|---|---|---|---|
| src/ai/flows/generate-evaluation-content.ts:1633-1637 | When all 25 attempts have used signatures, the forced `make(base + 999)` question gets " (variante)" appended. Its signature is then added to the set without checking it. | A generator that ignores its index (every call returns the same question) and two calls after the first. The second call forces "text (variante)". The third call forces the same text again, so the evaluation holds a duplicate. In the loop, this happens for a topic without PDF content that is neither mathematical nor respiratory, with 15 questions: the generic true/false statement ignores its index, and the second and third questions repeat (`EvaluationFlow.AsWrittenLoopRepeats`). | The forced question should be unique within the evaluation, as the comment "forzar unicidad mínima" says. | not executed | `EvaluationFlow.AsWrittenRepeatsForcedQuestion` | `EvaluationFlow.TryMakeUnique` |

=== FILE: ai_status.dfy ===
/** `GET /api/ai-status`: which AI provider the deployment's environment
    makes available. OpenRouter is preferred; Google is the alternative. */
module AiStatus {
  import opened Js
  import opened Env

  const OpenRouterKey: string := "OPENROUTER_API_KEY"
  const OpenRouterModel: string := "OPENROUTER_MODEL"
  const DefaultOpenRouterModel: string := "openai/gpt-4o-mini"
  const GoogleModel: string := "gemini-2.0-flash"

  /** The value the example environment file ships with. */
  const Placeholder: string := "your_google_api_key_here"

  /** Shorter keys are taken as unset. */
  const MinKeyLength: nat := 30

  /** An OpenRouter key of at least 30 characters. */
  predicate HasOpenRouter(env: Env) {
    |Lookup(env, OpenRouterKey)| >= MinKeyLength
  }

  /** The first set Google key is real: not the placeholder, at least 30
      characters. Later keys are not consulted. */
  predicate HasGoogle(env: Env) {
    var key := FirstSet(env, GoogleKeys);
    key.Some? && key.value != Placeholder && |key.value| >= MinKeyLength
  }

  datatype Provider = OpenRouter | Google

  /** The answer of the route; `keyLength` is reported for Google only. */
  datatype AiStatus = Active(provider: Provider, model: string, keyLength: Option<nat>) | Inactive

  function Status(env: Env): (r: AiStatus)
    ensures r.Active? <==> HasOpenRouter(env) || HasGoogle(env)
    ensures r.Active? ==> (r.provider == OpenRouter <==> HasOpenRouter(env))
    ensures r.Active? && r.provider == OpenRouter ==> r.model != "" && r.keyLength.None?
    ensures r.Active? && r.provider == Google
            ==> r.model == GoogleModel && r.keyLength.Some? && r.keyLength.value >= MinKeyLength
  {
    if HasOpenRouter(env) then
      Active(OpenRouter, Or(Lookup(env, OpenRouterModel), DefaultOpenRouterModel), None)
    else if HasGoogle(env) then
      Active(Google, GoogleModel, Some(|FirstSet(env, GoogleKeys).value|))
    else Inactive
  }

  /** OpenRouter runs the model OPENROUTER_MODEL names, or the default. */
  lemma OpenRouterModelChoice(env: Env)
    requires HasOpenRouter(env)
    ensures Lookup(env, OpenRouterModel) != "" ==> Status(env).model == Lookup(env, OpenRouterModel)
    ensures Lookup(env, OpenRouterModel) == "" ==> Status(env).model == DefaultOpenRouterModel
  {
  }

  /** Keys that are all too short leave the platform without AI. */
  lemma ShortKeysInactive(env: Env)
    requires |Lookup(env, OpenRouterKey)| < MinKeyLength
    requires forall k :: 0 <= k < |GoogleKeys| ==> |Lookup(env, GoogleKeys[k])| < MinKeyLength
    ensures Status(env) == Inactive
  {
  }

  /** A placeholder in GOOGLE_AI_API_KEY hides a real key in any later
      variable. */
  lemma PlaceholderHidesLaterKeys(env: Env)
    requires !HasOpenRouter(env)
    requires Lookup(env, "GOOGLE_AI_API_KEY") == Placeholder
    ensures Status(env) == Inactive
  {
    FirstOfFour(env, GoogleKeys);
  }

  /** The answer when checking itself failed: any non-empty OpenRouter key,
      or any of the first three Google variables, counts. */
  datatype FallbackStatus = FallbackStatus(isActive: bool, reason: string)

  function Fallback(env: Env): (r: FallbackStatus)
    ensures r.isActive <==> Lookup(env, OpenRouterKey) != "" || FirstSet(env, GoogleKeys[..3]).Some?
    ensures r.reason != ""
  {
    var openRouter := Lookup(env, OpenRouterKey) != "";
    var google := FirstSet(env, GoogleKeys[..3]).Some?;
    FallbackStatus(
      openRouter || google,
      if openRouter then "IA via OpenRouter (modo respaldo)"
      else if google then "IA via Google (modo respaldo)"
      else "Error de configuración")
  }

  /** The fallback accepts whatever the regular check accepts, unless the
      only Google key is NEXT_PUBLIC_GOOGLE_API_KEY, which it ignores. */
  lemma FallbackAcceptsActive(env: Env)
    requires Status(env).Active?
    requires Lookup(env, "NEXT_PUBLIC_GOOGLE_API_KEY") == ""
    ensures Fallback(env).isActive
  {
    FirstOfFour(env, GoogleKeys);
    var first3 := GoogleKeys[..3];
    assert first3[0] == GoogleKeys[0] && first3[1] == GoogleKeys[1] && first3[2] == GoogleKeys[2];
  }

  /** ... and it also accepts keys the regular check rejects as too short. */
  lemma FallbackAcceptsShortKey(env: Env)
    requires 0 < |Lookup(env, OpenRouterKey)| < MinKeyLength
    ensures !HasOpenRouter(env) && Fallback(env).isActive
  {
  }

  /** A lone public Google key activates the regular answer but not the
      fallback. */
  lemma FallbackIgnoresPublicKey(env: Env)
    requires Lookup(env, OpenRouterKey) == ""
    requires Lookup(env, "GOOGLE_AI_API_KEY") == "" && Lookup(env, "GOOGLE_API_KEY") == "" && Lookup(env, "GEMINI_API_KEY") == ""
    requires |Lookup(env, "NEXT_PUBLIC_GOOGLE_API_KEY")| >= MinKeyLength
    requires Lookup(env, "NEXT_PUBLIC_GOOGLE_API_KEY") != Placeholder
    ensures Status(env).Active? && Status(env).provider == Google
    ensures !Fallback(env).isActive
  {
    PublicKeyIsFirstSet(env);
    FirstThreeUnset(env);
  }

  lemma PublicKeyIsFirstSet(env: Env)
    requires Lookup(env, "GOOGLE_AI_API_KEY") == "" && Lookup(env, "GOOGLE_API_KEY") == "" && Lookup(env, "GEMINI_API_KEY") == ""
    ensures FirstSet(env, GoogleKeys) == if Lookup(env, "NEXT_PUBLIC_GOOGLE_API_KEY") == "" then None
                                        else Some(Lookup(env, "NEXT_PUBLIC_GOOGLE_API_KEY"))
  {
    assert GoogleKeys[0] == "GOOGLE_AI_API_KEY" && GoogleKeys[1] == "GOOGLE_API_KEY";
    assert GoogleKeys[2] == "GEMINI_API_KEY" && GoogleKeys[3] == "NEXT_PUBLIC_GOOGLE_API_KEY";
    FirstOfFour(env, GoogleKeys);
  }

  lemma FirstThreeUnset(env: Env)
    requires Lookup(env, "GOOGLE_AI_API_KEY") == "" && Lookup(env, "GOOGLE_API_KEY") == "" && Lookup(env, "GEMINI_API_KEY") == ""
    ensures FirstSet(env, GoogleKeys[..3]).None?
  {
    var first3 := GoogleKeys[..3];
    assert first3[0] == "GOOGLE_AI_API_KEY" && first3[1] == "GOOGLE_API_KEY" && first3[2] == "GEMINI_API_KEY";
  }
}

=== FILE: env.dfy ===
/** The process environment the server routes read their keys from. */
module Env {
  import opened Js

  /** `process.env`: a variable that is not set is absent from the map. */
  type Env = map<string, string>

  /** A variable as `||` sees it: an unset variable is as falsy as "". */
  function Lookup(env: Env, name: string): string {
    if name in env then env[name] else ""
  }

  /** `env[a] || env[b] || ...`: the value of the first variable, in the
      given order, that is set to a non-empty string; `None` when there is
      none. */
  function FirstSet(env: Env, names: seq<string>): (r: Option<string>)
    ensures r.None? <==> forall j :: 0 <= j < |names| ==> Lookup(env, names[j]) == ""
    ensures r.Some? ==> r.value != "" && exists k :: 0 <= k < |names| && Lookup(env, names[k]) == r.value
                                                 && forall j :: 0 <= j < k ==> Lookup(env, names[j]) == ""
  {
    if |names| == 0 then None
    else if Lookup(env, names[0]) != "" then
      Some(Lookup(env, names[0]))
    else
      var r := FirstSet(env, names[1..]);
      if r.Some? then
        var k :| 0 <= k < |names[1..]| && Lookup(env, names[1..][k]) == r.value
                 && forall j :: 0 <= j < k ==> Lookup(env, names[1..][j]) == "";
        assert Lookup(env, names[k + 1]) == r.value;
        r
      else r
  }

  /** The Google key order of the status route and the vision OCR route. */
  const GoogleKeys: seq<string> := ["GOOGLE_AI_API_KEY", "GOOGLE_API_KEY", "GEMINI_API_KEY", "NEXT_PUBLIC_GOOGLE_API_KEY"]

  /** The Google key order of the single-page OCR route: GEMINI_API_KEY
      before GOOGLE_API_KEY. */
  const OcrKeys: seq<string> := ["GOOGLE_AI_API_KEY", "GEMINI_API_KEY", "GOOGLE_API_KEY", "NEXT_PUBLIC_GOOGLE_API_KEY"]

  /** With four names, `FirstSet` is the `||` chain written out. */
  lemma FirstOfFour(env: Env, names: seq<string>)
    requires |names| == 4
    ensures FirstSet(env, names)
         == if Lookup(env, names[0]) != "" then Some(Lookup(env, names[0]))
            else if Lookup(env, names[1]) != "" then Some(Lookup(env, names[1]))
            else if Lookup(env, names[2]) != "" then Some(Lookup(env, names[2]))
            else if Lookup(env, names[3]) != "" then Some(Lookup(env, names[3]))
            else None
  {
    var t := names[1..];
    assert t[0] == names[1] && t[1..][0] == names[2] && t[1..][1..][0] == names[3];
    assert |t[1..][1..][1..]| == 0;
  }

  /** The two orders agree except when GOOGLE_AI_API_KEY is empty and both
      GOOGLE_API_KEY and GEMINI_API_KEY are set to different values. */
  lemma KeyOrdersDisagree(env: Env)
    ensures FirstSet(env, GoogleKeys) != FirstSet(env, OcrKeys)
        <==> Lookup(env, "GOOGLE_AI_API_KEY") == "" && Lookup(env, "GOOGLE_API_KEY") != ""
             && Lookup(env, "GEMINI_API_KEY") != "" && Lookup(env, "GOOGLE_API_KEY") != Lookup(env, "GEMINI_API_KEY")
  {
    assert GoogleKeys[0] == OcrKeys[0] == "GOOGLE_AI_API_KEY";
    assert GoogleKeys[1] == OcrKeys[2] == "GOOGLE_API_KEY";
    assert GoogleKeys[2] == OcrKeys[1] == "GEMINI_API_KEY";
    assert GoogleKeys[3] == OcrKeys[3];
    FirstOfFour(env, GoogleKeys);
    FirstOfFour(env, OcrKeys);
  }
}

=== FILE: evaluation.dfy ===
/** The evaluation generator (`generateEvaluationContent` and
    `generateDynamicEvaluationContent`): how a requested question count is
    split into true/false, single-choice and multiple-selection questions, the
    template ("mock") generator used without a Google key, acceptance of a
    language-model reply, the rule-based fallback engine with its per-evaluation
    uniqueness guard, and the error fallbacks. Question texts, templates, the
    model reply, `JSON.parse` and the clock are inputs. */
module EvaluationFlow {
  import opened Strings
  import opened Js
  import opened Fences

  datatype Kind = TrueFalse | MultipleChoice | MultipleSelection

  /** The `type` tag the question carries. */
  function TypeName(k: Kind): string {
    match k
    case TrueFalse => "TRUE_FALSE"
    case MultipleChoice => "MULTIPLE_CHOICE"
    case MultipleSelection => "MULTIPLE_SELECTION"
  }

  datatype Question =
    | TF(id: string, text: string, answer: bool, explanation: string)
    | MC(id: string, text: string, options: seq<string>, correctIndex: int, explanation: string)
    | MS(id: string, text: string, options: seq<string>, correctIndices: seq<int>, explanation: string)

  function KindOf(q: Question): Kind {
    match q
    case TF(_, _, _, _) => TrueFalse
    case MC(_, _, _, _, _) => MultipleChoice
    case MS(_, _, _, _, _) => MultipleSelection
  }

  datatype Evaluation = Evaluation(title: string, questions: seq<Question>)

  /** `input.language === 'es'`; every other language gets the English texts. */
  predicate IsSpanish(language: string) {
    language == "es"
  }

  /** `input.questionCount || 15`: an absent or zero count means 15. */
  function RequestedCount(questionCount: int): (n: int)
    ensures questionCount != 0 ==> n == questionCount
    ensures questionCount == 0 ==> n == 15
  {
    if questionCount != 0 then questionCount else 15
  }

  // ---------------------------------------------------------------------------
  // Splitting the count into thirds

  /** `Math.round(a / b)` for a positive divisor: the nearest integer, halves
      rounded up. */
  function RoundDiv(a: int, b: int): (r: int)
    requires b > 0
    ensures 2 * b * r <= 2 * a + b < 2 * b * r + 2 * b
  {
    (2 * a + b) / (2 * b)
  }

  datatype Split = Split(tf: int, mc: int, ms: int)

  /** `tf = round(n/3)`, `mc = round((n - tf)/2)`, `ms = n - tf - mc`. */
  function TypeSplit(n: int): (s: Split)
    ensures s.tf + s.mc + s.ms == n
    ensures n >= 0 ==> s.tf >= 0 && s.mc >= 0 && s.ms >= 0
    ensures n < 0 ==> s.tf <= 0 && s.mc <= 0 && s.ms <= 0
  {
    var tf := RoundDiv(n, 3);
    var mc := RoundDiv(n - tf, 2);
    Split(tf, mc, n - tf - mc)
  }

  /** The split is as even as integers allow: the multiple-selection share is
      the smallest and every other share exceeds it by at most one. */
  lemma SplitIsBalanced(n: int)
    requires n >= 0
    ensures var s := TypeSplit(n);
      s.ms <= s.mc <= s.ms + 1 && s.ms <= s.tf <= s.ms + 1
  {
  }

  /** The three loops together run `n` times (none for a negative `n`). */
  lemma SplitLoopsCoverCount(n: int)
    ensures var s := TypeSplit(n); Times(s.tf) + Times(s.mc) + Times(s.ms) == Times(n)
  {
  }

  // ---------------------------------------------------------------------------
  // Template ("mock") generation without a Google key

  datatype TfTemplate = TfTemplate(q: string, a: bool, e: string)
  datatype McTemplate = McTemplate(q: string, opts: seq<string>, correct: int)
  datatype MsTemplate = MsTemplate(q: string, opts: seq<string>, correct: seq<int>)

  /** One topic's question bank (the texts may mention the topic). */
  datatype MockBank = MockBank(trueFalse: seq<TfTemplate>, multipleChoice: seq<McTemplate>, multipleSelection: seq<MsTemplate>)

  predicate NonEmptyBank(b: MockBank) {
    |b.trueFalse| > 0 && |b.multipleChoice| > 0 && |b.multipleSelection| > 0
  }

  datatype TopicBanks = TopicBanks(respiratory: MockBank, cell: MockBank, photosynthesis: MockBank, generic: MockBank)

  /** The bank for a topic: first match of "respiratorio", "célula",
      "fotosíntesis"/"fotosintesis" in the lower-cased topic, otherwise the
      generic bank. */
  function ChooseBank(topic: string, banks: TopicBanks): (b: MockBank)
    ensures Contains(LowerStr(topic), "respiratorio") ==> b == banks.respiratory
    ensures !Contains(LowerStr(topic), "respiratorio") && Contains(LowerStr(topic), "célula") ==> b == banks.cell
    ensures !Contains(LowerStr(topic), "respiratorio") && !Contains(LowerStr(topic), "célula")
            && (Contains(LowerStr(topic), "fotosíntesis") || Contains(LowerStr(topic), "fotosintesis"))
            ==> b == banks.photosynthesis
    ensures !Contains(LowerStr(topic), "respiratorio") && !Contains(LowerStr(topic), "célula")
            && !Contains(LowerStr(topic), "fotosíntesis") && !Contains(LowerStr(topic), "fotosintesis")
            ==> b == banks.generic
  {
    var t := LowerStr(topic);
    if Contains(t, "respiratorio") then banks.respiratory
    else if Contains(t, "célula") then banks.cell
    else if Contains(t, "fotosíntesis") || Contains(t, "fotosintesis") then banks.photosynthesis
    else banks.generic
  }

  /** `xs[i]` as a template literal prints it: `"undefined"` out of range. */
  function At(xs: seq<string>, i: int): (r: string)
    ensures 0 <= i < |xs| ==> r == xs[i]
  {
    if 0 <= i < |xs| then xs[i] else "undefined"
  }

  function MockTf(t: TfTemplate, id: string): Question {
    TF(id, t.q, t.a, t.e)
  }

  function MockMc(t: McTemplate, id: string, es: bool): Question {
    var shown := At(t.opts, t.correct);
    MC(id, t.q, t.opts, t.correct,
       (if es then "La respuesta correcta es \"" else "The correct answer is \"") + shown + "\".")
  }

  function MockMs(t: MsTemplate, id: string, es: bool): Question {
    var first := if |t.correct| > 0 then At(t.opts, t.correct[0]) else "undefined";
    var second := if |t.correct| > 1 then At(t.opts, t.correct[1]) else "undefined";
    MS(id, t.q, t.opts, t.correct,
       (if es then "Las opciones correctas son \"" + first + "\" y \"" + second + "\"."
        else "The correct options are \"" + first + "\" and \"" + second + "\"."))
  }

  /** The three template loops: true/false, then single choice, then multiple
      selection, question `k` (0-based) with id `String(k + 1)`. */
  function MockQuestions(n: int, bank: MockBank, es: bool): (qs: seq<Question>)
    requires NonEmptyBank(bank)
    ensures |qs| == Times(n)
    ensures forall k :: 0 <= k < |qs| ==> qs[k].id == NatToString(k + 1)
  {
    var s := TypeSplit(n);
    SplitLoopsCoverCount(n);
    MockLayout(bank, Times(s.tf), Times(s.mc), Times(s.ms), es)
  }

  /** `a` true/false, `b` single-choice and `c` multiple-selection questions,
      numbered from 1 across the three loops. */
  function MockLayout(bank: MockBank, a: nat, b: nat, c: nat, es: bool): (qs: seq<Question>)
    requires NonEmptyBank(bank)
    ensures |qs| == a + b + c
    ensures forall k :: 0 <= k < |qs| ==> qs[k].id == NatToString(k + 1)
  {
    var tfs, mcs, mss := MockTfs(bank, a), MockMcs(bank, a, b, es), MockMss(bank, a + b, c, es);
    var qs := tfs + mcs + mss;
    forall k | 0 <= k < |qs|
      ensures qs[k].id == NatToString(k + 1)
    {
      if k < a {
        FirstOf(tfs, mcs, mss, k);
      } else if k < a + b {
        SecondOf(tfs, mcs, mss, k - a);
      } else {
        ThirdOf(tfs, mcs, mss, k - a - b);
      }
    }
    qs
  }

  lemma FirstOf<T>(x: seq<T>, y: seq<T>, z: seq<T>, i: int)
    requires 0 <= i < |x|
    ensures (x + y + z)[i] == x[i]
  {
  }

  lemma SecondOf<T>(x: seq<T>, y: seq<T>, z: seq<T>, i: int)
    requires 0 <= i < |y|
    ensures (x + y + z)[|x| + i] == y[i]
  {
  }

  lemma ThirdOf<T>(x: seq<T>, y: seq<T>, z: seq<T>, i: int)
    requires 0 <= i < |z|
    ensures (x + y + z)[|x| + |y| + i] == z[i]
  {
  }

  /** A template loop: question `i` of `count` is built from template
      `i % |ts|` and carries id `String(start + i + 1)`. */
  function Rotate<T, U>(ts: seq<T>, start: nat, count: nat, make: (T, string) -> U): (r: seq<U>)
    requires |ts| > 0
    ensures |r| == count
    ensures forall i :: 0 <= i < count ==> r[i] == make(ts[i % |ts|], NatToString(start + i + 1))
  {
    seq(count, i requires 0 <= i < count => make(ts[i % |ts|], NatToString(start + i + 1)))
  }

  /** True/false loop: `count` questions from position 0. */
  function MockTfs(bank: MockBank, count: nat): (r: seq<Question>)
    requires |bank.trueFalse| > 0
    ensures |r| == count
    ensures forall i :: 0 <= i < count ==> r[i] == MockTf(bank.trueFalse[i % |bank.trueFalse|], NatToString(i + 1))
  {
    Rotate(bank.trueFalse, 0, count, MockTf)
  }

  /** Single-choice loop: `count` questions from position `start`. */
  function MockMcs(bank: MockBank, start: nat, count: nat, es: bool): (r: seq<Question>)
    requires |bank.multipleChoice| > 0
    ensures |r| == count
    ensures forall i :: 0 <= i < count ==>
      r[i] == MockMc(bank.multipleChoice[i % |bank.multipleChoice|], NatToString(start + i + 1), es)
  {
    Rotate(bank.multipleChoice, start, count, (t, id) => MockMc(t, id, es))
  }

  /** Multiple-selection loop: `count` questions from position `start`. */
  function MockMss(bank: MockBank, start: nat, count: nat, es: bool): (r: seq<Question>)
    requires |bank.multipleSelection| > 0
    ensures |r| == count
    ensures forall i :: 0 <= i < count ==>
      r[i] == MockMs(bank.multipleSelection[i % |bank.multipleSelection|], NatToString(start + i + 1), es)
  {
    Rotate(bank.multipleSelection, start, count, (t, id) => MockMs(t, id, es))
  }

  /** The `i`-th true/false question copies template `i % length` of its bank. */
  lemma MockTrueFalseCopiesTemplate(n: int, bank: MockBank, es: bool, k: int)
    requires NonEmptyBank(bank)
    requires 0 <= k < Times(TypeSplit(n).tf)
    ensures k < |MockQuestions(n, bank, es)|
    ensures MockQuestions(n, bank, es)[k] == MockTf(bank.trueFalse[k % |bank.trueFalse|], NatToString(k + 1))
  {
    var s := TypeSplit(n);
    var a, b, c := Times(s.tf), Times(s.mc), Times(s.ms);
    var tfs := MockTfs(bank, a);
    assert MockQuestions(n, bank, es) == MockLayout(bank, a, b, c, es) == tfs + MockMcs(bank, a, b, es) + MockMss(bank, a + b, c, es);
    FirstOf(tfs, MockMcs(bank, a, b, es), MockMss(bank, a + b, c, es), k);
  }

  /** The `i`-th single-choice question copies template `i % length`,
      statement, options and correct index. */
  lemma MockChoiceCopiesTemplate(n: int, bank: MockBank, es: bool, i: int)
    requires NonEmptyBank(bank)
    requires 0 <= i < Times(TypeSplit(n).mc)
    ensures Times(TypeSplit(n).tf) + i < |MockQuestions(n, bank, es)|
    ensures var k := Times(TypeSplit(n).tf) + i;
      MockQuestions(n, bank, es)[k] == MockMc(bank.multipleChoice[i % |bank.multipleChoice|], NatToString(k + 1), es)
  {
    var s := TypeSplit(n);
    var a, b, c := Times(s.tf), Times(s.mc), Times(s.ms);
    SplitLoopsCoverCount(n);
    assert MockQuestions(n, bank, es) == MockLayout(bank, a, b, c, es);
    LayoutChoiceAt(bank, a, b, c, es, i);
  }

  lemma LayoutChoiceAt(bank: MockBank, a: nat, b: nat, c: nat, es: bool, i: int)
    requires NonEmptyBank(bank) && 0 <= i < b
    ensures MockLayout(bank, a, b, c, es)[a + i]
         == MockMc(bank.multipleChoice[i % |bank.multipleChoice|], NatToString(a + i + 1), es)
  {
    LayoutSecond(bank, a, b, c, es, i);
  }

  /** The second loop's questions follow the first loop's. */
  lemma LayoutSecond(bank: MockBank, a: nat, b: nat, c: nat, es: bool, i: int)
    requires NonEmptyBank(bank) && 0 <= i < b
    ensures MockLayout(bank, a, b, c, es)[a + i] == MockMcs(bank, a, b, es)[i]
  {
    var tfs, mcs, mss := MockTfs(bank, a), MockMcs(bank, a, b, es), MockMss(bank, a + b, c, es);
    assert MockLayout(bank, a, b, c, es) == tfs + mcs + mss;
    SecondOf(tfs, mcs, mss, i);
  }

  /** The `i`-th multiple-selection question copies template `i % length`,
      statement, options and correct indices. */
  lemma MockSelectionCopiesTemplate(n: int, bank: MockBank, es: bool, i: int)
    requires NonEmptyBank(bank)
    requires 0 <= i < Times(TypeSplit(n).ms)
    ensures Times(TypeSplit(n).tf) + Times(TypeSplit(n).mc) + i < |MockQuestions(n, bank, es)|
    ensures var k := Times(TypeSplit(n).tf) + Times(TypeSplit(n).mc) + i;
      MockQuestions(n, bank, es)[k] == MockMs(bank.multipleSelection[i % |bank.multipleSelection|], NatToString(k + 1), es)
  {
    var s := TypeSplit(n);
    var a, b, c := Times(s.tf), Times(s.mc), Times(s.ms);
    SplitLoopsCoverCount(n);
    assert MockQuestions(n, bank, es) == MockLayout(bank, a, b, c, es);
    LayoutSelectionAt(bank, a, b, c, es, i);
  }

  lemma LayoutSelectionAt(bank: MockBank, a: nat, b: nat, c: nat, es: bool, i: int)
    requires NonEmptyBank(bank) && 0 <= i < c
    ensures MockLayout(bank, a, b, c, es)[a + b + i]
         == MockMs(bank.multipleSelection[i % |bank.multipleSelection|], NatToString(a + b + i + 1), es)
  {
    LayoutThird(bank, a, b, c, es, i);
  }

  /** The third loop's questions follow the first two loops'. */
  lemma LayoutThird(bank: MockBank, a: nat, b: nat, c: nat, es: bool, i: int)
    requires NonEmptyBank(bank) && 0 <= i < c
    ensures MockLayout(bank, a, b, c, es)[a + b + i] == MockMss(bank, a + b, c, es)[i]
  {
    var tfs, mcs, mss := MockTfs(bank, a), MockMcs(bank, a, b, es), MockMss(bank, a + b, c, es);
    assert MockLayout(bank, a, b, c, es) == tfs + mcs + mss;
    ThirdOf(tfs, mcs, mss, i);
  }

  /** Different positions carry different ids. */
  lemma MockIdsDistinct(n: int, bank: MockBank, es: bool, i: int, j: int)
    requires NonEmptyBank(bank)
    requires 0 <= i < j < |MockQuestions(n, bank, es)|
    ensures MockQuestions(n, bank, es)[i].id != MockQuestions(n, bank, es)[j].id
  {
    if NatToString(i + 1) == NatToString(j + 1) {
      NatToStringInjective(i + 1, j + 1);
    }
  }

  /** "Evaluación - TOPIC" / "Evaluation - TOPIC" (the template path and the
      error fallback use this mixed-case prefix). */
  function MockTitle(topic: string, es: bool): string {
    (if es then "Evaluación - " else "Evaluation - ") + UpperStr(topic)
  }

  datatype EvaluationInput = EvaluationInput(topic: string, bookTitle: string, language: string, questionCount: int)

  const PlaceholderKey: string := "your_google_api_key_here"

  /** The single question returned when generation throws. */
  function ErrorFallback(input: EvaluationInput): (e: Evaluation)
    ensures |e.questions| == 1 && e.questions[0].TF? && e.questions[0].answer
    ensures e.questions[0].id == "1"
    ensures e.title == MockTitle(input.topic, IsSpanish(input.language))
  {
    var es := IsSpanish(input.language);
    Evaluation(MockTitle(input.topic, es), [
      TF("1",
         if es then "¿El tema \"" + input.topic + "\" está relacionado con \"" + input.bookTitle + "\"?"
         else "Is the topic \"" + input.topic + "\" related to \"" + input.bookTitle + "\"?",
         true,
         if es then "Pregunta generada como respaldo debido a un error en la API."
         else "Question generated as fallback due to an API error.")])
  }

  /** `generateEvaluationContent`. Without a usable `GOOGLE_API_KEY` the
      template generator answers; otherwise the model output (`None` when the
      call fails) is accepted only with exactly the requested number of
      questions, and every failure ends in the one-question fallback. */
  function GenerateEvaluationContent(input: EvaluationInput, googleKey: string, banks: TopicBanks,
                                     modelOutput: Option<Evaluation>): (e: Evaluation)
    requires NonEmptyBank(banks.respiratory) && NonEmptyBank(banks.cell)
    requires NonEmptyBank(banks.photosynthesis) && NonEmptyBank(banks.generic)
    ensures var n := RequestedCount(input.questionCount);
      |e.questions| == Times(n) || e == ErrorFallback(input)
    ensures (googleKey == [] || googleKey == PlaceholderKey) ==>
      e.title == MockTitle(input.topic, IsSpanish(input.language))
      && forall k :: 0 <= k < |e.questions| ==> e.questions[k].id == NatToString(k + 1)
    ensures (googleKey != [] && googleKey != PlaceholderKey && modelOutput.Some?
             && |modelOutput.value.questions| == RequestedCount(input.questionCount))
            ==> e == modelOutput.value
    ensures (googleKey != [] && googleKey != PlaceholderKey
             && !(modelOutput.Some? && |modelOutput.value.questions| == RequestedCount(input.questionCount)))
            ==> e == ErrorFallback(input)
  {
    var n := RequestedCount(input.questionCount);
    if googleKey == [] || googleKey == PlaceholderKey then
      var es := IsSpanish(input.language);
      var bank := ChooseBank(input.topic, banks);
      Evaluation(MockTitle(input.topic, es), MockQuestions(n, bank, es))
    else if modelOutput.Some? && |modelOutput.value.questions| == n then modelOutput.value
    else ErrorFallback(input)
  }

  /** `normalizeText`: lower case, accents removed, trimmed. Its result is a
      fixed point of the folding. */
  function NormalizeText(text: string): (r: string)
    ensures IsTrimmed(r) && |r| <= |text|
    ensures forall i :: 0 <= i < |r| ==> Fold(r[i]) == r[i]
  {
    var x := FoldStr(text);
    forall i | 0 <= i < |x| ensures Fold(x[i]) == x[i] {
      FoldIdempotent(text[i]);
    }
    TrimKeepsEvery(x, c => Fold(c) == c);
    Trim(x)
  }

  /** Normalising twice changes nothing more. */
  lemma NormalizeTextIdempotent(text: string)
    ensures NormalizeText(NormalizeText(text)) == NormalizeText(text)
  {
    var r := NormalizeText(text);
    assert FoldStr(r) == r;
    TrimOfTrimmed(r);
  }

  /** Case and accents do not matter: a text and its folded form normalise
      alike. */
  lemma NormalizeTextIgnoresCaseAndAccents(text: string)
    ensures NormalizeText(FoldStr(text)) == NormalizeText(text)
  {
    forall i | 0 <= i < |text| ensures Fold(Fold(text[i])) == Fold(text[i]) {
      FoldIdempotent(text[i]);
    }
    assert FoldStr(FoldStr(text)) == FoldStr(text);
  }

  // ---------------------------------------------------------------------------
  // Dynamic evaluations: ids, the model reply, the fallback engine

  /** `q${i + 1}_${timestamp}_${randomSeed}`. */
  function MakeId(i: nat, timestamp: nat, seed: nat): string {
    "q" + NatToString(i + 1) + "_" + NatToString(timestamp) + "_" + NatToString(seed)
  }

  /** Within one evaluation (fixed timestamp and seed) ids are unique. */
  lemma MakeIdInjective(i: nat, j: nat, timestamp: nat, seed: nat)
    requires MakeId(i, timestamp, seed) == MakeId(j, timestamp, seed)
    ensures i == j
  {
    var tail := "_" + NatToString(timestamp) + "_" + NatToString(seed);
    var x, y := NatToString(i + 1), NatToString(j + 1);
    assert MakeId(i, timestamp, seed) == "q" + x + tail;
    assert MakeId(j, timestamp, seed) == "q" + y + tail;
    CancelFrame("q", x, y, tail);
    NatToStringInjective(i + 1, j + 1);
  }

  /** What `JSON.parse` yields for the reply: its `evaluationTitle` (empty when
      absent) and its `questions` (`None` when not an array). */
  datatype ParsedReply = ParsedReply(evaluationTitle: string, questions: Option<seq<Question>>)

  /** The model's questions with ids replaced by `MakeId`. */
  function Renumber(qs: seq<Question>, timestamp: nat, seed: nat): (r: seq<Question>)
    ensures |r| == |qs|
    ensures forall i :: 0 <= i < |r| ==> r[i] == qs[i].(id := MakeId(i, timestamp, seed))
  {
    seq(|qs|, i requires 0 <= i < |qs| => qs[i].(id := MakeId(i, timestamp, seed)))
  }

  /** The language-model branch: the reply (`None` when the request fails) is
      stripped of code fences and parsed; it is accepted only with exactly
      `count` questions, which keep their content and get fresh ids. */
  function AcceptReply(reply: Option<string>, parse: string -> Option<ParsedReply>, count: int,
                       timestamp: nat, seed: nat, topic: string, es: bool): (r: Option<Evaluation>)
    ensures r.Some? ==> reply.Some? && parse(StripFences(reply.value)).Some?
    ensures r.Some? ==> var p := parse(StripFences(reply.value)).value;
      p.questions.Some? && |p.questions.value| == count
      && |r.value.questions| == count
      && (forall i :: 0 <= i < count ==>
            r.value.questions[i] == p.questions.value[i].(id := MakeId(i, timestamp, seed)))
      && (p.evaluationTitle != [] ==> r.value.title == p.evaluationTitle)
      && (p.evaluationTitle == [] ==> r.value.title == (if es then "Evaluación" else "Evaluation") + " - " + topic)
    ensures (reply.Some? && parse(StripFences(reply.value)).Some?
             && parse(StripFences(reply.value)).value.questions.Some?
             && |parse(StripFences(reply.value)).value.questions.value| == count) ==> r.Some?
  {
    match reply
    case None => None
    case Some(text) =>
      match parse(StripFences(text))
      case None => None
      case Some(p) =>
        if p.questions.Some? && |p.questions.value| == count then
          Some(Evaluation(Or(p.evaluationTitle, (if es then "Evaluación" else "Evaluation") + " - " + topic),
                          Renumber(p.questions.value, timestamp, seed)))
        else None
  }

  /** `xs.splice(start, 0, x)` for `start >= 0`: the insertion point is clamped
      to the end. */
  function InsertAt(xs: seq<string>, start: nat, x: string): (r: seq<string>)
    ensures |r| == |xs| + 1
    ensures var p := if start < |xs| then start else |xs|;
      r[p] == x && r[..p] + r[p + 1..] == xs
  {
    var p := if start < |xs| then start else |xs|;
    var r := xs[..p] + [x] + xs[p..];
    assert r[..p] == xs[..p] && r[p + 1..] == xs[p..];
    r
  }

  datatype ChoiceOptions = ChoiceOptions(options: seq<string>, correctIndex: int)

  /** The four distractors `extractDetailedConcepts` pushes: the first match of
      "respiratorio", "célula", "fotosíntesis"/"fotosintesis",
      "fraccion"/"fracción" in the lower-cased topic, otherwise four generic
      statements, one of which names the topic. */
  function Distractors(topic: string): (d: seq<string>)
    ensures |d| == 4
    ensures !Contains(LowerStr(topic), "respiratorio") && !Contains(LowerStr(topic), "célula")
            && !Contains(LowerStr(topic), "fotosíntesis") && !Contains(LowerStr(topic), "fotosintesis")
            && !Contains(LowerStr(topic), "fraccion") && !Contains(LowerStr(topic), "fracción")
            ==> d[1] == "Información no relacionada con " + topic
  {
    ThemeDistractors(DistractorTheme(LowerStr(topic)), topic)
  }

  /** Which set of distractors a lower-cased topic selects: 0 respiratory,
      1 cell, 2 photosynthesis, 3 fractions, 4 the generic set. */
  function DistractorTheme(t: string): (k: nat)
    ensures k <= 4
    ensures k == 4 <==> !Contains(t, "respiratorio") && !Contains(t, "célula")
                        && !Contains(t, "fotosíntesis") && !Contains(t, "fotosintesis")
                        && !Contains(t, "fraccion") && !Contains(t, "fracción")
  {
    if Contains(t, "respiratorio") then 0
    else if Contains(t, "célula") then 1
    else if Contains(t, "fotosíntesis") || Contains(t, "fotosintesis") then 2
    else if Contains(t, "fraccion") || Contains(t, "fracción") then 3
    else 4
  }

  /** The distractors of the four themes, in theme order. */
  const ThemeSets: seq<seq<string>> := [
    ["El sistema digestivo procesa los alimentos", "Los riñones filtran la sangre",
     "El corazón es parte del sistema circulatorio", "Los huesos sostienen el cuerpo"],
    ["Los virus son células procariotas", "Las bacterias tienen núcleo definido",
     "Los animales realizan fotosíntesis", "Las rocas contienen mitocondrias"],
    ["Los animales realizan fotosíntesis", "La fotosíntesis consume oxígeno",
     "Las plantas no necesitan luz solar", "Los hongos producen su propio alimento"],
    ["El denominador indica cuántas partes se toman", "Las fracciones impropias son menores que 1",
     "No se pueden sumar fracciones diferentes", "El numerador siempre es mayor que el denominador"]]

  /** The four distractors of each theme; the generic set names the topic. */
  function ThemeDistractors(k: nat, topic: string): (d: seq<string>)
    ensures |d| == 4
    ensures k >= 4 ==> d[1] == "Información no relacionada con " + topic
  {
    if k < 4 then ThemeSets[k]
    else
      ["Un concepto de otra materia", "Información no relacionada con " + topic,
       "Un proceso diferente al tema estudiado", "Una definición incorrecta del concepto"]
  }

  /** The fixed options of the ten respiratory-system questions, the correct
      one always first. */
  const RespiratoryOptions: seq<seq<string>> := [
    ["Alvéolos pulmonares", "Tráquea", "Bronquios", "Diafragma"],
    ["Fosas nasales", "Esófago", "Estómago", "Riñones"],
    ["Tráquea", "Alvéolos pulmonares", "Diafragma", "Faringe"],
    ["Laringe", "Páncreas", "Riñones", "Intestino delgado"],
    ["Bronquios", "Esófago", "Uréteres", "Venas"],
    ["Diafragma", "Bíceps", "Fémur", "Húmero"],
    ["Inspiración", "Fotosíntesis", "Digestión", "Evaporación"],
    ["Espiración", "Inspiración", "Circulación", "Digestión"],
    ["Pulmones", "Corazón", "Estómago", "Riñones"],
    ["Difusión", "Evaporación", "Combustión", "Condensación"]]

  /** Options of a single-choice question built from PDF content. With a
      respiratory topic, question `index % 10` of a fixed set is asked, its
      answer at position 0. Otherwise, with at least two component names, the
      correct option is component `index % |names|`, spliced at position
      `index % 4` into the first three distractors, and the list is cut to
      four. `None` stands for the topic-bank branch that follows. */
  function ContentChoiceOptions(hasRealContent: bool, topic: string, names: seq<string>,
                                index: nat): (r: Option<ChoiceOptions>)
    ensures r.Some? <==> hasRealContent && (Contains(LowerStr(topic), "respiratorio") || |names| >= 2)
    ensures r.Some? && Contains(LowerStr(topic), "respiratorio") ==>
      r.value.correctIndex == 0 && r.value.options == RespiratoryOptions[index % 10]
    ensures r.Some? && !Contains(LowerStr(topic), "respiratorio") ==> r.value.correctIndex == index % 4
  {
    if hasRealContent && Contains(LowerStr(topic), "respiratorio") then
      Some(ChoiceOptions(RespiratoryOptions[index % 10], 0))
    else if hasRealContent && |names| >= 2 then
      var correct := names[index % |names|];
      var wrong := Distractors(topic)[..3];
      var shuffled := InsertAt(wrong, index % 4, correct);
      Some(ChoiceOptions(if |shuffled| <= 4 then shuffled else shuffled[..4], index % 4))
    else None
  }

  /** In the content branch the advertised index holds the correct component,
      and taking it out gives back the first three distractors in order. */
  lemma ContentChoiceIndexIsCorrect(topic: string, names: seq<string>, index: nat)
    requires |names| >= 2 && !Contains(LowerStr(topic), "respiratorio")
    ensures var r := ContentChoiceOptions(true, topic, names, index).value;
      |r.options| == 4
      && r.options[r.correctIndex] == names[index % |names|]
      && r.options[..r.correctIndex] + r.options[r.correctIndex + 1..] == Distractors(topic)[..3]
  {
    var wrong := Distractors(topic)[..3];
    var shuffled := InsertAt(wrong, index % 4, names[index % |names|]);
    assert |shuffled| == 4;
  }

  /** The duplicate key `${q.type}|${q.questionText.trim().toLowerCase()}`,
      kept as its two parts; `SignatureTextIsFaithful` shows the joined
      string identifies the same pairs. */
  datatype Sig = Sig(kind: Kind, text: string)

  function Signature(q: Question): Sig {
    Sig(KindOf(q), TrimLower(q.text))
  }

  function SigText(s: Sig): string {
    TypeName(s.kind) + "|" + s.text
  }

  /** Two joined keys are equal exactly when their parts are: no type name
      contains `|` and no type name is a prefix of another. */
  lemma SignatureTextIsFaithful(a: Sig, b: Sig)
    ensures SigText(a) == SigText(b) <==> a == b
  {
    if SigText(a) == SigText(b) {
      // the three type names already differ at position 9
      assert SigText(a)[9] == TypeName(a.kind)[9];
      assert SigText(b)[9] == TypeName(b.kind)[9];
      var k := |TypeName(a.kind)| + 1;
      assert a.text == SigText(a)[k..];
      assert b.text == SigText(b)[k..];
    }
  }

  predicate DistinctSignatures(qs: seq<Question>) {
    forall i, j :: 0 <= i < j < |qs| ==> Signature(qs[i]) != Signature(qs[j])
  }

  predicate Recorded(qs: seq<Question>, used: set<Sig>) {
    forall k :: 0 <= k < |qs| ==> Signature(qs[k]) in used
  }

  const Variante: string := " (variante)"

  /** Attempt `a` of `tryMakeUnique`: `make(base + a * 7)`. */
  function Candidate(make: int -> Question, base: int, a: int): Question {
    make(base + a * 7)
  }

  /** The signatures of the 25 attempts, in order. */
  function AttemptSigs(make: int -> Question, base: int): (r: seq<Sig>)
    ensures |r| == 25
    ensures forall a :: 0 <= a < 25 ==> r[a] == Signature(Candidate(make, base, a))
  {
    seq(25, a requires 0 <= a < 25 => Signature(Candidate(make, base, a)))
  }

  /** The first position from `from` on whose entry is not in `used`, or -1. */
  function FirstFresh<T>(xs: seq<T>, used: set<T>, from: nat): (a: int)
    requires from <= |xs|
    ensures a == -1 || from <= a < |xs|
    ensures a >= 0 ==> xs[a] !in used
    ensures a >= 0 ==> forall b :: from <= b < a ==> xs[b] in used
    ensures a == -1 ==> forall b :: from <= b < |xs| ==> xs[b] in used
    decreases |xs| - from
  {
    if from == |xs| then -1
    else if xs[from] !in used then from
    else FirstFresh(xs, used, from + 1)
  }

  /** The first of the 25 attempts whose signature is unused, or -1. */
  function FreshAttempt(make: int -> Question, base: int, used: set<Sig>): (a: int)
    ensures -1 <= a < 25
  {
    FirstFresh(AttemptSigs(make, base), used, 0)
  }

  /** The question `tryMakeUnique` forces once the attempts run out. */
  function Forced(make: int -> Question, base: int): Question {
    var f := make(base + 999);
    f.(text := f.text + Variante)
  }

  /** `tryMakeUnique` as written: the first fresh attempt, else the forced
      variant, whose signature is added to the set without being checked. */
  function TryMakeUniqueAsWritten(make: int -> Question, base: int, used: set<Sig>): (r: (Question, set<Sig>))
    ensures r.1 == used + {Signature(r.0)}
    ensures FreshAttempt(make, base, used) >= 0 ==>
      r.0 == Candidate(make, base, FreshAttempt(make, base, used)) && Signature(r.0) !in used
    ensures FreshAttempt(make, base, used) == -1 ==> r.0 == Forced(make, base)
  {
    var a := FreshAttempt(make, base, used);
    var q := if a >= 0 then Candidate(make, base, a) else Forced(make, base);
    (q, used + {Signature(q)})
  }

  /** A generator that ignores its index exhausts the attempts as soon as its
      one question has been recorded. */
  lemma ConstantMakerExhausted(make: int -> Question, c: Question, base: int, used: set<Sig>)
    requires forall n :: make(n) == c
    requires Signature(c) in used
    ensures FreshAttempt(make, base, used) == -1
  {
    var sigs := AttemptSigs(make, base);
    assert forall a :: 0 <= a < 25 ==> sigs[a] == Signature(make(base + a * 7)) == Signature(c);
  }

  /** The as-written guard lets a repeated signature through: with a generator
      that ignores its index (the generic true/false statement used for a topic
      without PDF content that is neither mathematical nor about the respiratory
      system), the second and third calls both return the forced variant. */
  lemma AsWrittenRepeatsForcedQuestion(make: int -> Question, c: Question)
    requires forall n :: make(n) == c
    ensures var (q1, u1) := TryMakeUniqueAsWritten(make, 0, {});
      var (q2, u2) := TryMakeUniqueAsWritten(make, 1, u1);
      var (q3, u3) := TryMakeUniqueAsWritten(make, 2, u2);
      q1 == c && q2 == q3 && Signature(q3) in u2 && !DistinctSignatures([q1, q2, q3])
  {
    assert Signature(Candidate(make, 0, 0)) !in {};
    var (q1, u1) := TryMakeUniqueAsWritten(make, 0, {});
    ConstantMakerExhausted(make, c, 1, u1);
    var (q2, u2) := TryMakeUniqueAsWritten(make, 1, u1);
    ConstantMakerExhausted(make, c, 2, u2);
    var (q3, u3) := TryMakeUniqueAsWritten(make, 2, u2);
    assert q2 == Forced(make, 1) == Forced(make, 2) == q3;
    assert [q1, q2, q3][1] == q2 && [q1, q2, q3][2] == q3;
  }

  /** One generation loop as written: calls `from` to `count - 1` of the
      as-written guard over one shared set, each question pushed with the id
      of its position. */
  function AppendAsWritten(qs: seq<Question>, used: set<Sig>, make: int -> Question, from: nat, count: nat,
                           timestamp: nat, seed: nat): (r: (seq<Question>, set<Sig>))
    requires from <= count
    ensures |r.0| == |qs| + (count - from) && r.0[..|qs|] == qs
    ensures Recorded(qs, used) ==> Recorded(r.0, r.1)
    ensures forall k :: |qs| <= k < |r.0| ==> r.0[k].id == MakeId(k, timestamp, seed)
    decreases count - from
  {
    if from == count then (qs, used)
    else
      var (q, u) := TryMakeUniqueAsWritten(make, from, used);
      var next := qs + [q.(id := MakeId(|qs|, timestamp, seed))];
      var r := AppendAsWritten(next, u, make, from + 1, count, timestamp, seed);
      RecordedStep(qs, used, q, MakeId(|qs|, timestamp, seed));
      PrefixStep(qs, next, r.0);
      IdsStep(|qs|, r.0, timestamp, seed);
      r
  }

  /** The positional ids from `n + 1` on extend to `n` when the item at `n`
      carries its own. */
  lemma IdsStep(n: nat, xs: seq<Question>, timestamp: nat, seed: nat)
    requires n < |xs| && xs[n].id == MakeId(n, timestamp, seed)
    requires forall k :: n + 1 <= k < |xs| ==> xs[k].id == MakeId(k, timestamp, seed)
    ensures forall k :: n <= k < |xs| ==> xs[k].id == MakeId(k, timestamp, seed)
  {
  }

  /** Recording one more question keeps every earlier signature recorded. */
  lemma RecordedStep(qs: seq<Question>, used: set<Sig>, q: Question, id: string)
    ensures Recorded(qs, used) ==> Recorded(qs + [q.(id := id)], used + {Signature(q)})
  {
    var next := qs + [q.(id := id)];
    assert Signature(next[|qs|]) == Signature(q);
  }

  /** A sequence that extends `qs` by one element keeps `qs` as its prefix. */
  lemma PrefixStep<T>(qs: seq<T>, next: seq<T>, r: seq<T>)
    requires |next| == |qs| + 1 && next[..|qs|] == qs
    requires |next| <= |r| && r[..|next|] == next
    ensures r[..|qs|] == qs && r[|qs|] == next[|qs|]
  {
    assert r[..|qs|] == r[..|next|][..|qs|];
  }

  /** The loop as written emits a repeated question: with a generator that
      ignores its index and three or more questions to make, the second and
      third questions share a signature. */
  lemma AsWrittenLoopRepeats(make: int -> Question, c: Question, count: nat, timestamp: nat, seed: nat)
    requires forall n :: make(n) == c
    requires count >= 3
    ensures var r := AppendAsWritten([], {}, make, 0, count, timestamp, seed).0;
      |r| == count && Signature(r[1]) == Signature(r[2]) && !DistinctSignatures(r)
  {
    AsWrittenRepeatsForcedQuestion(make, c);
    var (q1, u1) := TryMakeUniqueAsWritten(make, 0, {});
    var (q2, u2) := TryMakeUniqueAsWritten(make, 1, u1);
    var (q3, u3) := TryMakeUniqueAsWritten(make, 2, u2);
    var s0: seq<Question> := [];
    var s1 := s0 + [q1.(id := MakeId(0, timestamp, seed))];
    var s2 := s1 + [q2.(id := MakeId(1, timestamp, seed))];
    var s3 := s2 + [q3.(id := MakeId(2, timestamp, seed))];
    assert AppendAsWritten(s0, {}, make, 0, count, timestamp, seed) == AppendAsWritten(s1, u1, make, 1, count, timestamp, seed);
    assert AppendAsWritten(s1, u1, make, 1, count, timestamp, seed) == AppendAsWritten(s2, u2, make, 2, count, timestamp, seed);
    assert AppendAsWritten(s2, u2, make, 2, count, timestamp, seed) == AppendAsWritten(s3, u3, make, 3, count, timestamp, seed);
    var r := AppendAsWritten(s3, u3, make, 3, count, timestamp, seed).0;
    assert r[..3] == s3;
    assert r[1] == s3[1] == q2.(id := MakeId(1, timestamp, seed));
    assert r[2] == s3[2] == q3.(id := MakeId(2, timestamp, seed));
  }

  /** An upper bound on the lengths of the strings in a set. */
  ghost function MaxLen(s: set<Sig>): (m: nat)
    ensures forall x :: x in s ==> |x.text| <= m
    decreases s
  {
    if s == {} then 0
    else
      var x :| x in s;
      var m := MaxLen(s - {x});
      if |x.text| > m then |x.text| else m
  }

  /** Appending " (variante)" makes the signature strictly longer. */
  lemma SignatureGrows(q: Question, text: string)
    ensures |Signature(q.(text := text + Variante)).text| > |Signature(q.(text := text)).text|
  {
    assert Variante[1..] == "(variante)";
    TrimStartOfTrimmed(Variante[1..]);
    assert TrimStart(Variante) == TrimStart(Variante[1..]);
    TrimAppendGrows(text, Variante);
    TrimLowerIsLowerOfTrim(text);
    TrimLowerIsLowerOfTrim(text + Variante);
  }

  /** The completed forced branch: " (variante)" is appended until the
      signature is unused. */
  method ForceFresh(f: Question, used: set<Sig>) returns (q: Question)
    ensures Signature(q) !in used
    ensures q == f.(text := q.text) && StartsWith(q.text, f.text + Variante)
  {
    var text := f.text + Variante;
    while Signature(f.(text := text)) in used
      invariant StartsWith(text, f.text + Variante)
      decreases MaxLen(used) - |Signature(f.(text := text)).text|
    {
      SignatureGrows(f, text);
      assert (text + Variante)[..|f.text + Variante|] == text[..|f.text + Variante|];
      text := text + Variante;
    }
    q := f.(text := text);
  }

  /** `tryMakeUnique` with the forced branch completed, so the returned
      question is always new. */
  method TryMakeUnique(make: int -> Question, base: int, used: set<Sig>)
    returns (q: Question, used': set<Sig>)
    ensures Signature(q) !in used && used' == used + {Signature(q)}
    ensures FreshAttempt(make, base, used) >= 0 ==>
      q == Candidate(make, base, FreshAttempt(make, base, used))
    ensures FreshAttempt(make, base, used) == -1 ==>
      q == make(base + 999).(text := q.text) && StartsWith(q.text, make(base + 999).text + Variante)
  {
    var sigs := AttemptSigs(make, base);
    var attempt := 0;
    while attempt < 25
      invariant 0 <= attempt <= 25
      invariant FreshAttempt(make, base, used) == FirstFresh(sigs, used, attempt)
    {
      if sigs[attempt] !in used {
        return Candidate(make, base, attempt), used + {sigs[attempt]};
      }
      attempt := attempt + 1;
    }
    q := ForceFresh(make(base + 999), used);
    used' := used + {Signature(q)};
  }

  /** The question generators of the fallback engine, one per type. */
  datatype Makers = Makers(tf: int -> Question, mc: int -> Question, ms: int -> Question)

  ghost predicate WellTypedMakers(m: Makers) {
    (forall i :: m.tf(i).TF?) && (forall i :: m.mc(i).MC?) && (forall i :: m.ms(i).MS?)
  }

  /** One generation loop over the corrected guard `TryMakeUnique`: `count`
      calls with base `i`, each result pushed with the id of its position. The
      loop as written is `AppendAsWritten`. */
  method AppendUnique(qs: seq<Question>, used: set<Sig>, make: int -> Question, kind: Kind,
                      count: nat, timestamp: nat, seed: nat)
    returns (qs': seq<Question>, used': set<Sig>)
    requires forall i :: KindOf(make(i)) == kind
    requires DistinctSignatures(qs) && Recorded(qs, used)
    ensures |qs'| == |qs| + count && qs'[..|qs|] == qs
    ensures DistinctSignatures(qs') && Recorded(qs', used')
    ensures forall k :: |qs| <= k < |qs'| ==> KindOf(qs'[k]) == kind && qs'[k].id == MakeId(k, timestamp, seed)
  {
    qs', used' := qs, used;
    var i := 0;
    while i < count
      invariant 0 <= i <= count
      invariant |qs'| == |qs| + i && qs'[..|qs|] == qs
      invariant DistinctSignatures(qs') && Recorded(qs', used')
      invariant forall k :: |qs| <= k < |qs'| ==> KindOf(qs'[k]) == kind && qs'[k].id == MakeId(k, timestamp, seed)
    {
      var q, u := TryMakeUnique(make, i, used');
      q := q.(id := MakeId(|qs'|, timestamp, seed));
      qs', used' := qs' + [q], u;
      i := i + 1;
    }
  }

  /** The kind of position `k` when the loops emit `a` true/false and `b`
      single-choice questions before the multiple-selection ones. */
  function KindAt(a: nat, b: nat, k: int): Kind {
    if k < a then TrueFalse else if k < a + b then MultipleChoice else MultipleSelection
  }

  /** The fallback engine's three loops over one shared signature set, with
      the corrected guard. */
  method GenerateUniqueQuestions(split: Split, makers: Makers, timestamp: nat, seed: nat)
    returns (qs: seq<Question>)
    requires WellTypedMakers(makers)
    ensures |qs| == Times(split.tf) + Times(split.mc) + Times(split.ms)
    ensures DistinctSignatures(qs)
    ensures forall k :: 0 <= k < |qs| ==> qs[k].id == MakeId(k, timestamp, seed)
    ensures forall k :: 0 <= k < |qs| ==> KindOf(qs[k]) == KindAt(Times(split.tf), Times(split.mc), k)
  {
    var used: set<Sig> := {};
    qs := [];
    qs, used := AppendUnique(qs, used, makers.tf, TrueFalse, Times(split.tf), timestamp, seed);
    var q1 := qs;
    qs, used := AppendUnique(qs, used, makers.mc, MultipleChoice, Times(split.mc), timestamp, seed);
    var q2 := qs;
    qs, used := AppendUnique(qs, used, makers.ms, MultipleSelection, Times(split.ms), timestamp, seed);
    forall k | 0 <= k < |qs|
      ensures qs[k].id == MakeId(k, timestamp, seed)
      ensures KindOf(qs[k]) == KindAt(Times(split.tf), Times(split.mc), k)
    {
      if k < |q1| {
        assert qs[k] == q2[k] == q1[k];
      } else if k < |q2| {
        assert qs[k] == q2[k];
      }
    }
  }

  datatype DynamicInput = DynamicInput(topic: string, bookTitle: string, language: string,
                                       questionCount: int, timestamp: nat, randomSeed: nat)

  /** "EVALUACIÓN - TOPIC" / "EVALUATION - TOPIC". */
  function DynamicTitle(topic: string, es: bool): string {
    (if es then "EVALUACIÓN" else "EVALUATION") + " - " + UpperStr(topic)
  }

  /** `input.timestamp || Date.now()` and `input.randomSeed || random`. */
  function OrNow(given: nat, now: nat): (r: nat)
    ensures given != 0 ==> r == given
    ensures given == 0 ==> r == now
  {
    if given != 0 then given else now
  }

  /** `generateDynamicEvaluationContent` up to its outer `catch`: the model
      branch when OpenRouter is configured and its reply is acceptable, the
      fallback engine (with the corrected guard) otherwise. `now` and `random` stand for `Date.now()` and
      `Math.floor(Math.random() * 1000)`. */
  method GenerateDynamicEvaluation(input: DynamicInput, now: nat, random: nat, openRouterConfigured: bool,
                                   reply: Option<string>, parse: string -> Option<ParsedReply>, makers: Makers)
    returns (e: Evaluation)
    requires WellTypedMakers(makers)
    ensures var ts, seed := OrNow(input.timestamp, now), OrNow(input.randomSeed, random);
      |e.questions| == Times(RequestedCount(input.questionCount))
      && forall k :: 0 <= k < |e.questions| ==> e.questions[k].id == MakeId(k, ts, seed)
    ensures var ts, seed := OrNow(input.timestamp, now), OrNow(input.randomSeed, random);
      var accepted := AcceptReply(reply, parse, RequestedCount(input.questionCount), ts, seed,
                                  input.topic, IsSpanish(input.language));
      (openRouterConfigured && accepted.Some? ==> e == accepted.value)
      && (!(openRouterConfigured && accepted.Some?) ==>
            e.title == DynamicTitle(input.topic, IsSpanish(input.language)) && DistinctSignatures(e.questions))
    ensures var ts, seed := OrNow(input.timestamp, now), OrNow(input.randomSeed, random);
      var count := RequestedCount(input.questionCount);
      var accepted := AcceptReply(reply, parse, count, ts, seed, input.topic, IsSpanish(input.language));
      !(openRouterConfigured && accepted.Some?) ==>
        forall k :: 0 <= k < |e.questions| ==>
          KindOf(e.questions[k]) == KindAt(Times(TypeSplit(count).tf), Times(TypeSplit(count).mc), k)
  {
    var count := RequestedCount(input.questionCount);
    var ts, seed := OrNow(input.timestamp, now), OrNow(input.randomSeed, random);
    var es := IsSpanish(input.language);
    if openRouterConfigured {
      var accepted := AcceptReply(reply, parse, count, ts, seed, input.topic, es);
      if accepted.Some? {
        return accepted.value;
      }
    }
    var split := TypeSplit(count);
    SplitLoopsCoverCount(count);
    var qs := GenerateUniqueQuestions(split, makers, ts, seed);
    e := Evaluation(DynamicTitle(input.topic, es), qs);
  }

  /** The outer `catch` of `generateDynamicEvaluationContent`: one true/false
      question with id `fallback_tf1_${timestamp}_${randomSeed}`. */
  function DynamicErrorFallback(input: DynamicInput, now: nat, random: nat): (e: Evaluation)
    ensures |e.questions| == 1 && e.questions[0].TF? && e.questions[0].answer
    ensures e.title == DynamicTitle(input.topic, IsSpanish(input.language))
    ensures e.questions[0].id == "fallback_tf1_" + NatToString(OrNow(input.timestamp, now)) + "_"
                                 + NatToString(OrNow(input.randomSeed, random))
  {
    var ts, seed := OrNow(input.timestamp, now), OrNow(input.randomSeed, random);
    var es := IsSpanish(input.language);
    Evaluation(DynamicTitle(input.topic, es), [
      TF("fallback_tf1_" + NatToString(ts) + "_" + NatToString(seed),
         if es then "Pregunta de respaldo V/F para \"" + input.topic + "\". ¿Esta pregunta es única? (ID: " + NatToString(seed) + ")"
         else "Fallback T/F question for \"" + input.topic + "\". Is this question unique? (ID: " + NatToString(seed) + ")",
         true,
         if es then "Pregunta V/F generada como respaldo debido a un error en la API. Timestamp: " + NatToString(ts)
         else "T/F fallback question generated due to API error. Timestamp: " + NatToString(ts))])
  }
}

=== FILE: fences.dfy ===
/** Removal of the Markdown code fence a language model may wrap around a JSON
    reply, shared by the OpenRouter client and the evaluation generator. */
module Fences {
  import opened Strings

  const JsonFence: string := "```json"
  const Fence: string := "```"

  /** Trim; drop a leading "```json"; then drop a leading "```"; then drop a
      trailing "```"; trim again. */
  function StripFences(text: string): (r: string)
    ensures IsTrimmed(r)
    ensures |r| <= |text|
  {
    var a := Trim(text);
    var b := if StartsWith(a, JsonFence) then a[7..] else a;
    var c := if StartsWith(b, Fence) then b[3..] else b;
    var d := if EndsWith(c, Fence) then c[..|c| - 3] else c;
    Trim(d)
  }

  /** A reply without fences is only trimmed. */
  lemma UnfencedReplyOnlyTrimmed(text: string)
    requires !StartsWith(Trim(text), Fence) && !EndsWith(Trim(text), Fence)
    ensures StripFences(text) == Trim(text)
  {
    JsonFenceStartsFence(Trim(text));
    TrimIdempotent(text);
  }

  lemma JsonFenceStartsFence(a: string)
    ensures StartsWith(a, JsonFence) ==> StartsWith(a, Fence)
  {
    if StartsWith(a, JsonFence) {
      assert a[..3] == JsonFence[..3];
    }
  }

  lemma FencedTextIsTrimmed(open: string, body: string)
    requires |open| > 0 && open[0] == '`'
    ensures Trim(open + body + Fence) == open + body + Fence
  {
    TrimOfTrimmed(open + body + Fence);
  }

  /** "```json" + body + "```" gives back the trimmed body. */
  lemma JsonFenceRoundTrip(body: string)
    requires body == [] || body[0] != '`'
    ensures StripFences(JsonFence + body + Fence) == Trim(body)
  {
    var a := JsonFence + body + Fence;
    FencedTextIsTrimmed(JsonFence, body);
    assert StartsWith(a, JsonFence);
    var b := a[7..];
    assert b == body + Fence;
    if body == [] {
      assert b == Fence;
    } else {
      assert !StartsWith(b, Fence);
      assert EndsWith(b, Fence);
      assert b[..|b| - 3] == body;
    }
  }

  /** "```" + body + "```" gives back the trimmed body, unless the body itself
      begins with "json" (which the code reads as a "```json" fence). */
  lemma PlainFenceRoundTrip(body: string)
    requires body == [] || body[0] != '`'
    requires !StartsWith(body, "json")
    ensures StripFences(Fence + body + Fence) == Trim(body)
  {
    var a := Fence + body + Fence;
    FencedTextIsTrimmed(Fence, body);
    PlainFenceIsNotJson(body);
    assert StartsWith(a, Fence);
    var c := a[3..];
    assert c == body + Fence;
    assert EndsWith(c, Fence);
    assert c[..|c| - 3] == body;
  }

  lemma PlainFenceIsNotJson(body: string)
    requires !StartsWith(body, "json")
    ensures !StartsWith(Fence + body + Fence, JsonFence)
  {
    var a := Fence + body + Fence;
    if |body| >= 4 {
      assert a[3..7] == body[..4];
    } else {
      assert a[3 + |body|] == '`';
      assert JsonFence[3 + |body|] != '`';
    }
  }

  // ---------------------------------------------------------------------------
  // Global marker removal, as the OCR routes clean a reply

  /** `s.replace(/m\n?/g, '')`: each occurrence of `m`, found left to right,
      removed together with one newline right after it. */
  function RemoveMark(s: string, m: string): (r: string)
    requires |m| > 0
    ensures |r| <= |s|
    decreases |s|
  {
    if |s| == 0 then []
    else if StartsWith(s, m) then
      var rest := s[|m|..];
      if |rest| > 0 && rest[0] == '\n' then RemoveMark(rest[1..], m) else RemoveMark(rest, m)
    else [s[0]] + RemoveMark(s[1..], m)
  }

  predicate NoBacktick(s: string) {
    forall i :: 0 <= i < |s| ==> s[i] != '`'
  }

  /** Text without backticks passes through untouched. */
  lemma {:induction false} RemoveMarkKeepsPlain(b: string, t: string, m: string)
    requires |m| > 0 && m[0] == '`' && NoBacktick(b)
    ensures RemoveMark(b + t, m) == b + RemoveMark(t, m)
    decreases |b|
  {
    if |b| > 0 {
      var s := b + t;
      assert s[0] == b[0] != m[0];
      assert !StartsWith(s, m);
      assert s[1..] == b[1..] + t;
      assert RemoveMark(s, m) == [b[0]] + RemoveMark(b[1..] + t, m);
      RemoveMarkKeepsPlain(b[1..], t, m);
      assert b == [b[0]] + b[1..];
    } else {
      assert b + t == t;
    }
  }

  /** Text shorter than the marker cannot hold it. */
  lemma {:induction false} RemoveMarkShort(t: string, m: string)
    requires |m| > 0 && |t| < |m|
    ensures RemoveMark(t, m) == t
    decreases |t|
  {
    if |t| > 0 {
      RemoveMarkShort(t[1..], m);
      assert t == [t[0]] + t[1..];
    }
  }

  /** The cleaning of the OCR routes: every "```json" and every "```" (each
      with a following newline) removed, then trimmed. */
  function CleanReply(text: string): (r: string)
    ensures IsTrimmed(r) && |r| <= |text|
  {
    Trim(RemoveMark(RemoveMark(text, JsonFence), Fence))
  }

  /** A reply without backticks is only trimmed. */
  lemma CleanPlainReply(text: string)
    requires NoBacktick(text)
    ensures CleanReply(text) == Trim(text)
  {
    RemoveMarkKeepsPlain(text, [], JsonFence);
    RemoveMarkKeepsPlain(text, [], Fence);
    assert text + [] == text;
  }

  /** "```json\n" + body + "```" gives back the trimmed body. */
  lemma CleanFencedReply(body: string)
    requires NoBacktick(body)
    ensures CleanReply(JsonFence + "\n" + body + Fence) == Trim(body)
  {
    var s := JsonFence + "\n" + body + Fence;
    assert StartsWith(s, JsonFence);
    assert s[|JsonFence|..] == "\n" + (body + Fence);
    RemoveMarkKeepsPlain(body, Fence, JsonFence);
    RemoveMarkShort(Fence, JsonFence);
    assert RemoveMark(s, JsonFence) == body + Fence;
    RemoveMarkKeepsPlain(body, Fence, Fence);
    assert StartsWith(Fence, Fence) && Fence[|Fence|..] == [];
    assert RemoveMark(Fence, Fence) == [];
    assert body + [] == body;
  }
}

=== FILE: grades.dfy ===
/** The grade assistant ("monito") of the dashboard: identifier
    normalisation, the per-subject analysis shown to students and guardians,
    the pass-rate analysis shown to teachers, and the click cycle that walks
    through the messages. Message wording, number formatting and the stored
    grade sources are outside the model; the analyses return the figures the
    messages are built from. */
module GradeMonitor {
  import opened Strings
  import opened Js
  import opened Sorting

  // ---------------------------------------------------------------------------
  // Identifiers

  /** A character `normRut` may leave in place. */
  predicate RutChar(c: char) {
    c != '.' && c != '-' && Lower(c) == c
  }

  lemma LowerKeepsRutChars(s: string)
    requires forall i :: 0 <= i < |s| ==> s[i] != '.' && s[i] != '-'
    ensures forall i :: 0 <= i < |LowerStr(s)| ==> RutChar(LowerStr(s)[i])
  {
    forall i | 0 <= i < |s|
      ensures RutChar(LowerStr(s)[i])
    {
      var c := s[i];
      if 'A' <= c <= 'Z' || ('\U{00C0}' <= c <= '\U{00DE}' && c != '\U{00D7}') {
        assert LowerStr(s)[i] as int == c as int + 32;
      }
    }
  }

  /** The identifier with its dots and dashes removed. */
  function Unseparated(s: string): string {
    RemoveChar(RemoveChar(s, '.'), '-')
  }

  /** `normRut`: dots and dashes removed, lower-cased, trimmed. */
  function NormRut(r: Option<string>): (n: string)
    ensures forall i :: 0 <= i < |n| ==> RutChar(n[i])
    ensures IsTrimmed(n) && |n| <= |r.GetOr("")|
  {
    var undotted := RemoveChar(OptOr(r, ""), '.');
    var bare := Unseparated(OptOr(r, ""));
    assert forall i :: 0 <= i < |bare| ==> bare[i] in undotted;
    LowerKeepsRutChars(bare);
    TrimKeepsEvery(LowerStr(bare), RutChar);
    Trim(LowerStr(bare))
  }

  /** An identifier that is already lower case, trimmed and free of dots and
      dashes is its own normal form. */
  lemma NormRutFixedPoint(s: string)
    requires forall i :: 0 <= i < |s| ==> RutChar(s[i])
    requires IsTrimmed(s)
    ensures NormRut(Some(s)) == s
  {
    if s != [] {
      assert RemoveChar(s, '.') == s;
      assert RemoveChar(s, '-') == s;
      assert LowerStr(s) == s;
      TrimOfTrimmed(s);
    }
  }

  /** Normalising a normalised identifier changes nothing. */
  lemma NormRutIdempotent(r: Option<string>)
    ensures NormRut(Some(NormRut(r))) == NormRut(r)
  {
    NormRutFixedPoint(NormRut(r));
  }

  /** Removing dots and dashes skips one separator wherever it stands. */
  lemma UnseparatedSkips(a: string, b: string, c: char)
    requires c == '.' || c == '-'
    ensures Unseparated(a + [c] + b) == Unseparated(a + b)
  {
    if c == '.' {
      RemoveCharSkips(a, b, '.');
    } else {
      RemoveCharKeeps(a, b, c, '.');
      RemoveCharAppend(a, b, '.');
      RemoveCharSkips(RemoveChar(a, '.'), RemoveChar(b, '.'), '-');
    }
  }

  /** A dot or a dash anywhere in an identifier is ignored, so "12.345.678-9"
      and "123456789" normalise alike. */
  lemma NormRutIgnoresSeparators(a: string, b: string, c: char)
    requires c == '.' || c == '-'
    ensures NormRut(Some(a + [c] + b)) == NormRut(Some(a + b))
  {
    assert OptOr(Some(a + [c] + b), "") == a + [c] + b;
    assert OptOr(Some(a + b), "") == a + b;
    UnseparatedSkips(a, b, c);
  }

  // ---------------------------------------------------------------------------
  // Study time

  /** `tiempo(p)`: suggested minutes a day for a subject averaging `p`. */
  function Tiempo(p: real): (m: int)
    ensures m in {10, 15, 20, 30}
  {
    if p < 40.0 then 30 else if p < 55.0 then 20 else if p < 70.0 then 15 else 10
  }

  /** A better average never asks for more time. */
  lemma TiempoNonIncreasing(p: real, q: real)
    requires p <= q
    ensures Tiempo(q) <= Tiempo(p)
  {
  }

  // ---------------------------------------------------------------------------
  // Subject names for students and guardians

  /** `s.replace(/\s+/g, ' ')`, scanning with a flag that tells whether the
      previous character was white space. */
  function CollapseFrom(s: string, afterSpace: bool): (r: string)
    ensures |r| <= |s|
    ensures forall i :: 0 <= i < |r| && IsSpace(r[i]) ==> r[i] == ' '
    ensures forall i :: 0 <= i < |r| - 1 ==> !(IsSpace(r[i]) && IsSpace(r[i + 1]))
    ensures afterSpace && r != [] ==> !IsSpace(r[0])
    decreases |s|
  {
    if |s| == 0 then []
    else if IsSpace(s[0]) then (if afterSpace then [] else [' ']) + CollapseFrom(s[1..], true)
    else [s[0]] + CollapseFrom(s[1..], false)
  }

  function Collapse(s: string): (r: string)
    ensures |r| <= |s|
    ensures forall i :: 0 <= i < |r| && IsSpace(r[i]) ==> r[i] == ' '
    ensures forall i :: 0 <= i < |r| - 1 ==> !(IsSpace(r[i]) && IsSpace(r[i + 1]))
  {
    CollapseFrom(s, false)
  }

  /** Text with no white space other than single blanks. */
  predicate Collapsed(s: string) {
    (forall i :: 0 <= i < |s| && IsSpace(s[i]) ==> s[i] == ' ')
    && forall i :: 0 <= i < |s| - 1 ==> !(IsSpace(s[i]) && IsSpace(s[i + 1]))
  }

  lemma {:induction false} CollapseFromCollapsed(s: string, afterSpace: bool)
    requires Collapsed(s) && (afterSpace && s != [] ==> !IsSpace(s[0]))
    ensures CollapseFrom(s, afterSpace) == s
    decreases |s|
  {
    if |s| > 0 {
      CollapseFromCollapsed(s[1..], IsSpace(s[0]));
    }
  }

  /** Collapsing is idempotent. */
  lemma CollapseIdempotent(s: string)
    ensures Collapse(Collapse(s)) == Collapse(s)
  {
    CollapseFromCollapsed(Collapse(s), false);
  }

  /** `split(' ').map(w => w.charAt(0).toUpperCase() + w.slice(1)).join(' ')`:
      every character at the start or after a blank is upper-cased. */
  function TitleWords(s: string): (r: string)
    ensures |r| == |s|
    ensures forall i :: 0 <= i < |s| ==> r[i] == if i == 0 || s[i - 1] == ' ' then Upper(s[i]) else s[i]
  {
    seq(|s|, i requires 0 <= i < |s| => if i == 0 || s[i - 1] == ' ' then Upper(s[i]) else s[i])
  }

  /** `replace(/[-_]+/g, ' ')` followed by the collapse of white space: since
      the blanks are collapsed next, each dash or underscore may become a
      blank on its own. */
  function DashesToBlanks(s: string): (r: string)
    ensures |r| == |s|
  {
    seq(|s|, i requires 0 <= i < |s| => if s[i] == '-' || s[i] == '_' then ' ' else s[i])
  }

  /** The readable name built from a subject id. */
  function BaseSubject(raw: string): string {
    TitleWords(Trim(Collapse(DashesToBlanks(raw))))
  }

  /** The lookup key of `prettySubject`. */
  function PrettyKey(name: string): string {
    Trim(Collapse(FoldStr(name)))
  }

  /** The entries of a `Record<string, string>` literal, in source order. */
  function Lookup(table: seq<(string, string)>, key: string): (r: Option<string>)
    ensures r.Some? ==> exists i :: 0 <= i < |table| && table[i] == (key, r.value)
    ensures r.None? ==> forall i :: 0 <= i < |table| ==> table[i].0 != key
  {
    if |table| == 0 then None
    else if table[0].0 == key then Some(table[0].1)
    else Lookup(table[1..], key)
  }

  /** `mapPretty[key] || name`. */
  function Pretty(name: string, table: seq<(string, string)>): (r: string)
    ensures Lookup(table, PrettyKey(name)).None? ==> r == name
  {
    OptOr(Lookup(table, PrettyKey(name)), name)
  }

  const StudentPretty: seq<(string, string)> := [
    ("matematica", "Matemáticas"), ("matematicas", "Matemáticas"),
    ("lenguaje y comunicacion", "Lenguaje y Comunicación"), ("educacion fisica", "Educación Física"),
    ("musica", "Música"), ("tecnologia", "Tecnología"), ("orientacion", "Orientación"), ("ingles", "Inglés"),
    ("artes visuales", "Artes Visuales"), ("ciencias naturales", "Ciencias Naturales"),
    ("historia geografia y ciencias sociales", "Historia, Geografía y Ciencias Sociales"),
    ("historia y geografia", "Historia, Geografía y Ciencias Sociales")]

  const GuardianPretty: seq<(string, string)> := [
    ("matematica", "Matemáticas"), ("matematicas", "Matemáticas"),
    ("lenguaje y comunicacion", "Lenguaje y Comunicación"), ("educacion fisica", "Educación Física"),
    ("musica", "Música"), ("tecnologia", "Tecnología"), ("orientacion", "Orientación"), ("ingles", "Inglés"),
    ("artes visuales", "Artes Visuales"), ("ciencias naturales", "Ciencias Naturales"),
    ("historia geografia y ciencias sociales", "Historia, Geografía y Ciencias Sociales"),
    ("biologia", "Biología"), ("quimica", "Química"), ("fisica", "Física"),
    ("filosofia", "Filosofía"), ("educacion ciudadana", "Educación Ciudadana")]

  /** A stored grade, with the fields the analyses read. `score` is
      `Number(c.score || 0)`. */
  datatype Grade = Grade(subjectId: Option<string>, subjectName: Option<string>, subject: Option<string>,
                         score: real, sectionId: Option<string>, courseId: Option<string>)

  /** Who the analysis is for: the student version reads only `subjectId`;
      the guardian version also falls back to `subjectName` and `subject`
      and has a larger name table. */
  datatype Audience = ForStudent | ForGuardian

  function RawSubject(g: Grade, who: Audience): string {
    match who
    case ForStudent => OptOr(g.subjectId, "general")
    case ForGuardian => OptOr(g.subjectId, OptOr(g.subjectName, OptOr(g.subject, "general")))
  }

  function SubjectOf(g: Grade, who: Audience): string {
    Pretty(BaseSubject(RawSubject(g, who)), if who == ForStudent then StudentPretty else GuardianPretty)
  }

  // ---------------------------------------------------------------------------
  // Per-subject analysis

  function Sum(xs: seq<real>): real {
    if |xs| == 0 then 0.0 else Sum(xs[..|xs| - 1]) + xs[|xs| - 1]
  }

  /** `arr.reduce((a, b) => a + b, 0) / arr.length`, 0 for no scores. */
  function Mean(xs: seq<real>): real {
    if |xs| == 0 then 0.0 else Sum(xs) / (|xs| as real)
  }

  /** The `(subject, score)` pairs of the grades that count: positive scores
      only, in input order. */
  function Scored(gs: seq<Grade>, who: Audience): (r: seq<(string, real)>)
    ensures |r| <= |gs|
    ensures forall i :: 0 <= i < |r| ==> r[i].1 > 0.0
  {
    if |gs| == 0 then []
    else
      var g := gs[|gs| - 1];
      Scored(gs[..|gs| - 1], who) + (if g.score > 0.0 then [(SubjectOf(g, who), g.score)] else [])
  }

  function Scores(ps: seq<(string, real)>): (r: seq<real>)
    ensures |r| == |ps|
    ensures forall i :: 0 <= i < |ps| ==> r[i] == ps[i].1
  {
    seq(|ps|, i requires 0 <= i < |ps| => ps[i].1)
  }

  datatype SubjectAverage = SubjectAverage(subject: string, average: real)

  function Averages(bs: seq<Bucket<real>>): (r: seq<SubjectAverage>)
    ensures |r| == |bs|
    ensures forall i :: 0 <= i < |bs| ==> r[i] == SubjectAverage(bs[i].key, Mean(bs[i].items))
  {
    seq(|bs|, i requires 0 <= i < |bs| => SubjectAverage(bs[i].key, Mean(bs[i].items)))
  }

  function NotGeneral(xs: seq<SubjectAverage>): (r: seq<SubjectAverage>)
    ensures multiset(r) <= multiset(xs)
    ensures forall i :: 0 <= i < |r| ==> r[i].subject != "General"
    ensures forall x :: x in xs && x.subject != "General" ==> x in r
  {
    if |xs| == 0 then []
    else
      var init := xs[..|xs| - 1];
      assert xs == init + [xs[|xs| - 1]];
      NotGeneral(init) + (if xs[|xs| - 1].subject != "General" then [xs[|xs| - 1]] else [])
  }

  function AverageOf(m: SubjectAverage): real {
    m.average
  }

  /** `materiasOrdenadas`: the subjects other than "General", ascending by
      average, ties in first-appearance order. */
  function Ranked(ps: seq<(string, real)>): (r: seq<SubjectAverage>)
    ensures SortedBy(r, AverageOf)
    ensures multiset(r) == multiset(NotGeneral(Averages(Group(ps))))
  {
    SortBy(NotGeneral(Averages(Group(ps))), AverageOf)
  }

  datatype Analysis =
    | NoGrades
    | Report(average: real, worst: seq<SubjectAverage>, priorities: seq<SubjectAverage>, minutes: seq<int>)

  function Min(a: int, b: int): int {
    if a <= b then a else b
  }

  /** `tiempo` of each listed subject. */
  function Minutes(ms: seq<SubjectAverage>): (r: seq<int>)
    ensures |r| == |ms|
    ensures forall i :: 0 <= i < |ms| ==> r[i] == Tiempo(ms[i].average)
  {
    seq(|ms|, i requires 0 <= i < |ms| => Tiempo(ms[i].average))
  }

  /** The report built from the ranked subjects. */
  function ReportOf(average: real, ranked: seq<SubjectAverage>): (a: Analysis)
    ensures a.Report? && a.average == average
    ensures |a.worst| == Min(2, |ranked|) && |a.priorities| == Min(3, |ranked|)
    ensures a.worst == ranked[..|a.worst|] && a.priorities == ranked[..|a.priorities|]
    ensures |a.minutes| == |a.worst|
    ensures forall i :: 0 <= i < |a.worst| ==> a.minutes[i] == Tiempo(ranked[i].average)
  {
    var worst := ranked[..Min(2, |ranked|)];
    Report(average, worst, ranked[..Min(3, |ranked|)], Minutes(worst))
  }

  /** `analizarCalificaciones` / `analizarCalificacionesConNombre`: the
      overall average of the positive scores, the two weakest subjects with
      their suggested minutes a day, and the three weakest as priorities. */
  function Analyze(gs: seq<Grade>, who: Audience): (a: Analysis)
    ensures a.NoGrades? <==> |gs| == 0
  {
    if |gs| == 0 then NoGrades
    else
      var ps := Scored(gs, who);
      ReportOf(Mean(Scores(ps)), Ranked(ps))
  }

  /** Every ranked subject is not "General", has a positive score, and its
      average is the mean of exactly its positive scores. */
  lemma RankedAreSubjectMeans(ps: seq<(string, real)>, m: SubjectAverage)
    requires m in Ranked(ps)
    ensures m.subject != "General"
    ensures Select(ps, m.subject) != [] && m.average == Mean(Select(ps, m.subject))
  {
    var bs := Group(ps);
    assert m in multiset(Ranked(ps));
    assert m in NotGeneral(Averages(bs));
    var i :| 0 <= i < |bs| && Averages(bs)[i] == m;
    assert m.subject == bs[i].key && m.average == Mean(bs[i].items) && bs[i].items != [];
    BucketIsLookup(bs, i);
    assert Sorting.Lookup(bs, m.subject) == Select(ps, m.subject);
  }

  /** Every subject other than "General" with a positive score is ranked. */
  lemma RankedIsComplete(ps: seq<(string, real)>, k: string)
    requires k in Firsts(ps) && k != "General"
    ensures exists m :: m in Ranked(ps) && m.subject == k
  {
    var bs := Group(ps);
    var i := KeyIndex(bs, k);
    var m := Averages(bs)[i];
    assert m in NotGeneral(Averages(bs));
    assert m in multiset(Ranked(ps));
  }

  /** For any grades, the report holds the mean of the positive scores, and
      the weakest subjects first: the two listed as `worst` and the three
      listed as priorities head the ranking, and no subject after them has a
      lower average. */
  lemma AnalyzeReport(gs: seq<Grade>, who: Audience)
    requires |gs| > 0
    ensures var a := Analyze(gs, who); var ranked := Ranked(Scored(gs, who));
      a.Report? && a.average == Mean(Scores(Scored(gs, who)))
      && |a.worst| == Min(2, |ranked|) && |a.priorities| == Min(3, |ranked|)
      && a.worst == ranked[..|a.worst|] && a.priorities == ranked[..|a.priorities|]
      && (forall i :: 0 <= i < |a.worst| ==> a.minutes[i] == Tiempo(a.worst[i].average))
      && forall i, j :: 0 <= i < |a.priorities| && i < j < |ranked| ==> a.priorities[i].average <= ranked[j].average
  {
  }

  /** A grade without a positive score changes nothing. */
  lemma NonPositiveScoresIgnored(gs: seq<Grade>, g: Grade, who: Audience)
    requires |gs| > 0 && g.score <= 0.0
    ensures Analyze(gs + [g], who) == Analyze(gs, who)
  {
    assert (gs + [g])[..|gs|] == gs;
    assert Scored(gs + [g], who) == Scored(gs, who);
  }

  // ---------------------------------------------------------------------------
  // The click cycle (students and teachers)

  /** What a click puts in the bubble. */
  datatype Shown =
    | MainAnalysis        // the analysis (or its "no grades" text), reloaded
    | AiMessage(text: string)
    | Waiting             // no suggestion messages are available yet

  /** `clickCount`, `aiMainIndex` and `aiMessages`. */
  datatype Clicker = Clicker(count: nat, aiIndex: nat, messages: seq<string>)

  /** `handleClick` outside the guardian flow. `fetched` stands for the
      suggestions the service returns when the click asks for them. */
  function Click(st: Clicker, fetched: seq<string>): (r: (Clicker, Shown))
    ensures st.count + 1 >= 8 ==> r.0.count == 0
    ensures st.count + 1 < 8 ==> r.0.count == st.count + 1
    ensures st.count + 1 == 1 || st.count + 1 >= 8 <==> r.1 == MainAnalysis
    ensures 2 <= st.count + 1 <= 7 && st.messages != [] ==>
      r.1 == AiMessage(st.messages[st.aiIndex % |st.messages|])
      && r.0.aiIndex == (st.aiIndex + 1) % |st.messages| && r.0.messages == st.messages
  {
    var next := st.count + 1;
    if next == 1 then
      if fetched != [] then (Clicker(1, 0, fetched), MainAnalysis) else (st.(count := 1), MainAnalysis)
    else if next <= 7 then
      var msgs := if st.messages == [] then fetched else st.messages;
      if msgs != [] then
        (Clicker(next, (st.aiIndex + 1) % |msgs|, msgs), AiMessage(msgs[st.aiIndex % |msgs|]))
      else (st.(count := next), Waiting)
    else (st.(count := 0), MainAnalysis)
  }

  /** A run of clicks, one fetched list per click. */
  function Clicks(st: Clicker, fetches: seq<seq<string>>): Clicker
    decreases |fetches|
  {
    if |fetches| == 0 then st else Clicks(Click(st, fetches[0]).0, fetches[1..])
  }

  /** From any count, the counter stays below 8 and returns to 0 after at
      most eight clicks. */
  lemma {:induction false} ClicksCycle(st: Clicker, fetches: seq<seq<string>>)
    requires st.count < 8 && |fetches| == 8 - st.count
    ensures Clicks(st, fetches).count == 0
    decreases |fetches|
  {
    var next := Click(st, fetches[0]).0;
    if st.count + 1 < 8 {
      ClicksCycle(next, fetches[1..]);
    }
  }

  /** Once messages are loaded, clicks two to seven walk through them in
      order, wrapping around. */
  lemma AiMessagesRotate(st: Clicker, f1: seq<string>, f2: seq<string>)
    requires 1 <= st.count <= 5 && st.messages != [] && st.aiIndex < |st.messages|
    ensures Click(st, f1).1 == AiMessage(st.messages[st.aiIndex])
    ensures Click(Click(st, f1).0, f2).1 == AiMessage(st.messages[(st.aiIndex + 1) % |st.messages|])
  {
    var n := |st.messages|;
    SmallMod(st.aiIndex, n);
    var s1 := Click(st, f1).0;
    assert s1.messages == st.messages && s1.aiIndex == (st.aiIndex + 1) % n && s1.count == st.count + 1;
    SmallMod(s1.aiIndex, n);
  }

  lemma SmallMod(a: nat, n: nat)
    requires a < n
    ensures a % n == a
  {
  }
}

=== FILE: grades_teacher.dfy ===
/** The teacher side of the grade assistant: subject names reduced to a
    canonical form and a three-letter code, the grades in the teacher's
    scope, the pass rate of each subject, and the activity-type label. */
module TeacherMonitor {
  import opened Strings
  import opened Js
  import opened Sorting
  import GradeMonitor

  type Grade = GradeMonitor.Grade

  // ---------------------------------------------------------------------------
  // Canonical subject names

  /** The characters `normSubj` keeps: `[a-z0-9]` and white space. */
  predicate Kept(c: char) {
    'a' <= c <= 'z' || '0' <= c <= '9' || IsSpace(c)
  }

  function KeepSubjectChars(s: string): (r: string)
    ensures |r| <= |s|
    ensures forall i :: 0 <= i < |r| ==> Kept(r[i])
    ensures (forall i :: 0 <= i < |s| ==> Kept(s[i])) ==> r == s
  {
    if |s| == 0 then []
    else (if Kept(s[0]) then [s[0]] else []) + KeepSubjectChars(s[1..])
  }

  /** `normSubj`: accents removed, lower case, dashes and underscores as
      blanks, everything but letters, digits and blanks dropped, blanks
      collapsed, trimmed. */
  function NormSubj(s: string): (r: string)
    ensures IsTrimmed(r)
  {
    Trim(GradeMonitor.Collapse(KeepSubjectChars(GradeMonitor.DashesToBlanks(FoldStr(s)))))
  }

  /** `v.replace(/\bw\b/g, to)` on text whose only non-word character is
      the blank: `w` is replaced where it is a whole word. `atStart` tells
      whether the previous character was a blank (or there was none). */
  function ReplaceWordFrom(s: string, w: string, to: string, atStart: bool): (r: string)
    requires w != []
    decreases |s|
  {
    if atStart && StartsWith(s, w) && (|s| == |w| || s[|w|] == ' ') then
      to + ReplaceWordFrom(s[|w|..], w, to, false)
    else if |s| == 0 then []
    else [s[0]] + ReplaceWordFrom(s[1..], w, to, s[0] == ' ')
  }

  function ReplaceWord(s: string, w: string, to: string): string
    requires w != []
  {
    ReplaceWordFrom(s, w, to, true)
  }

  lemma {:induction false} ReplaceAbsentWordFrom(s: string, w: string, to: string, atStart: bool)
    requires w != [] && !Contains(s, w)
    ensures ReplaceWordFrom(s, w, to, atStart) == s
    decreases |s|
  {
    if |s| > 0 {
      assert !StartsWith(s, w);
      ReplaceAbsentWordFrom(s[1..], w, to, s[0] == ' ');
    }
  }

  /** Text in which the word does not occur is left unchanged. */
  lemma ReplaceAbsentWord(s: string, w: string, to: string)
    requires w != [] && !Contains(s, w)
    ensures ReplaceWord(s, w, to) == s
  {
    ReplaceAbsentWordFrom(s, w, to, true);
  }

  /** The repairs of words whose accented letter was lost. */
  function RepairWords(n: string): string {
    var v := ReplaceWord(n, "geografa", "geografia");
    var v := ReplaceWord(v, "educacin", "educacion");
    var v := ReplaceWord(v, "fsica", "fisica");
    var v := ReplaceWord(v, "comunicacin", "comunicacion");
    ReplaceWord(v, "matemticas", "matematicas")
  }

  /** `/^historia\s+geograf[ia](\b|\s)/` on normalised text, where white
      space is a single blank and the only non-word character. */
  predicate HistoriaGeografPrefix(v: string) {
    (StartsWith(v, "historia geografi") || StartsWith(v, "historia geografa"))
    && (|v| == 17 || v[17] == ' ')
  }

  predicate IsHistoriaGeografia(v: string) {
    StartsWith(v, "historia y geografia")
    || StartsWith(v, "historia geografia y ciencias sociales")
    || StartsWith(v, "historia y geografia y ciencias sociales")
    || v == "historia geografia"
    || v == "historia geografia y ciencias sociales"
    || StartsWith(v, "historia geografa y ciencias sociales")
    || StartsWith(v, "historia geografa")
    || v == "historia geografa"
    || HistoriaGeografPrefix(v)
  }

  /** The prefixes that name a known subject, in the order they are tried,
      with the canonical name each stands for. */
  const CanonicalPrefixes: seq<(string, string)> := [
    ("lenguaje y comunic", "lenguaje y comunicacion"), ("matemat", "matematicas"),
    ("ciencias naturales", "ciencias naturales")]

  const LaterPrefixes: seq<(string, string)> := [
    ("educacion fisica", "educacion fisica"), ("artes visuales", "artes visuales"), ("musica", "musica"),
    ("tecnologia", "tecnologia"), ("orientacion", "orientacion")]

  const CanonicalNames: set<string> := {
    "lenguaje y comunicacion", "matematicas", "ciencias naturales", "historia y geografia",
    "educacion fisica", "artes visuales", "musica", "tecnologia", "orientacion"}

  /** The canonical name of the first prefix of `v` in the list, if any. */
  function FirstPrefix(ps: seq<(string, string)>, v: string): (r: Option<string>)
    ensures r.Some? ==> exists i :: 0 <= i < |ps| && StartsWith(v, ps[i].0) && r.value == ps[i].1
    ensures r.None? <==> forall i :: 0 <= i < |ps| ==> !StartsWith(v, ps[i].0)
  {
    if |ps| == 0 then None
    else if StartsWith(v, ps[0].0) then Some(ps[0].1)
    else FirstPrefix(ps[1..], v)
  }

  /** `canonicalSubject`, from the normalised and repaired name on. */
  function CanonicalOf(v: string): (r: string)
    ensures r == v || r in CanonicalNames
  {
    if FirstPrefix(CanonicalPrefixes, v).Some? then FirstPrefix(CanonicalPrefixes, v).value
    else if IsHistoriaGeografia(v) then "historia y geografia"
    else if FirstPrefix(LaterPrefixes, v).Some? then FirstPrefix(LaterPrefixes, v).value
    else v
  }

  /** `canonicalSubject`. */
  function Canonical(s: string): (r: string)
    ensures r == RepairWords(NormSubj(s)) || r in CanonicalNames
  {
    CanonicalOf(RepairWords(NormSubj(s)))
  }

  /** The known prefixes are tried in order and the first one found names
      the subject; the history variants are tried between the two lists. */
  lemma CanonicalFirstPrefix(v: string, i: int)
    requires 0 <= i < |CanonicalPrefixes|
    requires StartsWith(v, CanonicalPrefixes[i].0)
    requires forall j :: 0 <= j < i ==> !StartsWith(v, CanonicalPrefixes[j].0)
    ensures CanonicalOf(v) == CanonicalPrefixes[i].1
  {
    FirstPrefixIsFirst(CanonicalPrefixes, v, i);
  }

  lemma CanonicalHistory(v: string)
    requires IsHistoriaGeografia(v)
    requires forall j :: 0 <= j < |CanonicalPrefixes| ==> !StartsWith(v, CanonicalPrefixes[j].0)
    ensures CanonicalOf(v) == "historia y geografia"
  {
  }

  lemma CanonicalLaterPrefix(v: string, i: int)
    requires 0 <= i < |LaterPrefixes|
    requires StartsWith(v, LaterPrefixes[i].0) && !IsHistoriaGeografia(v)
    requires forall j :: 0 <= j < |CanonicalPrefixes| ==> !StartsWith(v, CanonicalPrefixes[j].0)
    requires forall j :: 0 <= j < i ==> !StartsWith(v, LaterPrefixes[j].0)
    ensures CanonicalOf(v) == LaterPrefixes[i].1
  {
    FirstPrefixIsFirst(LaterPrefixes, v, i);
  }

  /** A name matching no known prefix keeps its normalised, repaired form. */
  lemma CanonicalOtherwise(v: string)
    requires !IsHistoriaGeografia(v)
    requires forall j :: 0 <= j < |CanonicalPrefixes| ==> !StartsWith(v, CanonicalPrefixes[j].0)
    requires forall j :: 0 <= j < |LaterPrefixes| ==> !StartsWith(v, LaterPrefixes[j].0)
    ensures CanonicalOf(v) == v
  {
  }

  lemma {:induction false} FirstPrefixIsFirst(ps: seq<(string, string)>, v: string, i: int)
    requires 0 <= i < |ps| && StartsWith(v, ps[i].0)
    requires forall j :: 0 <= j < i ==> !StartsWith(v, ps[j].0)
    ensures FirstPrefix(ps, v) == Some(ps[i].1)
    decreases i
  {
    if i > 0 {
      FirstPrefixIsFirst(ps[1..], v, i - 1);
    }
  }

  // ---------------------------------------------------------------------------
  // Subject codes

  datatype Code = MAT | LEN | HIS | CIE | ING | EFI | TEC | MUS | ART | ORI

  function CodeName(k: Code): string {
    match k
    case MAT => "MAT" case LEN => "LEN" case HIS => "HIS" case CIE => "CIE" case ING => "ING"
    case EFI => "EFI" case TEC => "TEC" case MUS => "MUS" case ART => "ART" case ORI => "ORI"
  }

  /** One test of an if-chain of keyword searches: an alternation of words
      (each found anywhere), for EFI also `ef$|ef\b`, and the outcome. */
  datatype Rule<T> = Rule(outcome: T, words: seq<string>, efWord: bool)

  /** `/ef$|ef\b/` on canonical text, where the blank is the only non-word
      character. */
  predicate EfWord(c: string) {
    EndsWith(c, "ef") || Contains(c, "ef ")
  }

  /** Some word of the alternation occurs in `c`. */
  predicate AnyWord(c: string, words: seq<string>) {
    |words| > 0 && (Contains(c, words[0]) || AnyWord(c, words[1..]))
  }

  predicate Hits<T>(rule: Rule<T>, c: string) {
    AnyWord(c, rule.words) || (rule.efWord && EfWord(c))
  }

  const MatRule := Rule(MAT, ["matematic"], false)
  const LenRule := Rule(LEN, ["lenguaj", "comunicacion", "lengua"], false)
  const HisRule := Rule(HIS, ["histori", "geografi"], false)
  const CieRule := Rule(CIE, ["ciencia", "biolog", "fisic", "quimic", "naturale"], false)
  const EfiRule := Rule(EFI, ["educacion fisic", "fisica"], true)

  /** The tests of `codeFor`, in the order they are tried. The word
      `naturales?` is found exactly where `naturale` is. */
  const CodeRules: seq<Rule<Code>> := [
    MatRule, LenRule, HisRule, CieRule,
    Rule(ING, ["ingles", "english"], false),
    EfiRule,
    Rule(TEC, ["tecnolog"], false),
    Rule(MUS, ["musica"], false),
    Rule(ART, ["arte", "artes visual"], false),
    Rule(ORI, ["orientacion"], false)]

  /** The position of the first rule that accepts `c`. */
  function FirstHit<T>(rules: seq<Rule<T>>, c: string): (r: Option<nat>)
    ensures r.Some? ==> r.value < |rules| && Hits(rules[r.value], c)
    ensures r.Some? ==> forall j :: 0 <= j < r.value ==> !Hits(rules[j], c)
    ensures r.None? <==> forall j :: 0 <= j < |rules| ==> !Hits(rules[j], c)
  {
    if |rules| == 0 then None
    else if Hits(rules[0], c) then Some(0)
    else match FirstHit(rules[1..], c)
      case None => None
      case Some(k) => Some(k + 1)
  }

  lemma {:induction false} FirstHitIs<T>(rules: seq<Rule<T>>, c: string, k: nat)
    requires k < |rules| && Hits(rules[k], c)
    requires forall j :: 0 <= j < k ==> !Hits(rules[j], c)
    ensures FirstHit(rules, c) == Some(k)
    decreases k
  {
    if k > 0 {
      FirstHitIs(rules[1..], c, k - 1);
    }
  }

  /** The code `codeFor` finds for the canonical name `c`, if any. */
  function Classify(c: string): Option<Code> {
    match FirstHit(CodeRules, c)
    case Some(k) => Some(CodeRules[k].outcome)
    case None => None
  }

  /** The code when no rule accepts: `(s || 'GEN').toUpperCase().slice(0, 3)`. */
  function FallbackCode(raw: string): (r: string)
    ensures |r| <= 3
  {
    Prefix(UpperStr(if raw == [] then "GEN" else raw), 3)
  }

  /** `codeFor`, given the canonical name `c` of the raw name `raw`. */
  function CodeOf(c: string, raw: string): (r: string)
    ensures 1 <= |r| <= 3
    ensures Classify(c).Some? ==> r == CodeName(Classify(c).value)
    ensures Classify(c).None? ==> r == Prefix(UpperStr(if raw == [] then "GEN" else raw), 3)
  {
    match Classify(c)
    case Some(k) => CodeName(k)
    case None => FallbackCode(raw)
  }

  /** `codeFor`: the code of the first rule that accepts the canonical name,
      else the first three letters of the upper-cased raw name ("GEN" for an
      empty one). A code is never empty and never longer than three. */
  function CodeFor(raw: string): (r: string)
    ensures 1 <= |r| <= 3
    ensures Classify(Canonical(raw)).Some? ==> r == CodeName(Classify(Canonical(raw)).value)
    ensures Classify(Canonical(raw)).None? ==> r == Prefix(UpperStr(if raw == [] then "GEN" else raw), 3)
  {
    CodeOf(Canonical(raw), raw)
  }

  lemma ContainsWithin(s: string, w: string, i: int)
    requires OccursAt(s, w, i)
    ensures Contains(s, w)
  {
    ContainsIffOccurs(s, w);
  }

  /** A text containing `w` contains every piece of `w`. */
  lemma ContainsPiece(s: string, w: string, p: string, j: int)
    requires Contains(s, w) && OccursAt(w, p, j)
    ensures Contains(s, p)
  {
    ContainsIffOccurs(s, w);
    var i :| OccursAt(s, w, i);
    forall t | 0 <= t < |p|
      ensures s[i + j + t] == p[t]
    {
      assert s[i..i + |w|][j + t] == s[i + j + t];
      assert w[j..j + |p|][t] == w[j + t];
    }
    assert s[i + j..i + j + |p|] == p;
    ContainsWithin(s, p, i + j);
  }

  /** A word with a letter the text lacks does not occur in it. */
  lemma MissingLetter(s: string, w: string, k: int)
    requires 0 <= k < |w| && w[k] !in s
    ensures !Contains(s, w)
  {
    ContainsIffOccurs(s, w);
    forall i | 0 <= i <= |s| - |w|
      ensures !OccursAt(s, w, i)
    {
      assert s[i..i + |w|][k] == s[i + k];
    }
  }

  /** The science test comes first: a canonical name containing "fisic"
      gets one of the first four codes. */
  lemma FisicaIsCodedBeforeEfi(c: string)
    requires Contains(c, "fisic")
    ensures Classify(c) in {Some(MAT), Some(LEN), Some(HIS), Some(CIE)}
  {
    assert AnyWord(c, CieRule.words);
    assert Hits(CodeRules[3], c);
    var k := FirstHit(CodeRules, c).value;
    assert k <= 3;
  }

  /** So EFI is reached only through a standalone "ef" word. */
  lemma EfiOnlyForEfWord(c: string)
    requires Classify(c) == Some(EFI)
    ensures EfWord(c) && !Contains(c, "fisic")
  {
    if Contains(c, "fisic") {
      FisicaIsCodedBeforeEfi(c);
    } else {
      var k := FirstHit(CodeRules, c).value;
      assert CodeRules[k].outcome == EFI;
      assert k == 5;
      assert Hits(EfiRule, c);
      if AnyWord(c, EfiRule.words) {
        var i := SomeWord(c, EfiRule.words);
        if i == 0 {
          assert OccursAt("educacion fisic", "fisic", 10);
          ContainsPiece(c, "educacion fisic", "fisic", 10);
        } else {
          assert OccursAt("fisica", "fisic", 0);
          ContainsPiece(c, "fisica", "fisic", 0);
        }
      }
    }
  }

  /** The word of the alternation that occurs. */
  lemma {:induction false} SomeWord(c: string, words: seq<string>) returns (i: int)
    requires AnyWord(c, words)
    ensures 0 <= i < |words| && Contains(c, words[i])
    decreases |words|
  {
    if Contains(c, words[0]) {
      i := 0;
    } else {
      var j := SomeWord(c, words[1..]);
      i := j + 1;
    }
  }

  /** A text starting with `p` does not start with a word whose first
      letter differs. */
  lemma FirstLetterDiffers(v: string, p: string, q: string)
    requires StartsWith(v, p) && |p| > 0 && |q| > 0 && p[0] != q[0]
    ensures !StartsWith(v, q)
  {
    assert v[..|p|][0] == v[0];
    assert |v| > 0 && v[0] == p[0];
  }

  lemma NotHistoria(v: string)
    requires StartsWith(v, "e")
    ensures !IsHistoriaGeografia(v)
  {
    FirstLetterDiffers(v, "e", "historia");
    FirstLetterDiffers(v, "e", "historia geografa");
    FirstLetterDiffers(v, "e", "historia geografi");
    FirstLetterDiffers(v, "e", "historia y geografia");
    FirstLetterDiffers(v, "e", "historia geografia y ciencias sociales");
    FirstLetterDiffers(v, "e", "historia y geografia y ciencias sociales");
    FirstLetterDiffers(v, "e", "historia geografa y ciencias sociales");
  }

  /** Every name whose normalised form starts with "educacion fisica"
      ("Educación Física", "EDUCACION_FISICA", ...) is canonically
      "educacion fisica" and is coded CIE, not EFI. */
  lemma EducacionFisicaIsCie(raw: string)
    requires StartsWith(RepairWords(NormSubj(raw)), "educacion fisica")
    ensures Canonical(raw) == "educacion fisica"
    ensures CodeFor(raw) == "CIE"
  {
    EducacionFisicaCanonical(RepairWords(NormSubj(raw)));
    EducacionFisicaClassified();
    CodeForClassified(raw, CIE);
    assert CodeFor(raw) == CodeName(CIE);
    CodeNameCie();
  }

  lemma CodeNameCie()
    ensures CodeName(CIE) == "CIE"
  {
  }

  lemma CodeForClassified(raw: string, k: Code)
    requires Classify(Canonical(raw)) == Some(k)
    ensures CodeFor(raw) == CodeName(k)
  {
  }

  lemma EducacionFisicaCanonical(v: string)
    requires StartsWith(v, "educacion fisica")
    ensures CanonicalOf(v) == "educacion fisica"
  {
    assert v[..1] == "e";
    NotHistoria(v);
    FirstLetterDiffers(v, "educacion fisica", "lenguaje y comunic");
    FirstLetterDiffers(v, "educacion fisica", "matemat");
    FirstLetterDiffers(v, "educacion fisica", "ciencias naturales");
    CanonicalLaterPrefix(v, 0);
  }

  lemma EducacionFisicaClassified()
    ensures Classify("educacion fisica") == Some(CIE)
  {
    var c := "educacion fisica";
    assert OccursAt(c, "fisic", 10);
    ContainsWithin(c, "fisic", 10);
    FisicWithoutEarlierLettersIsCie(c);
  }

  /** No word of the list occurs. */
  lemma {:induction false} NoWord(c: string, words: seq<string>)
    requires forall i :: 0 <= i < |words| ==> !Contains(c, words[i])
    ensures !AnyWord(c, words)
    decreases |words|
  {
    if |words| > 0 {
      NoWord(c, words[1..]);
    }
  }

  /** A canonical name containing "fisic" and none of the letters m, l, h
      and g (so none of the earlier words) is coded CIE. */
  lemma FisicWithoutEarlierLettersIsCie(c: string)
    requires Contains(c, "fisic") && 'm' !in c && 'l' !in c && 'h' !in c && 'g' !in c
    ensures Classify(c) == Some(CIE)
  {
    MissingLetter(c, "matematic", 0);
    NoWord(c, MatRule.words);
    MissingLetter(c, "lenguaj", 0);
    MissingLetter(c, "comunicacion", 2);
    MissingLetter(c, "lengua", 0);
    NoWord(c, LenRule.words);
    MissingLetter(c, "histori", 0);
    MissingLetter(c, "geografi", 0);
    NoWord(c, HisRule.words);
    assert AnyWord(c, CieRule.words);
    FirstHitIs(CodeRules, c, 3);
  }

  // ---------------------------------------------------------------------------
  // The grades in the teacher's scope

  /** A teaching assignment, with the fields the scope reads. */
  datatype Assignment = Assignment(teacherId: Option<string>, teacherUsername: Option<string>,
                                   subjectName: Option<string>, subject: Option<string>, sectionId: Option<string>)

  /** A section of the year, with its id and course. */
  datatype Section = Section(id: Option<string>, courseId: Option<string>)

  /** `courseBySection`: sections with both an id and a course; a later
      section with the same id replaces an earlier one. */
  function CourseBySection(secs: seq<Section>): (m: map<string, string>)
    ensures forall k :: k in m ==> m[k] != ""
  {
    if |secs| == 0 then map[]
    else
      var s := secs[|secs| - 1];
      var m := CourseBySection(secs[..|secs| - 1]);
      if OptOr(s.id, "") != "" && OptOr(s.courseId, "") != "" then m[s.id.value := s.courseId.value] else m
  }

  /** `myAssigns`: the assignments whose teacher, lower-cased, is the
      current user, neither being empty. */
  function MyAssignments(assigns: seq<Assignment>, me: string): (r: seq<Assignment>)
    ensures forall a :: a in r <==> (a in assigns && LowerStr(me) != ""
                                     && LowerStr(OptOr(a.teacherId, OptOr(a.teacherUsername, ""))) == LowerStr(me))
  {
    if |assigns| == 0 then []
    else
      var a := assigns[|assigns| - 1];
      var t := LowerStr(OptOr(a.teacherId, OptOr(a.teacherUsername, "")));
      MyAssignments(assigns[..|assigns| - 1], me) + (if t != "" && LowerStr(me) != "" && t == LowerStr(me) then [a] else [])
  }

  /** The subjects, sections and courses the teacher is assigned to. */
  datatype Scope = Scope(subjects: set<string>, sections: set<string>, courses: set<string>)

  function ScopeOf(assigns: seq<Assignment>, secs: seq<Section>, me: string): (sc: Scope)
    ensures sc.courses != {} ==> sc.sections != {}
  {
    var mine := MyAssignments(assigns, me);
    var bySection := CourseBySection(secs);
    var sections := set a | a in mine :: OptOr(a.sectionId, "");
    Scope(set a | a in mine :: Canonical(OptOr(a.subjectName, OptOr(a.subject, ""))),
          sections,
          set sec | sec in sections && sec in bySection :: bySection[sec])
  }

  /** The filter of `relevant`: a positive score, an assigned subject (any
      subject when none is assigned), and, when the teacher has sections,
      an assigned section or course. */
  predicate Relevant(g: Grade, sc: Scope)
    ensures Relevant(g, sc) ==> g.score > 0.0
    ensures sc.subjects == {} && sc.sections == {} && sc.courses == {} ==> (Relevant(g, sc) <==> g.score > 0.0)
  {
    var subject := Canonical(OptOr(g.subjectId, OptOr(g.subject, OptOr(g.subjectName, ""))));
    var sec := OptOr(g.sectionId, "");
    var course := OptOr(g.courseId, "");
    var subjectOk := sc.subjects == {} || subject in sc.subjects;
    var sectionOk := sc.sections == {} || (sec != "" && sec in sc.sections);
    var courseOk := sc.courses == {} || (course != "" && course in sc.courses);
    g.score > 0.0
    && if sc.sections == {} && sc.courses == {} then subjectOk else subjectOk && (sectionOk || courseOk)
  }

  /** When no assigned section has a known course, `courseOk` holds for
      every grade, so the section restriction has no effect. */
  lemma SectionsIgnoredWithoutCourses(g: Grade, sc: Scope)
    requires sc.courses == {}
    ensures Relevant(g, sc) <==> (g.score > 0.0 && (sc.subjects == {}
      || Canonical(OptOr(g.subjectId, OptOr(g.subject, OptOr(g.subjectName, "")))) in sc.subjects))
  {
  }

  /** With courses known, a grade counts only through an assigned section
      or course. */
  lemma CoursesRestrict(g: Grade, sc: Scope)
    requires sc.sections != {} && sc.courses != {} && Relevant(g, sc)
    ensures (OptOr(g.sectionId, "") != "" && OptOr(g.sectionId, "") in sc.sections)
      || (OptOr(g.courseId, "") != "" && OptOr(g.courseId, "") in sc.courses)
  {
  }

  /** `todas.filter(...)`, in input order. */
  function RelevantGrades(gs: seq<Grade>, sc: Scope): (r: seq<Grade>)
    ensures |r| <= |gs|
    ensures forall g :: g in r <==> g in gs && Relevant(g, sc)
  {
    if |gs| == 0 then []
    else
      var g := gs[|gs| - 1];
      RelevantGrades(gs[..|gs| - 1], sc) + (if Relevant(g, sc) then [g] else [])
  }

  // ---------------------------------------------------------------------------
  // Pass rates

  /** `g.subjectId || g.subject || g.subjectName || 'General'`. */
  function SubjectName(g: Grade): string {
    OptOr(g.subjectId, OptOr(g.subject, OptOr(g.subjectName, "General")))
  }

  /** Each relevant grade under its canonical subject, with the code of its
      raw subject name and its score. */
  function Entries(gs: seq<Grade>): (r: seq<(string, (string, real))>)
    ensures |r| == |gs|
    ensures forall i :: 0 <= i < |gs| ==> r[i] == (Canonical(SubjectName(gs[i])), (CodeFor(SubjectName(gs[i])), gs[i].score))
  {
    seq(|gs|, i requires 0 <= i < |gs| => (Canonical(SubjectName(gs[i])), (CodeFor(SubjectName(gs[i])), gs[i].score)))
  }

  /** How many scores pass (`score >= 60`). */
  function Passed(xs: seq<(string, real)>): (n: nat)
    ensures n <= |xs|
  {
    if |xs| == 0 then 0 else Passed(xs[..|xs| - 1]) + (if xs[|xs| - 1].1 >= 60.0 then 1 else 0)
  }

  function ScoreSum(xs: seq<(string, real)>): real {
    if |xs| == 0 then 0.0 else ScoreSum(xs[..|xs| - 1]) + xs[|xs| - 1].1
  }

  /** An entry of `agg` with its rate and average: the code is that of the
      subject's first grade. */
  datatype Stat = Stat(key: string, code: string, total: nat, ok: nat, rate: real, average: real)

  function StatOf(b: Bucket<(string, real)>): (st: Stat)
    requires b.items != []
    ensures st.key == b.key && st.code == b.items[0].0 && st.total == |b.items| > 0
    ensures st.ok == Passed(b.items) <= st.total
    ensures 0.0 <= st.rate <= 100.0
  {
    var total := |b.items|;
    var ok := Passed(b.items);
    assert (ok as real) / (total as real) <= 1.0;
    Stat(b.key, b.items[0].0, total, ok, (ok as real) / (total as real) * 100.0, ScoreSum(b.items) / (total as real))
  }

  function Stats(bs: seq<Bucket<(string, real)>>): (r: seq<Stat>)
    requires NonEmptyBuckets(bs)
    ensures |r| == |bs|
    ensures forall i :: 0 <= i < |bs| ==> r[i] == StatOf(bs[i])
  {
    seq(|bs|, i requires 0 <= i < |bs| => StatOf(bs[i]))
  }

  function RateOf(st: Stat): real {
    st.rate
  }

  function AverageOf(st: Stat): real {
    st.average
  }

  /** `.filter(x => x.total >= 5)`. */
  function WellSampled(xs: seq<Stat>): (r: seq<Stat>)
    ensures forall x :: x in r <==> x in xs && x.total >= 5
    ensures multiset(r) <= multiset(xs)
  {
    if |xs| == 0 then []
    else
      var init := xs[..|xs| - 1];
      assert xs == init + [xs[|xs| - 1]];
      WellSampled(init) + (if xs[|xs| - 1].total >= 5 then [xs[|xs| - 1]] else [])
  }

  datatype TeacherAnalysis =
    | NoRelevantGrades
    | PassRates(ranked: seq<Stat>, sampled: bool, worst: Stat, averages: seq<Stat>)

  /** The per-subject statistics of the relevant grades. */
  function StatsOf(relevant: seq<Grade>): (r: seq<Stat>)
    ensures |relevant| > 0 ==> |r| > 0
  {
    var bs := Group(Entries(relevant));
    if |relevant| > 0 then
      assert Entries(relevant)[0].0 in Firsts(Entries(relevant)) by { FirstIsFirst(Entries(relevant), 0); }
      KeyIndexExists(bs, Entries(relevant)[0].0);
      Stats(bs)
    else Stats(bs)
  }

  lemma {:induction false} FirstIsFirst<T>(xs: seq<(string, T)>, i: int)
    requires 0 <= i < |xs|
    ensures xs[i].0 in Firsts(xs)
    decreases |xs|
  {
    if i < |xs| - 1 {
      FirstIsFirst(xs[..|xs| - 1], i);
    }
  }

  lemma KeyIndexExists<T>(bs: seq<Bucket<T>>, k: string)
    requires k in Keys(bs)
    ensures |bs| > 0
  {
    var i := KeyIndex(bs, k);
  }

  /** The ranking of `list` (or `list2`) and the averages of `avgList`:
      subjects with at least five grades ranked by rate, or all of them when
      none has five; the worst is the first ranked. */
  function RankStats(stats: seq<Stat>): (a: TeacherAnalysis)
    requires stats != []
    ensures a.PassRates? && a.ranked != [] && a.worst == a.ranked[0]
    ensures SortedBy(a.ranked, RateOf)
    ensures !a.sampled ==> multiset(a.ranked) == multiset(stats)
    ensures SortedBy(a.averages, AverageOf) && multiset(a.averages) == multiset(stats)
  {
    var sampled := WellSampled(stats);
    var ranked := if sampled != [] then SortBy(sampled, RateOf) else SortBy(stats, RateOf);
    PassRates(ranked, sampled != [], ranked[0], SortBy(stats, AverageOf))
  }

  /** The worst subject has the lowest rate of the ranking. */
  lemma WorstHasLowestRate(stats: seq<Stat>, x: Stat)
    requires stats != [] && x in RankStats(stats).ranked
    ensures RankStats(stats).worst.rate <= x.rate
  {
    var a := RankStats(stats);
    var j :| 0 <= j < |a.ranked| && a.ranked[j] == x;
    if j > 0 {
      assert RateOf(a.ranked[0]) <= RateOf(a.ranked[j]);
    }
  }

  /** The threshold of five grades applies exactly when some subject meets
      it, and then the ranking holds exactly the subjects that do. */
  lemma RankingUsesThreshold(stats: seq<Stat>)
    requires stats != []
    ensures var a := RankStats(stats);
      (a.sampled <==> exists x :: x in stats && x.total >= 5)
      && (a.sampled ==> forall x :: x in a.ranked <==> x in stats && x.total >= 5)
  {
    var a := RankStats(stats);
    if a.sampled {
      forall x
        ensures x in a.ranked <==> x in stats && x.total >= 5
      {
        assert x in a.ranked <==> x in multiset(a.ranked);
        assert x in WellSampled(stats) <==> x in multiset(WellSampled(stats));
      }
    }
    if exists x :: x in stats && x.total >= 5 {
      var x :| x in stats && x.total >= 5;
      assert x in WellSampled(stats);
    }
  }

  /** The pass-rate part of `analizarCalificacionesDocente`: nothing to rank
      exactly when no grade is relevant (so the empty `list2` case cannot
      arise). */
  function AnalyzeTeacher(gs: seq<Grade>, sc: Scope): (a: TeacherAnalysis)
    ensures a.NoRelevantGrades? <==> RelevantGrades(gs, sc) == []
    ensures a.PassRates? ==> a == RankStats(StatsOf(RelevantGrades(gs, sc)))
  {
    var relevant := RelevantGrades(gs, sc);
    if relevant == [] then NoRelevantGrades else RankStats(StatsOf(relevant))
  }

  /** Each subject's figures are those of exactly its relevant grades: the
      total is their number, `ok` the passing ones, the code that of the
      first, and the rate `ok / total * 100`. */
  lemma StatsCountSubjectGrades(relevant: seq<Grade>, st: Stat)
    requires st in StatsOf(relevant)
    ensures var es := Select(Entries(relevant), st.key);
      es != [] && st.total == |es| && st.ok == Passed(es) && st.code == es[0].0
      && st.rate == (st.ok as real) / (st.total as real) * 100.0
  {
    assert StatsOf(relevant) == Stats(Group(Entries(relevant)));
    GroupedStat(Entries(relevant), st);
  }

  /** A figure computed from grouped entries is that of its key's entries. */
  lemma GroupedStat(es: seq<(string, (string, real))>, st: Stat)
    requires st in Stats(Group(es))
    ensures var sel := Select(es, st.key);
      sel != [] && st.total == |sel| && st.ok == Passed(sel) && st.code == sel[0].0
      && st.rate == (st.ok as real) / (st.total as real) * 100.0
  {
    var bs := Group(es);
    var i :| 0 <= i < |bs| && Stats(bs)[i] == st;
    BucketIsLookup(bs, i);
  }

  // ---------------------------------------------------------------------------
  // Activity types

  /** The keyword tests of `extractActType`, on the upper-cased title. */
  const ActRules: seq<Rule<string>> := [
    Rule("Tarea", ["TAREA"], false),
    Rule("Prueba", ["PRUEBA"], false),
    Rule("Evaluación", ["EVALUACION", "EVALUACIÓN"], false),
    Rule("Examen", ["EXAMEN"], false),
    Rule("Quiz", ["QUIZ"], false),
    Rule("Trabajo", ["TRABAJO"], false)]

  /** `extractActType`: the title of the first keyword found in the
      upper-cased title, else its first 15 characters ("Act" when empty). */
  function ExtractActType(title: string): (r: string)
    ensures FirstHit(ActRules, UpperStr(title)).None? ==>
      r == Prefix(if title == [] then "Act" else title, 15) && |r| <= 15
  {
    match FirstHit(ActRules, UpperStr(title))
    case Some(k) => ActRules[k].outcome
    case None => Prefix(if title == [] then "Act" else title, 15)
  }

  /** "Tarea" wins over every later keyword. */
  lemma TareaFirst(title: string)
    requires Contains(UpperStr(title), "TAREA")
    ensures ExtractActType(title) == "Tarea"
  {
    assert AnyWord(UpperStr(title), ActRules[0].words);
    FirstHitIs(ActRules, UpperStr(title), 0);
  }

  /** A title without a keyword is cut to 15 characters. */
  lemma NoKeywordKeepsPrefix(title: string)
    requires forall i :: 0 <= i < |ActRules| ==> !AnyWord(UpperStr(title), ActRules[i].words)
    ensures ExtractActType(title) == Prefix(if title == [] then "Act" else title, 15)
  {
  }
}

=== FILE: js.dfy ===
/** The small part of JavaScript value semantics the platform's logic depends on:
    optional values, thrown-or-returned results, truthiness and the `||`
    fall-through chains used to pick configuration values and record fields. */
module Js {

  datatype Option<+T> = None | Some(value: T) {
    function GetOr(default: T): T {
      match this
      case Some(v) => v
      case None => default
    }
  }

  /** A computation that either returns a value or throws. */
  datatype Result<+T, +E> = Ok(value: T) | Err(error: E)

  /** A JSON value as the code inspects it. Numbers are integers here: the
      inspected fields (indices, counts) are integral. */
  datatype Value = Undefined | Null | Bool(b: bool) | Num(n: int) | Str(s: string) | Arr(items: seq<Value>) | Obj

  /** JavaScript truthiness. */
  predicate Truthy(v: Value) {
    match v
    case Undefined => false
    case Null => false
    case Bool(b) => b
    case Num(n) => n != 0
    case Str(s) => s != []
    case Arr(_) => true
    case Obj => true
  }

  /** `a || b` on strings: the empty string is the only falsy string. */
  function Or(a: string, b: string): (r: string)
    ensures r == a || r == b
    ensures r == [] <==> a == [] && b == []
    ensures a != [] ==> r == a
  {
    if a != [] then a else b
  }

  /** Position of the first non-empty string, or -1 when all are empty. */
  function FirstTruthyIndex(xs: seq<string>): (k: int)
    ensures -1 <= k < |xs|
    ensures k >= 0 ==> xs[k] != [] && forall j :: 0 <= j < k ==> xs[j] == []
    ensures k == -1 ==> forall j :: 0 <= j < |xs| ==> xs[j] == []
  {
    if |xs| == 0 then -1
    else if xs[0] != [] then 0
    else var k := FirstTruthyIndex(xs[1..]); if k < 0 then -1 else k + 1
  }

  /** `xs[0] || xs[1] || ...`, with `None` for the final `undefined`. */
  function FirstTruthy(xs: seq<string>): (r: Option<string>)
    ensures r.None? <==> forall j :: 0 <= j < |xs| ==> xs[j] == []
    ensures r.Some? ==> r.value != [] && exists k :: 0 <= k < |xs| && xs[k] == r.value
  {
    var k := FirstTruthyIndex(xs);
    if k < 0 then None else Some(xs[k])
  }

  /** `xs[0] || xs[1] || ... || fallback`. */
  function FirstTruthyOr(xs: seq<string>, fallback: string): (r: string)
    ensures (forall j :: 0 <= j < |xs| ==> xs[j] == []) ==> r == fallback
    ensures (exists j :: 0 <= j < |xs| && xs[j] != []) ==> r != [] && exists k :: 0 <= k < |xs| && xs[k] == r
  {
    FirstTruthy(xs).GetOr(fallback)
  }

  /** A truthy option value: present and non-empty. */
  function OptOr(a: Option<string>, b: string): (r: string)
    ensures a.Some? && a.value != [] ==> r == a.value
    ensures !(a.Some? && a.value != []) ==> r == b
  {
    if a.Some? && a.value != [] then a.value else b
  }

  /** The number of iterations of `for (let i = 0; i < c; i++)`. */
  function Times(c: int): nat {
    if c > 0 then c else 0
  }
}

=== FILE: lists.dfy ===
/** Array idioms the platform repeats: `filter`, and the "seen set" loop
    that keeps the first element of each key. */
module Lists {

  /** `xs.filter(p)`. */
  function Filter<T(==,!new)>(xs: seq<T>, p: T -> bool): (r: seq<T>)
    ensures |r| <= |xs|
    ensures forall x :: x in r <==> x in xs && p(x)
  {
    if |xs| == 0 then []
    else
      var init := xs[..|xs| - 1];
      assert xs == init + [xs[|xs| - 1]];
      Filter(init, p) + (if p(xs[|xs| - 1]) then [xs[|xs| - 1]] else [])
  }

  lemma FilterOne<T(!new)>(x: T, p: T -> bool)
    ensures Filter([x], p) == if p(x) then [x] else []
  {
    assert [x][..0] == [];
  }

  /** Filtering a concatenation filters each part. */
  lemma {:induction false} FilterAppend<T(!new)>(a: seq<T>, b: seq<T>, p: T -> bool)
    ensures Filter(a + b, p) == Filter(a, p) + Filter(b, p)
    decreases |b|
  {
    if |b| > 0 {
      var init := b[..|b| - 1];
      assert (a + b)[..|a + b| - 1] == a + init;
      assert (a + b)[|a + b| - 1] == b[|b| - 1];
      FilterAppend(a, init, p);
    } else {
      assert a + b == a;
    }
  }

  /** The keys of the elements of `xs`. */
  function KeysOf<T(==,!new)>(xs: seq<T>, key: T -> string): set<string> {
    set x | x in xs :: key(x)
  }

  lemma KeysOfSnoc<T(!new)>(xs: seq<T>, x: T, key: T -> string)
    ensures KeysOf(xs + [x], key) == KeysOf(xs, key) + {key(x)}
  {
    assert forall y :: y in xs + [x] <==> y in xs || y == x;
  }

  /** No two elements share a key. */
  predicate DistinctBy<T>(xs: seq<T>, key: T -> string) {
    forall i, j :: 0 <= i < j < |xs| ==> key(xs[i]) != key(xs[j])
  }

  /** `xs[j]` is the first element with its key. */
  predicate FirstWithKey<T>(xs: seq<T>, key: T -> string, j: int) {
    0 <= j < |xs| && forall m :: 0 <= m < j ==> key(xs[m]) != key(xs[j])
  }

  /** The elements of `xs` that no earlier element shares a key with, in
      order: every key once, by its first holder. */
  function FirstOccurrences<T(==,!new)>(xs: seq<T>, key: T -> string): (r: seq<T>)
    ensures |r| <= |xs|
    ensures DistinctBy(r, key)
    ensures KeysOf(r, key) == KeysOf(xs, key)
    ensures forall x :: x in r ==> x in xs
  {
    if |xs| == 0 then []
    else
      var init := xs[..|xs| - 1];
      var x := xs[|xs| - 1];
      assert xs == init + [x];
      KeysOfSnoc(init, x, key);
      var r := FirstOccurrences(init, key);
      if key(x) in KeysOf(init, key) then r
      else
        KeysOfSnoc(r, x, key);
        r + [x]
  }

  /** One more element: kept exactly when its key is new. */
  lemma FirstOccurrencesSnoc<T(!new)>(xs: seq<T>, x: T, key: T -> string)
    ensures FirstOccurrences(xs + [x], key)
      == if key(x) in KeysOf(xs, key) then FirstOccurrences(xs, key) else FirstOccurrences(xs, key) + [x]
  {
    assert (xs + [x])[..|xs + [x]| - 1] == xs;
  }

  /** Two first holders of one key are the same position. */
  lemma FirstWithKeyUnique<T>(xs: seq<T>, key: T -> string, m: int, j: int)
    requires FirstWithKey(xs, key, m) && FirstWithKey(xs, key, j)
    ensures key(xs[m]) == key(xs[j]) ==> m == j
  {
  }

  /** Each kept element is the first holder of its key. */
  lemma {:induction false} KeptAreFirst<T(!new)>(xs: seq<T>, key: T -> string, i: int)
    requires 0 <= i < |FirstOccurrences(xs, key)|
    ensures exists j :: FirstWithKey(xs, key, j) && xs[j] == FirstOccurrences(xs, key)[i]
    decreases |xs|
  {
    var init := xs[..|xs| - 1];
    var x := xs[|xs| - 1];
    var r := FirstOccurrences(init, key);
    if i < |r| {
      KeptAreFirst(init, key, i);
      var j :| FirstWithKey(init, key, j) && init[j] == r[i];
      assert FirstWithKey(xs, key, j) && xs[j] == FirstOccurrences(xs, key)[i];
    } else {
      assert key(x) !in KeysOf(init, key);
      forall m | 0 <= m < |xs| - 1
        ensures key(xs[m]) != key(x)
      {
        assert init[m] in init;
      }
      assert FirstWithKey(xs, key, |xs| - 1);
    }
  }

  /** The seen-set loop: `seen.has(k) ? skip : (seen.add(k), keep)`. */
  method Unique<T(==,!new)>(list: seq<T>, key: T -> string) returns (unique: seq<T>)
    ensures unique == FirstOccurrences(list, key)
  {
    var seen: set<string> := {};
    unique := [];
    var i := 0;
    while i < |list|
      invariant 0 <= i <= |list|
      invariant unique == FirstOccurrences(list[..i], key)
      invariant seen == KeysOf(list[..i], key)
    {
      var k := key(list[i]);
      assert list[..i + 1] == list[..i] + [list[i]];
      KeysOfSnoc(list[..i], list[i], key);
      if k !in seen {
        unique := unique + [list[i]];
        seen := seen + {k};
      }
      i := i + 1;
    }
    assert list[..i] == list;
  }

  /** Filtering keeps keys distinct. */
  lemma {:induction false} FilterKeepsDistinct<T(!new)>(xs: seq<T>, p: T -> bool, key: T -> string)
    requires DistinctBy(xs, key)
    ensures DistinctBy(Filter(xs, p), key)
    decreases |xs|
  {
    if |xs| > 0 {
      var init := xs[..|xs| - 1];
      FilterKeepsDistinct(init, p, key);
      if p(xs[|xs| - 1]) {
        var f := Filter(init, p);
        forall i | 0 <= i < |f|
          ensures key(f[i]) != key(xs[|xs| - 1])
        {
          assert f[i] in init;
          var m :| 0 <= m < |init| && init[m] == f[i];
        }
      }
    }
  }

  lemma UniqueThenFilterStep<T(!new)>(xs: seq<T>, x: T, key: T -> string, p: T -> bool)
    ensures Filter(FirstOccurrences(xs + [x], key), p)
      == Filter(FirstOccurrences(xs, key), p) + (if key(x) !in KeysOf(xs, key) && p(x) then [x] else [])
  {
    FirstOccurrencesSnoc(xs, x, key);
    if key(x) !in KeysOf(xs, key) {
      FilterAppend(FirstOccurrences(xs, key), [x], p);
      FilterOne(x, p);
    }
  }

  lemma UniqueThenFilterKeeps<T(!new)>(list: seq<T>, i: int, key: T -> string, p: T -> bool,
                                       out: seq<T>, seen: set<string>, out': seq<T>, seen': set<string>)
    requires 0 <= i < |list|
    requires out == Filter(FirstOccurrences(list[..i], key), p) && seen == KeysOf(list[..i], key)
    requires seen' == seen + {key(list[i])}
    requires out' == if key(list[i]) !in seen && p(list[i]) then out + [list[i]] else out
    ensures out' == Filter(FirstOccurrences(list[..i + 1], key), p) && seen' == KeysOf(list[..i + 1], key)
  {
    var xs, x := list[..i], list[i];
    assert list[..i + 1] == xs + [x];
    KeysOfSnoc(xs, x, key);
    UniqueThenFilterStep(xs, x, key, p);
    if key(x) !in seen && p(x) {
      assert out' == out + [x];
    } else {
      assert out' == out;
    }
  }

  /** One step of that loop. */
  method Visit<T(==)>(x: T, key: T -> string, p: T -> bool, seen: set<string>, out: seq<T>)
    returns (seen': set<string>, out': seq<T>)
    ensures seen' == seen + {key(x)}
    ensures out' == if key(x) !in seen && p(x) then out + [x] else out
  {
    seen', out' := seen, out;
    if key(x) !in seen {
      seen' := seen + {key(x)};
      if p(x) {
        out' := out + [x];
      }
    }
  }

  /** The seen-set loop with a test after the key is recorded:
      `if (seen.has(k)) return; seen.add(k); if (!p(x)) return; keep`. The
      first element of a key decides for every later one. */
  method UniqueThenFilter<T(==,!new)>(list: seq<T>, key: T -> string, p: T -> bool) returns (out: seq<T>)
    ensures out == Filter(FirstOccurrences(list, key), p)
  {
    var seen: set<string> := {};
    out := [];
    var i := 0;
    while i < |list|
      invariant 0 <= i <= |list|
      invariant out == Filter(FirstOccurrences(list[..i], key), p)
      invariant seen == KeysOf(list[..i], key)
    {
      seen, out := UniqueThenFilterVisit(list, i, key, p, seen, out);
      i := i + 1;
    }
    assert list[..i] == list;
  }

  /** The loop body, with the invariant before and after. */
  method UniqueThenFilterVisit<T(==,!new)>(list: seq<T>, i: int, key: T -> string, p: T -> bool,
                                           seen: set<string>, out: seq<T>)
    returns (seen': set<string>, out': seq<T>)
    requires 0 <= i < |list|
    requires out == Filter(FirstOccurrences(list[..i], key), p) && seen == KeysOf(list[..i], key)
    ensures out' == Filter(FirstOccurrences(list[..i + 1], key), p) && seen' == KeysOf(list[..i + 1], key)
  {
    seen', out' := Visit(list[i], key, p, seen, out);
    UniqueThenFilterKeeps(list, i, key, p, out, seen, out', seen');
  }

  /** `xs.map(f)`. */
  function MapSeq<T, U>(xs: seq<T>, f: T -> U): (r: seq<U>)
    ensures |r| == |xs|
    ensures forall i :: 0 <= i < |xs| ==> r[i] == f(xs[i])
  {
    seq(|xs|, i requires 0 <= i < |xs| => f(xs[i]))
  }

  /** In `filter(p).map(f)` followed by the seen-set loop over the results
      passing `q`, every selected element passing `q` has its key kept. */
  lemma SelectedKeyKept<T(!new), U(!new)>(xs: seq<T>, p: T -> bool, f: T -> U, q: U -> bool, key: U -> string, x: T)
    requires x in xs && p(x) && q(f(x))
    ensures key(f(x)) in KeysOf(FirstOccurrences(Filter(MapSeq(Filter(xs, p), f), q), key), key)
  {
    var sel := Filter(xs, p);
    var i :| 0 <= i < |sel| && sel[i] == x;
    assert MapSeq(sel, f)[i] == f(x);
    assert f(x) in Filter(MapSeq(sel, f), q);
  }

  /** ... and every kept result comes from a selected element. */
  lemma KeptIsSelected<T(!new), U(!new)>(xs: seq<T>, p: T -> bool, f: T -> U, q: U -> bool, key: U -> string, y: U)
    requires y in FirstOccurrences(Filter(MapSeq(Filter(xs, p), f), q), key)
    ensures q(y) && exists x :: x in xs && p(x) && f(x) == y
  {
    var sel := Filter(xs, p);
    var i :| 0 <= i < |sel| && MapSeq(sel, f)[i] == y;
    assert sel[i] in sel;
  }
}

=== FILE: manual_builder.dfy ===
/** The manual test builder: a test assembled from the questions a PDF
    analysis found. Modelled here: the weights spread over the question types
    found, the teacher's effective assignments with their course-section and
    subject chips, the validity gate, and the stored form of each question. */
module ManualBuilder {
  import opened Strings
  import opened Js
  import opened Lists
  import TestsPage

  // ---------------------------------------------------------------------------
  // Loosely typed records

  /** A stored object as the component reads it: its string-valued fields;
      a field that is absent stands for `undefined`. */
  type Record = map<string, string>

  function Prop(r: Record, f: string): (v: Option<string>)
    ensures v.Some? <==> f in r
  {
    if f in r then Some(r[f]) else None
  }

  /** `r.f1 || r.f2 || ... || ""`. */
  function Pick(r: Record, fields: seq<string>): (v: string)
    ensures v == "" <==> forall i :: 0 <= i < |fields| ==> OptOr(Prop(r, fields[i]), "") == ""
    ensures v != "" ==> exists i :: 0 <= i < |fields| && fields[i] in r && r[fields[i]] == v
  {
    if |fields| == 0 then ""
    else
      var rest := Pick(r, fields[1..]);
      assert forall i :: 1 <= i < |fields| ==> fields[1..][i - 1] == fields[i];
      OptOr(Prop(r, fields[0]), rest)
  }

  /** `r.f1 || ... || r.fn` without a final default: the last field's value
      when no field is truthy, which may be `undefined`. */
  function PickRaw(r: Record, fields: seq<string>): (v: Option<string>)
    requires |fields| > 0
    ensures OptOr(v, "") == Pick(r, fields)
  {
    if |fields| == 1 || OptOr(Prop(r, fields[0]), "") != "" then Prop(r, fields[0])
    else PickRaw(r, fields[1..])
  }

  /** `String(v)`: `undefined` prints as "undefined". */
  function StrOf(v: Option<string>): string {
    v.GetOr("undefined")
  }

  /** `a || b` on possibly undefined strings. */
  function OrOpt(a: Option<string>, b: Option<string>): (r: Option<string>)
    ensures OptOr(r, "") == OptOr(a, OptOr(b, ""))
  {
    if OptOr(a, "") != "" then a else b
  }

  /** A map with the field set only when the value is defined. */
  function Put(r: Record, f: string, v: Option<string>): (m: Record)
    ensures Prop(m, f) == (if v.Some? then v else Prop(r, f))
  {
    if v.Some? then r[f := v.value] else r
  }

  // ---------------------------------------------------------------------------
  // Weights

  /** The positions (in the order tf, mc, ms, des) whose count is positive. */
  function Active(counts: seq<int>): (r: seq<nat>)
    ensures forall j: nat :: j in r <==> j < |counts| && counts[j] > 0
    ensures forall i, j :: 0 <= i < j < |r| ==> r[i] < r[j]
    ensures forall i :: 0 <= i < |r| ==> r[i] < |counts|
  {
    if |counts| == 0 then []
    else
      var init := Active(counts[..|counts| - 1]);
      assert forall j: nat :: j < |counts| - 1 ==> counts[..|counts| - 1][j] == counts[j];
      init + (if counts[|counts| - 1] > 0 then [|counts| - 1] else [])
  }

  function Total(ws: seq<int>): int {
    if |ws| == 0 then 0 else Total(ws[..|ws| - 1]) + ws[|ws| - 1]
  }

  /** `e` for each active position, 0 elsewhere. */
  function Even(counts: seq<int>, e: int): (r: seq<int>)
    ensures |r| == |counts|
    ensures forall i :: 0 <= i < |counts| ==> r[i] == if counts[i] > 0 then e else 0
  {
    seq(|counts|, i requires 0 <= i < |counts| => if counts[i] > 0 then e else 0)
  }

  lemma {:induction false} TotalEven(counts: seq<int>, e: int)
    ensures Total(Even(counts, e)) == e * |Active(counts)|
    decreases |counts|
  {
    if |counts| > 0 {
      var init := counts[..|counts| - 1];
      assert Even(counts, e)[..|counts| - 1] == Even(init, e);
      TotalEven(init, e);
      if counts[|counts| - 1] > 0 {
        assert |Active(counts)| == |Active(init)| + 1;
        MulSucc(e, |Active(init)|);
      } else {
        assert Active(counts) == Active(init);
      }
    }
  }

  lemma MulSucc(e: int, k: int)
    ensures e * (k + 1) == e * k + e
  {
  }

  lemma DivMod(n: int, k: int)
    requires k > 0
    ensures (n / k) * k + n % k == n
  {
  }

  lemma {:induction false} TotalUpdate(ws: seq<int>, j: int, d: int)
    requires 0 <= j < |ws|
    ensures Total(ws[j := ws[j] + d]) == Total(ws) + d
    decreases |ws|
  {
    var n := |ws|;
    if j < n - 1 {
      assert ws[j := ws[j] + d][..n - 1] == ws[..n - 1][j := ws[j] + d];
      TotalUpdate(ws[..n - 1], j, d);
    } else {
      assert ws[j := ws[j] + d][..n - 1] == ws[..n - 1];
    }
  }

  /** The weight adjustment of `handleAnalyze`: with `k` active types each
      gets `floor(100 / k)` and the first active type also the rest; with
      none the weights stay. Positions are the types in the order tf, mc, ms,
      des. The keys enumerated are those of `result.counts` from the analysis
      response, whose order is assumed to be tf, mc, ms, des, so "first" is
      first in that order. */
  function Redistribute(counts: seq<int>, weights: seq<int>): (r: seq<int>)
    requires |counts| == |weights|
    ensures |r| == |weights|
    ensures Active(counts) == [] ==> r == weights
  {
    var act := Active(counts);
    if act == [] then weights
    else
      var even := Even(counts, 100 / |act|);
      var sum := Total(even);
      if sum < 100 then even[act[0] := even[act[0]] + (100 - sum)] else even
  }

  /** The adjusted weights total exactly 100. */
  lemma WeightsTotal100(counts: seq<int>, weights: seq<int>)
    requires |counts| == |weights| && Active(counts) != []
    ensures Total(Redistribute(counts, weights)) == 100
  {
    var act := Active(counts);
    var k := |act|;
    var e := 100 / k;
    var even := Even(counts, e);
    TotalEven(counts, e);
    DivMod(100, k);
    assert Total(even) == e * k == 100 - 100 % k;
    if Total(even) < 100 {
      TotalUpdate(even, act[0], 100 - Total(even));
    }
  }

  /** Inactive types get nothing, each active type `floor(100 / k)`, and the
      first active type (the lowest position, as `Active` is increasing) the
      remainder `100 mod k` on top. */
  lemma WeightsPerType(counts: seq<int>, weights: seq<int>)
    requires |counts| == |weights| && Active(counts) != []
    ensures var r := Redistribute(counts, weights);
      var k := |Active(counts)|;
      r[Active(counts)[0]] == 100 / k + 100 % k
      && forall i :: 0 <= i < |r| && i != Active(counts)[0] ==> r[i] == if counts[i] > 0 then 100 / k else 0
  {
    var act := Active(counts);
    var even := Even(counts, 100 / |act|);
    TotalEven(counts, 100 / |act|);
    DivMod(100, |act|);
  }

  // ---------------------------------------------------------------------------
  // Effective assignments

  /** An entry of a teacher profile's `teachingAssignments`. */
  datatype Teaching = Teaching(subject: Option<string>, subjectName: Option<string>, courses: seq<string>)

  /** A user of `smart-student-users`. */
  datatype Profile = Profile(fields: Record, teaching: seq<Teaching>)

  /** `allUsers.find(u => u.id === user?.id || u.username === user?.username)`;
      an absent field equals an absent field, as `undefined === undefined`. */
  function FindMe(users: seq<Profile>, user: Option<Record>): (me: Option<Profile>)
    ensures me.Some? ==> me.value in users
    ensures me.Some? && user.Some? ==> Prop(me.value.fields, "id") == Prop(user.value, "id")
                                       || Prop(me.value.fields, "username") == Prop(user.value, "username")
  {
    var id := if user.Some? then Prop(user.value, "id") else None;
    var name := if user.Some? then Prop(user.value, "username") else None;
    if |users| == 0 then None
    else if Prop(users[0].fields, "id") == id || Prop(users[0].fields, "username") == name then Some(users[0])
    else FindMe(users[1..], user)
  }

  /** `subjectByName`: name to id over the subjects with both; a later
      subject with the same name wins. */
  function SubjectByName(subjects: seq<Record>): (m: map<string, string>)
    ensures forall k :: k in m ==> k != "" && m[k] != ""
  {
    if |subjects| == 0 then map[]
    else
      var s := subjects[|subjects| - 1];
      var m := SubjectByName(subjects[..|subjects| - 1]);
      var name := Pick(s, ["name"]);
      var id := Pick(s, ["id"]);
      if name != "" && id != "" then m[name := id] else m
  }

  /** The assignment pushed for one section of a course of a teaching entry. */
  function ProfileAssignment(me: Profile, sec: Record, courseId: string,
                             subjId: Option<string>, subjName: Option<string>): (a: Record)
    ensures Prop(a, "teacherId") == Prop(me.fields, "id")
    ensures Prop(a, "teacherUsername") == Prop(me.fields, "username")
    ensures Prop(a, "courseId") == Some(courseId)
    ensures Prop(a, "sectionId") == Prop(sec, "id")
  {
    var a := Put(Put(map[], "teacherId", Prop(me.fields, "id")), "teacherUsername", Prop(me.fields, "username"));
    Put(Put(Put(Put(a, "sectionId", Prop(sec, "id")), "courseId", Some(courseId)), "subjectId", subjId), "subjectName", subjName)
  }

  /** The sections whose `String(courseId)` is the course id, in order. */
  function SectionsOf(sections: seq<Record>, courseId: string): (r: seq<Record>)
    ensures forall s :: s in r <==> s in sections && StrOf(Prop(s, "courseId")) == courseId
  {
    Filter(sections, (s: Record) => StrOf(Prop(s, "courseId")) == courseId)
  }

  /** The assignments one teaching entry yields: for each course with an id
      and a name listed in the entry, one per section of that course. */
  function FromTeaching(me: Profile, t: Teaching, courses: seq<Record>, sections: seq<Record>,
                        byName: map<string, string>): (r: seq<Record>)
    ensures forall a :: a in r ==> Prop(a, "teacherId") == Prop(me.fields, "id")
                                   && Prop(a, "teacherUsername") == Prop(me.fields, "username")
    decreases |courses|
  {
    if |courses| == 0 then []
    else
      var c := courses[0];
      var subjName := OrOpt(t.subject, t.subjectName);
      var subjId := if OptOr(subjName, "") != "" && subjName.value in byName then Some(byName[subjName.value]) else None;
      var id := Pick(c, ["id"]);
      var here := if id != "" && Pick(c, ["name"]) != "" && Pick(c, ["name"]) in t.courses then
                    var secs := SectionsOf(sections, id);
                    seq(|secs|, i requires 0 <= i < |secs| => ProfileAssignment(me, secs[i], id, subjId, subjName))
                  else [];
      here + FromTeaching(me, t, courses[1..], sections, byName)
  }

  /** The assignments built from the signed-in teacher's profile. */
  function FromProfile(me: Profile, ts: seq<Teaching>, courses: seq<Record>, sections: seq<Record>,
                       byName: map<string, string>): (r: seq<Record>)
    ensures forall a :: a in r ==> Prop(a, "teacherId") == Prop(me.fields, "id")
                                   && Prop(a, "teacherUsername") == Prop(me.fields, "username")
  {
    if |ts| == 0 then []
    else FromTeaching(me, ts[0], courses, sections, byName) + FromProfile(me, ts[1..], courses, sections, byName)
  }

  /** The deduplication key `teacher|course|section|subject`. */
  function AssignmentKey(a: Record): string {
    Join([Pick(a, ["teacherId", "teacherUsername"]), Pick(a, ["courseId", "course"]),
          Pick(a, ["sectionId", "section"]), Pick(a, ["subjectId", "subjectName"])], "|")
  }

  /** `effectiveAssignments`: the stored assignments, then those built from
      the profile, keeping the first of each key. */
  method EffectiveAssignments(stored: seq<Record>, users: seq<Profile>, user: Option<Record>,
                              subjects: seq<Record>, courses: seq<Record>, sections: seq<Record>)
    returns (unique: seq<Record>)
    ensures unique == FirstOccurrences(stored + Built(users, user, subjects, courses, sections), AssignmentKey)
  {
    unique := Unique(stored + Built(users, user, subjects, courses, sections), AssignmentKey);
  }

  /** The profile part of the list: empty when the user has no profile. */
  function Built(users: seq<Profile>, user: Option<Record>, subjects: seq<Record>,
                 courses: seq<Record>, sections: seq<Record>): (r: seq<Record>)
    ensures FindMe(users, user).None? ==> r == []
  {
    match FindMe(users, user)
    case None => []
    case Some(me) => FromProfile(me, me.teaching, courses, sections, SubjectByName(subjects))
  }

  // ---------------------------------------------------------------------------
  // Chips

  /** `a.teacherId === user.id || a.teacherUsername === user.username ||
      a.teacher === user.username`. */
  predicate Mine(a: Record, user: Record) {
    Prop(a, "teacherId") == Prop(user, "id") || Prop(a, "teacherUsername") == Prop(user, "username")
    || Prop(a, "teacher") == Prop(user, "username")
  }

  /** Every assignment built from the signed-in user's profile passes the
      ownership test of the chips: the profile was found by the user's id or
      username, and the assignment carries both. */
  lemma BuiltAreMine(users: seq<Profile>, user: Option<Record>, subjects: seq<Record>,
                     courses: seq<Record>, sections: seq<Record>)
    requires user.Some?
    ensures forall a :: a in Built(users, user, subjects, courses, sections) ==> Mine(a, user.value)
  {
    match FindMe(users, user)
    case None =>
    case Some(me) =>
      var built := FromProfile(me, me.teaching, courses, sections, SubjectByName(subjects));
      assert forall a :: a in built ==> Prop(a, "teacherId") == Prop(me.fields, "id")
                                        && Prop(a, "teacherUsername") == Prop(me.fields, "username");
  }

  /** Records with a truthy id by that id; a later record wins. */
  function ById(xs: seq<Record>): (m: map<string, Record>)
    ensures forall k :: k in m ==> k != "" && Pick(m[k], ["id"]) == k
  {
    if |xs| == 0 then map[]
    else
      var m := ById(xs[..|xs| - 1]);
      var id := Pick(xs[|xs| - 1], ["id"]);
      if id != "" then m[id := xs[|xs| - 1]] else m
  }

  function Get(m: map<string, Record>, k: string): Option<Record> {
    if k in m then Some(m[k]) else None
  }

  function PickIn(r: Option<Record>, fields: seq<string>): string {
    if r.Some? then Pick(r.value, fields) else ""
  }

  /** The course-section pair an assignment names, with both display names. */
  datatype Candidate = Candidate(key: string, courseId: string, sectionId: string, courseName: string, sectionName: string)

  /** The resolution step of `courseSectionChips`; `None` when the section
      or the course id is empty. */
  function CandidateOf(a: Record, secMap: map<string, Record>, courseMap: map<string, Record>): (c: Option<Candidate>)
    ensures c.Some? ==> (c.value.sectionId != "" && c.value.courseId != ""
                         && c.value.key == c.value.courseId + "-" + c.value.sectionId)
  {
    var sid := Pick(a, ["sectionId", "section", "sectionUUID", "section_id", "sectionID"]);
    var sec := Get(secMap, sid);
    var cid := Or(PickIn(sec, ["courseId", "course.id"]), Pick(a, ["courseId", "course", "courseUUID", "course_id", "courseID"]));
    var courseName := Trim(Or(PickIn(Get(courseMap, cid), ["name"]), Pick(a, ["courseName", "courseLabel", "course_text"])));
    var sectionName := Trim(Or(PickIn(sec, ["name"]), Pick(a, ["sectionName", "sectionLabel"])));
    if sid == "" || cid == "" then None
    else Some(Candidate(cid + "-" + sid, cid, sid, courseName, sectionName))
  }

  function CandidateKey(c: Candidate): string {
    c.key
  }

  /** A chip is shown only with a course name other than "curso" and a
      section name. */
  predicate Named(c: Candidate) {
    c.courseName != "" && LowerStr(c.courseName) != "curso" && c.sectionName != ""
  }

  /** The candidates of the teacher's assignments, in order. */
  function Candidates(mine: seq<Record>, secMap: map<string, Record>, courseMap: map<string, Record>): (r: seq<Candidate>)
    ensures forall c :: c in r ==> c.sectionId != "" && c.courseId != ""
  {
    if |mine| == 0 then []
    else
      var c := CandidateOf(mine[|mine| - 1], secMap, courseMap);
      Candidates(mine[..|mine| - 1], secMap, courseMap) + (if c.Some? then [c.value] else [])
  }

  /** Every chip is named, and no two chips share a course-section key. */
  lemma ChipsNamedAndDistinct(cands: seq<Candidate>)
    ensures var out := Filter(FirstOccurrences(cands, CandidateKey), Named);
      (forall c :: c in out ==> Named(c) && c in cands)
      && DistinctBy(out, CandidateKey)
  {
    FilterKeepsDistinct(FirstOccurrences(cands, CandidateKey), Named, CandidateKey);
  }

  /** A key whose first candidate has no usable names gets no chip, even
      when a later candidate for it has them. */
  lemma UnnamedFirstHidesKey(cands: seq<Candidate>, j: int)
    requires FirstWithKey(cands, CandidateKey, j) && !Named(cands[j])
    ensures forall c :: c in Filter(FirstOccurrences(cands, CandidateKey), Named) ==> c.key != cands[j].key
  {
    forall c | c in Filter(FirstOccurrences(cands, CandidateKey), Named)
      ensures c.key != cands[j].key
    {
      var out := FirstOccurrences(cands, CandidateKey);
      var i :| 0 <= i < |out| && out[i] == c;
      KeptAreFirst(cands, CandidateKey, i);
      var m :| FirstWithKey(cands, CandidateKey, m) && cands[m] == c;
      FirstWithKeyUnique(cands, CandidateKey, m, j);
    }
  }

  /** A chip: `courseName sectionName` for a course-section pair. */
  datatype Chip = Chip(key: string, courseId: string, sectionId: string, caption: string)

  /** `courseSectionChips`: nothing without a signed-in user. */
  method CourseSectionChips(user: Option<Record>, assignments: seq<Record>, sections: seq<Record>, courses: seq<Record>)
    returns (chips: seq<Chip>)
    ensures user.None? ==> chips == []
    ensures user.Some? ==>
      var out := Filter(FirstOccurrences(Candidates(Filter(assignments, (a: Record) => Mine(a, user.value)),
                                                    ById(sections), ById(courses)), CandidateKey), Named);
      |chips| == |out|
      && forall i :: 0 <= i < |out| ==> chips[i] == Chip(out[i].key, out[i].courseId, out[i].sectionId,
                                                         out[i].courseName + " " + out[i].sectionName)
  {
    if user.None? {
      return [];
    }
    var mine := Filter(assignments, (a: Record) => Mine(a, user.value));
    var out := UniqueThenFilter(Candidates(mine, ById(sections), ById(courses)), CandidateKey, Named);
    chips := seq(|out|, i requires 0 <= i < |out| => Chip(out[i].key, out[i].courseId, out[i].sectionId,
                                                          out[i].courseName + " " + out[i].sectionName));
  }

  /** A subject chip. */
  datatype SubjectChip = SubjectChip(key: string, caption: string)

  /** Subject id to display name (the name, else the id), a later subject
      winning. */
  function NameById(subjects: seq<Record>): (m: map<string, string>)
    ensures forall k :: k in m ==> m[k] != ""
  {
    if |subjects| == 0 then map[]
    else
      var m := NameById(subjects[..|subjects| - 1]);
      var s := subjects[|subjects| - 1];
      var id := Pick(s, ["id"]);
      if id != "" then m[id := Or(Pick(s, ["name"]), id)] else m
  }

  /** The key and label an assignment contributes to `subjectChips`. */
  function SubjectChipOf(a: Record, names: map<string, string>): (c: SubjectChip)
    ensures c.key == "" <==> c.caption == ""
  {
    var sid := Pick(a, ["subjectId", "subject", "subjectUUID", "subject_id"]);
    var sname := if Pick(a, ["subjectName"]) != "" then Pick(a, ["subjectName"])
                 else if sid != "" && sid in names then names[sid] else "";
    SubjectChip(Or(sid, sname), Or(sname, sid))
  }

  function SubjectKey(c: SubjectChip): string {
    c.key
  }

  /** The teacher's assignments in the chosen section; the section is read
      as `String(a.sectionId || a.section || a.sectionUUID || a.section_id)`. */
  predicate InSection(a: Record, user: Record, sectionId: string) {
    Mine(a, user) && StrOf(PickRaw(a, ["sectionId", "section", "sectionUUID", "section_id"])) == sectionId
  }

  function InSectionP(user: Record, sectionId: string): Record -> bool {
    (a: Record) => InSection(a, user, sectionId)
  }

  function ChipOfP(names: map<string, string>): Record -> SubjectChip {
    (a: Record) => SubjectChipOf(a, names)
  }

  function HasKey(c: SubjectChip): bool {
    c.key != ""
  }

  /** `subjectChips`: nothing without a user or a section; otherwise one chip
      per non-empty subject key of the teacher's assignments in that
      section, each with the label of its first assignment. */
  function SubjectChips(user: Option<Record>, sectionId: string, assignments: seq<Record>, subjects: seq<Record>)
    : (r: seq<SubjectChip>)
    ensures user.None? || sectionId == "" ==> r == []
    ensures DistinctBy(r, SubjectKey)
    ensures forall c :: c in r ==> c.key != "" && c.caption != ""
  {
    if user.None? || sectionId == "" then []
    else
      var chips := MapSeq(Filter(assignments, InSectionP(user.value, sectionId)), ChipOfP(NameById(subjects)));
      FirstOccurrences(Filter(chips, HasKey), SubjectKey)
  }

  /** Every assignment of the teacher in the section with a subject key has
      its key among the chips. */
  lemma SubjectChipsCover(user: Record, sectionId: string, assignments: seq<Record>, subjects: seq<Record>, a: Record)
    requires sectionId != "" && a in assignments && InSection(a, user, sectionId)
    requires SubjectChipOf(a, NameById(subjects)).key != ""
    ensures SubjectChipOf(a, NameById(subjects)).key in KeysOf(SubjectChips(Some(user), sectionId, assignments, subjects), SubjectKey)
  {
    SelectedKeyKept(assignments, InSectionP(user, sectionId), ChipOfP(NameById(subjects)), HasKey, SubjectKey, a);
  }

  /** Every chip is the key and label of one of those assignments. */
  lemma SubjectChipsSound(user: Record, sectionId: string, assignments: seq<Record>, subjects: seq<Record>, c: SubjectChip)
    requires sectionId != "" && c in SubjectChips(Some(user), sectionId, assignments, subjects)
    ensures exists a :: a in assignments && InSection(a, user, sectionId) && SubjectChipOf(a, NameById(subjects)) == c
  {
    KeptIsSelected(assignments, InSectionP(user, sectionId), ChipOfP(NameById(subjects)), HasKey, SubjectKey, c);
  }

  // ---------------------------------------------------------------------------
  // Questions and the stored test

  datatype QType = Tf | Mc | Ms | Des

  function TypeName(t: QType): string {
    match t
    case Tf => "tf"
    case Mc => "mc"
    case Ms => "ms"
    case Des => "des"
  }

  /** A question as the PDF analysis returns it. */
  datatype Analyzed = Analyzed(kind: QType, text: string, options: Option<seq<string>>,
                               optionsWithCorrect: Option<seq<TestsPage.MsOption>>,
                               correctIndex: Option<int>, answer: Option<bool>, prompt: Option<string>)

  /** A question as the test stores it. */
  datatype Stored =
    | TfStored(id: string, text: string, answer: bool)
    | McStored(id: string, text: string, options: seq<string>, correctIndex: int)
    | MsStored(id: string, text: string, choices: seq<TestsPage.MsOption>)
    | DesStored(id: string, text: string, prompt: string)

  function KindOf(q: Stored): QType {
    match q
    case TfStored(_, _, _) => Tf
    case McStored(_, _, _, _) => Mc
    case MsStored(_, _, _) => Ms
    case DesStored(_, _, _) => Des
  }

  /** `${type}_${now}_${idx}`. */
  function QuestionId(t: QType, now: nat, idx: nat): string {
    TypeName(t) + "_" + NatToString(now) + "_" + NatToString(idx)
  }

  /** The digits after the last '_' of an id. */
  function IdSuffix(id: string): string {
    id[LastIndexOf(id, '_') + 1..]
  }

  /** An id gives back its question's position. */
  lemma IdSuffixIsIndex(t: QType, now: nat, idx: nat)
    ensures IdSuffix(QuestionId(t, now, idx)) == NatToString(idx)
  {
    var id := QuestionId(t, now, idx);
    var digits := NatToString(idx);
    var p := |id| - |digits| - 1;
    assert id == (TypeName(t) + "_" + NatToString(now)) + "_" + digits;
    assert id[p] == '_';
    assert id[p + 1..] == digits;
  }

  /** The stored form of question `idx`: `tf` answers default to false, `mc`
      options to none and the correct index to 0, `ms` choices to none, and
      a `des` prompt falls back to the text. */
  function Store(q: Analyzed, now: nat, idx: nat): (s: Stored)
    ensures KindOf(s) == q.kind && s.id == QuestionId(q.kind, now, idx) && s.text == q.text
    ensures s.TfStored? ==> s.answer == (q.answer == Some(true))
    ensures s.McStored? ==> s.options == q.options.GetOr([]) && s.correctIndex == q.correctIndex.GetOr(0)
    ensures s.MsStored? ==> s.choices == q.optionsWithCorrect.GetOr([])
    ensures s.DesStored? ==> (s.prompt != "" <==> q.text != "" || OptOr(q.prompt, "") != "")
  {
    var id := QuestionId(q.kind, now, idx);
    match q.kind
    case Tf => TfStored(id, q.text, q.answer.GetOr(false))
    case Mc => McStored(id, q.text, q.options.GetOr([]), q.correctIndex.GetOr(0))
    case Ms => MsStored(id, q.text, q.optionsWithCorrect.GetOr([]))
    case Des => DesStored(id, q.text, OptOr(q.prompt, q.text))
  }

  /** The question transform of `handleCreateTest`. */
  function Transform(qs: seq<Analyzed>, now: nat): (r: seq<Stored>)
    ensures |r| == |qs|
    ensures forall i :: 0 <= i < |qs| ==> r[i] == Store(qs[i], now, i)
  {
    seq(|qs|, i requires 0 <= i < |qs| => Store(qs[i], now, i))
  }

  /** The stored questions keep count, order, kinds and texts, and their ids
      are pairwise distinct. */
  lemma TransformIdsDistinct(qs: seq<Analyzed>, now: nat, i: int, j: int)
    requires 0 <= i < j < |qs|
    ensures Transform(qs, now)[i].id != Transform(qs, now)[j].id
  {
    if Transform(qs, now)[i].id == Transform(qs, now)[j].id {
      IdSuffixIsIndex(qs[i].kind, now, i);
      IdSuffixIsIndex(qs[j].kind, now, j);
      NatToStringInjective(i, j);
    }
  }

  /** The analysis response. */
  datatype AnalysisResult = AnalysisResult(success: bool, title: Option<string>, topic: Option<string>,
                                           questions: seq<Analyzed>, counts: seq<int>, totalQuestions: int)

  /** `isValid`. */
  predicate IsValid(sectionId: string, subjectId: string, analysis: Option<AnalysisResult>) {
    sectionId != "" && subjectId != "" && analysis.Some? && analysis.value.success && |analysis.value.questions| > 0
  }

  /** The points input: `Math.max(1, Number(value || 0))`. */
  function PointsInput(entered: int): (p: int)
    ensures p >= 1
    ensures entered >= 1 ==> p == entered
    ensures entered < 1 ==> p == 1
  {
    if entered > 1 then entered else 1
  }

  /** The builder's form state. */
  datatype Form = Form(courseId: string, sectionId: string, subjectId: string, topic: string,
                       weights: seq<int>, totalPoints: int)

  /** The state after a successful analysis: the detected topic fills an
      empty topic, and the weights follow the counts. */
  function AfterAnalysis(f: Form, result: AnalysisResult): (g: Form)
    requires |result.counts| == |f.weights|
    ensures !result.success ==> g == f
    ensures g.courseId == f.courseId && g.sectionId == f.sectionId && g.subjectId == f.subjectId
    ensures result.success ==> g.weights == Redistribute(result.counts, f.weights)
    ensures g.topic == f.topic || (f.topic == "" && result.topic.Some? && g.topic == result.topic.value != "")
  {
    if !result.success then f
    else
      var topic := if OptOr(result.topic, "") != "" && f.topic == "" then result.topic.value else f.topic;
      f.(topic := topic, weights := Redistribute(result.counts, f.weights))
  }

  /** `subjName`: the name of the subject with that id when it has one;
      else the name of a subject named as the id, or the id itself. */
  function SubjectNameFor(subjects: seq<Record>, subjectId: string): (r: string)
    ensures subjectId != "" ==> r != ""
  {
    var byId := FindBy(subjects, "id", subjectId);
    if byId.Some? && Pick(byId.value, ["name"]) != "" then Pick(byId.value, ["name"])
    else
      var byName := FindBy(subjects, "name", subjectId);
      if byName.Some? then Or(Pick(byName.value, ["name"]), subjectId) else subjectId
  }

  /** The lookup by name never changes the result: it can only find the id
      itself. */
  lemma SubjectNameIsNameOrId(subjects: seq<Record>, subjectId: string)
    ensures var byId := FindBy(subjects, "id", subjectId);
      SubjectNameFor(subjects, subjectId)
        == if byId.Some? && Pick(byId.value, ["name"]) != "" then Pick(byId.value, ["name"]) else subjectId
  {
    var byName := FindBy(subjects, "name", subjectId);
    if byName.Some? && Pick(byName.value, ["name"]) != "" {
      PickOne(byName.value, "name");
    }
  }

  /** A one-field pick is the field's value. */
  lemma PickOne(r: Record, f: string)
    requires Pick(r, [f]) != ""
    ensures f in r && r[f] == Pick(r, [f])
  {
  }

  /** `subjects.find(x => String(x[field]) === v)`. */
  function FindBy(xs: seq<Record>, field: string, v: string): (r: Option<Record>)
    ensures r.Some? ==> r.value in xs && StrOf(Prop(r.value, field)) == v
  {
    if |xs| == 0 then None
    else if StrOf(Prop(xs[0], field)) == v then Some(xs[0])
    else FindBy(xs[1..], field, v)
  }

  /** The test `handleCreateTest` hands on. */
  datatype ManualTest = ManualTest(id: string, title: string, topic: string, courseId: string, sectionId: string,
                                   subjectId: string, subjectName: string, weights: seq<int>, totalPoints: int,
                                   total: int, questions: seq<Stored>)

  /** `handleCreateTest`: a test only when the form is valid and a user is
      signed in; its title and topic are never empty. */
  function CreateTest(f: Form, analysis: Option<AnalysisResult>, user: Option<Record>,
                      subjects: seq<Record>, now: nat): (t: Option<ManualTest>)
    ensures t.Some? <==> IsValid(f.sectionId, f.subjectId, analysis) && user.Some?
    ensures t.Some? ==> (t.value.title != "" && t.value.topic != ""
                         && t.value.questions == Transform(analysis.value.questions, now)
                         && t.value.total == analysis.value.totalQuestions
                         && t.value.sectionId == f.sectionId && t.value.subjectId == f.subjectId)
  {
    if !IsValid(f.sectionId, f.subjectId, analysis) || user.None? then None
    else
      var a := analysis.value;
      var title := Or(OptOr(a.title, ""), Or(f.topic, "Prueba Manual"));
      Some(ManualTest("test_manual_" + NatToString(now), title, Or(f.topic, Or(OptOr(a.topic, ""), title)),
                      f.courseId, f.sectionId, f.subjectId, SubjectNameFor(subjects, f.subjectId),
                      f.weights, f.totalPoints, a.totalQuestions, Transform(a.questions, now)))
  }
}

=== FILE: ocr.dfy ===
/** The single-page answer-sheet route (`POST /api/analyze-ocr`): the base64
    cleaning, the question outline and re-check focus written into the
    prompt, and the strict parsing of the model's reply. */
module Ocr {
  import opened Js
  import opened Strings
  import opened Fences
  import opened Env
  import opened Lists
  import OcrVision

  // ---------------------------------------------------------------------------
  // Base64 cleaning

  const PngPrefix: string := "data:image/png;base64,"
  const JpegPrefix: string := "data:image/jpeg;base64,"
  const JpgPrefix: string := "data:image/jpg;base64,"
  const WebpPrefix: string := "data:image/webp;base64,"

  /** The four prefixes the route recognises. */
  const ImagePrefixes: seq<string> := [PngPrefix, JpegPrefix, JpgPrefix, WebpPrefix]

  /** The recognised prefixes tell themselves apart at characters 11 and
      13, so a text starts with at most one of them. */
  lemma PrefixesExclusive(s: string, j: int, k: int)
    requires 0 <= j < 4 && 0 <= k < 4
    requires StartsWith(s, ImagePrefixes[j]) && StartsWith(s, ImagePrefixes[k])
    ensures j == k
  {
    assert s[11] == ImagePrefixes[j][11] == ImagePrefixes[k][11];
    assert s[13] == ImagePrefixes[j][13] == ImagePrefixes[k][13];
  }

  lemma OnePrefixAtMost(s: string)
    ensures forall j, k :: 0 <= j < 4 && 0 <= k < 4 && StartsWith(s, ImagePrefixes[j]) && StartsWith(s, ImagePrefixes[k]) ==> j == k
  {
    forall j, k | 0 <= j < 4 && 0 <= k < 4 && StartsWith(s, ImagePrefixes[j]) && StartsWith(s, ImagePrefixes[k])
      ensures j == k
    {
      PrefixesExclusive(s, j, k);
    }
  }

  /** `replace(/^data:image\/(png|jpeg|jpg|webp);base64,/, '')`. */
  function StripImagePrefix(s: string): (r: string)
    ensures (forall k :: 0 <= k < 4 ==> !StartsWith(s, ImagePrefixes[k])) ==> r == s
    ensures forall k :: 0 <= k < 4 && StartsWith(s, ImagePrefixes[k]) ==> r == s[|ImagePrefixes[k]|..]
  {
    OnePrefixAtMost(s);
    var p := ImagePrefixes;
    if StartsWith(s, p[0]) then s[|p[0]|..]
    else if StartsWith(s, p[1]) then s[|p[1]|..]
    else if StartsWith(s, p[2]) then s[|p[2]|..]
    else if StartsWith(s, p[3]) then s[|p[3]|..]
    else s
  }

  /** A prefixed payload comes back as it was, and only the leading prefix
      goes: a payload that itself starts with a prefix keeps it. */
  lemma ImagePrefixRoundTrip(k: int, payload: string)
    requires 0 <= k < 4
    ensures StripImagePrefix(ImagePrefixes[k] + payload) == payload
  {
    var s := ImagePrefixes[k] + payload;
    assert StartsWith(s, ImagePrefixes[k]);
    assert s[|ImagePrefixes[k]|..] == payload;
  }

  // ---------------------------------------------------------------------------
  // Re-check focus

  /** The positive numbers, in order; `None` stands for a conversion that is
      NaN or infinite. */
  function Positives(xs: seq<Option<int>>): (r: seq<nat>)
    ensures |r| <= |xs|
    ensures forall i :: 0 <= i < |r| ==> r[i] > 0 && Some(r[i] as int) in xs
    ensures forall i :: 0 <= i < |xs| && xs[i].Some? && xs[i].value > 0 ==> xs[i].value in r
  {
    if |xs| == 0 then []
    else
      var rest := Positives(xs[1..]);
      assert forall i :: 0 < i < |xs| ==> xs[i] == xs[1..][i - 1];
      (if xs[0].Some? && xs[0].value > 0 then [xs[0].value as nat] else []) + rest
  }

  /** Keeping positives commutes with concatenation, so their order is that
      of the input. */
  lemma {:induction false} PositivesAppend(a: seq<Option<int>>, b: seq<Option<int>>)
    ensures Positives(a + b) == Positives(a) + Positives(b)
    decreases |a|
  {
    if |a| > 0 {
      assert (a + b)[1..] == a[1..] + b;
      PositivesAppend(a[1..], b);
    } else {
      assert a + b == b;
    }
  }

  /** A list of positive numbers is kept whole. */
  lemma {:induction false} PositivesKeepsPositive(xs: seq<nat>)
    requires forall i :: 0 <= i < |xs| ==> xs[i] > 0
    ensures Positives(MapSeq(xs, (n: nat) => Some(n as int))) == xs
    decreases |xs|
  {
    if |xs| > 0 {
      var f := (n: nat) => Some(n as int);
      assert MapSeq(xs, f)[1..] == MapSeq(xs[1..], f);
      PositivesKeepsPositive(xs[1..]);
      assert xs == [xs[0]] + xs[1..];
    }
  }

  /** `focusNums`: `Number(n)` of each element (`toNumber`), keeping the
      finite positive ones; nothing when the input is not an array. */
  function FocusNums(focus: Option<seq<Value>>, toNumber: Value -> Option<int>): (r: seq<nat>)
    ensures focus.None? ==> r == []
    ensures focus.Some? ==> r == Positives(MapSeq(focus.value, toNumber))
  {
    match focus
    case None => []
    case Some(xs) => Positives(MapSeq(xs, toNumber))
  }

  const FocusHead: string := "\n\nMODO RE-CHEQUEO (FOCO): Analiza SOLO estas preguntas: "
  const FocusTail: string := ".\n- Ignora el resto del documento.\n- NO devuelvas preguntas fuera del foco.\n- Devuelve exactamente esas preguntas en \"answers\" (una entrada por cada número solicitado).\n"

  /** `focusLine`: empty without focus numbers, else the numbers joined with
      ", " inside the re-check instructions. */
  function FocusLine(nums: seq<nat>): (r: string)
    ensures r == "" <==> nums == []
  {
    if |nums| > 0 then FocusHead + Join(MapSeq(nums, NatToString), ", ") + FocusTail else ""
  }

  predicate Digits(w: string) {
    |w| > 0 && forall i :: 0 <= i < |w| ==> IsDigit(w[i])
  }

  /** A run of digits followed by a non-digit (or nothing) is determined by
      the text it starts. */
  lemma DigitRunUnique(x: string, u: string, y: string, v: string)
    requires Digits(x) && Digits(y)
    requires u == [] || !IsDigit(u[0])
    requires v == [] || !IsDigit(v[0])
    requires x + u == y + v
    ensures x == y && u == v
  {
    var s := x + u;
    assert forall k :: 0 <= k < |x| ==> IsDigit(s[k]);
    assert forall k :: 0 <= k < |y| ==> IsDigit(s[k]);
    assert |x| < |s| ==> s[|x|] == u[0];
    assert |y| < |s| ==> s[|y|] == v[0];
    assert |x| == |y|;
    assert x == s[..|x|] == y;
    assert u == s[|x|..] == v;
  }

  lemma JoinOfNonEmpty(xs: seq<string>, sep: string)
    requires forall i :: 0 <= i < |xs| ==> Digits(xs[i])
    ensures Join(xs, sep) == [] <==> xs == []
  {
    if |xs| > 1 {
      assert StartsWith(Join(xs, sep), xs[0] + sep);
    }
  }

  /** Joining digit strings with a separator that starts with a non-digit
      loses nothing. */
  lemma {:induction false} JoinDigitsInjective(xs: seq<string>, ys: seq<string>, sep: string)
    requires forall i :: 0 <= i < |xs| ==> Digits(xs[i])
    requires forall i :: 0 <= i < |ys| ==> Digits(ys[i])
    requires |sep| > 0 && !IsDigit(sep[0])
    requires Join(xs, sep) == Join(ys, sep)
    ensures xs == ys
    decreases |xs|
  {
    JoinOfNonEmpty(xs, sep);
    JoinOfNonEmpty(ys, sep);
    if |xs| > 0 && |ys| > 0 {
      var u := if |xs| == 1 then [] else sep + Join(xs[1..], sep);
      var v := if |ys| == 1 then [] else sep + Join(ys[1..], sep);
      assert Join(xs, sep) == xs[0] + u;
      assert Join(ys, sep) == ys[0] + v;
      DigitRunUnique(xs[0], u, ys[0], v);
      if |xs| > 1 && |ys| > 1 {
        assert Join(xs[1..], sep) == u[|sep|..] == v[|sep|..] == Join(ys[1..], sep);
        JoinDigitsInjective(xs[1..], ys[1..], sep);
        assert xs == [xs[0]] + xs[1..] && ys == [ys[0]] + ys[1..];
      }
    }
  }

  /** The focus line names exactly its numbers: different lists give
      different lines. */
  lemma FocusLineInjective(a: seq<nat>, b: seq<nat>)
    requires FocusLine(a) == FocusLine(b)
    ensures a == b
  {
    if |a| > 0 && |b| > 0 {
      var ja, jb := Join(MapSeq(a, NatToString), ", "), Join(MapSeq(b, NatToString), ", ");
      var s := FocusLine(a);
      assert ja == s[|FocusHead|..|s| - |FocusTail|];
      assert jb == s[|FocusHead|..|s| - |FocusTail|];
      JoinDigitsInjective(MapSeq(a, NatToString), MapSeq(b, NatToString), ", ");
      forall i | 0 <= i < |a| ensures a[i] == b[i] {
        assert MapSeq(a, NatToString)[i] == MapSeq(b, NatToString)[i];
        NatToStringInjective(a[i], b[i]);
      }
    }
  }

  // ---------------------------------------------------------------------------
  // The question outline

  /** A question of the request: `type`, `text` and `options` as sent;
      `None` where the field is missing. */
  datatype OcrQuestion = OcrQuestion(kind: Option<string>, text: Option<string>, options: Option<seq<Option<string>>>)

  /** `v?.substring(0, n)` inside a template: a missing value prints as
      "undefined". */
  function Clip(v: Option<string>, n: nat): (r: string)
    ensures v.Some? ==> |r| <= n && StartsWith(v.value, r)
    ensures v.Some? && |v.value| <= n ==> r == v.value
    ensures v.None? ==> r == "undefined"
  {
    match v
    case None => "undefined"
    case Some(s) => Prefix(s, n)
  }

  /** `String.fromCharCode(65 + j)` for option positions below the
      surrogate range. */
  function Letter(j: nat): (c: char)
    ensures 65 + j < 0xD800 ==> c as int == 65 + j
  {
    if 65 + j < 0xD800 then (65 + j) as char else '\U{FFFD}'
  }

  function OptionLabel(j: nat, o: Option<string>): string {
    [Letter(j)] + ") " + Clip(o, 15)
  }

  /** The options of a multiple-choice question, lettered from 'A'. */
  function OptionsText(opts: seq<Option<string>>): string {
    Join(seq(|opts|, j requires 0 <= j < |opts| => OptionLabel(j, opts[j])), ", ")
  }

  function Tag(i: nat): string {
    "P" + NatToString(i + 1) + ": "
  }

  /** The fixed pieces of an outline line. */
  const TfLead: string := "[Verdadero/Falso] - \""
  const McLead: string := "[Opción Múltiple: "
  const McQuote: string := "] - \""
  const QuoteEnd: string := "...\""

  /** The outline line of question `i` (0-based). */
  function QuestionLine(i: nat, q: OcrQuestion): (r: string)
    ensures StartsWith(r, Tag(i))
  {
    var rest :=
      if q.kind == Some("tf") then
        TfLead + Clip(q.text, 50) + QuoteEnd
      else if q.kind == Some("mc") then
        McLead + OptionsText(q.options.GetOr([])) + McQuote + Clip(q.text, 40) + QuoteEnd
      else
        "[Otro tipo]";
    PrefixOfAppend(Tag(i), rest);
    Tag(i) + rest
  }

  lemma TagSplit(s: string, i: nat)
    requires StartsWith(s, Tag(i))
    ensures s[1..] == NatToString(i + 1) + (": " + s[|Tag(i)|..])
  {
    HeadSplit(s, 'P', NatToString(i + 1), ": ");
  }

  /** A text starting with `c + x + sep` continues with `x` after `c`. */
  lemma HeadSplit(s: string, c: char, x: string, sep: string)
    requires StartsWith(s, [c] + x + sep)
    ensures s[1..] == x + (sep + s[|[c] + x + sep|..])
  {
    var h := [c] + x + sep;
    assert s == h + s[|h|..];
  }

  /** Two tags that start one text are the same tag. */
  lemma TagDetermines(s: string, i: nat, i': nat)
    requires StartsWith(s, Tag(i)) && StartsWith(s, Tag(i'))
    ensures i == i'
  {
    var x, x' := NatToString(i + 1), NatToString(i' + 1);
    var rest, rest' := s[|Tag(i)|..], s[|Tag(i')|..];
    TagSplit(s, i);
    TagSplit(s, i');
    DigitRunUnique(x, ": " + rest, x', ": " + rest');
    NatToStringInjective(i + 1, i' + 1);
  }

  /** The number after "P" identifies the line: lines of different
      positions never coincide. */
  lemma LineNumbersDistinct(i: nat, q: OcrQuestion, i': nat, q': OcrQuestion)
    requires QuestionLine(i, q) == QuestionLine(i', q')
    ensures i == i'
  {
    TagDetermines(QuestionLine(i, q), i, i');
  }

  /** A true/false line quotes at most 50 characters of the text; a
      multiple-choice line at most 40, and labels its first option "A)". */
  lemma QuotedTextIsClipped(i: nat, q: OcrQuestion)
    requires q.text.Some?
    ensures q.kind == Some("tf") ==> QuestionLine(i, q) == Tag(i) + (TfLead + Prefix(q.text.value, 50) + QuoteEnd)
    ensures q.kind == Some("mc") ==>
      QuestionLine(i, q) == Tag(i) + (McLead + OptionsText(q.options.GetOr([])) + McQuote + Prefix(q.text.value, 40) + QuoteEnd)
    ensures q.kind == Some("mc") && q.options.Some? && |q.options.value| > 0
            ==> StartsWith(OptionsText(q.options.value), "A) ")
  {
    if q.kind == Some("tf") {
      assert Clip(q.text, 50) == Prefix(q.text.value, 50);
    } else if q.kind == Some("mc") {
      assert Clip(q.text, 40) == Prefix(q.text.value, 40);
      if q.options.Some? && |q.options.value| > 0 {
        FirstOptionLabelled(q.options.value);
      }
    }
  }

  /** The first option of a non-empty list is labelled "A)". */
  lemma FirstOptionLabelled(opts: seq<Option<string>>)
    requires |opts| > 0
    ensures StartsWith(OptionsText(opts), "A) ")
  {
    var labels := seq(|opts|, j requires 0 <= j < |opts| => OptionLabel(j, opts[j]));
    assert labels[0] == ['A'] + ") " + Clip(opts[0], 15);
    if |labels| > 1 {
      assert StartsWith(Join(labels, ", "), labels[0] + ", ");
    }
  }

  const OutlineHead: string := "ESTRUCTURA ESPERADA DE LA PRUEBA (Úsala como guía de ubicación):\n         "
  const OutlineSep: string := "\n         "
  const GenericOutline: string := "Estructura genérica: Busca preguntas numeradas."

  function Lines(qs: seq<OcrQuestion>): (r: seq<string>)
    ensures |r| == |qs| && forall i :: 0 <= i < |qs| ==> r[i] == QuestionLine(i, qs[i])
  {
    seq(|qs|, i requires 0 <= i < |qs| => QuestionLine(i, qs[i]))
  }

  /** `questionsContext`: the outline when `questions` is a non-empty
      array, the generic hint otherwise. */
  function QuestionsContext(questions: Option<seq<OcrQuestion>>): (r: string)
    ensures questions.None? || |questions.value| == 0 ==> r == GenericOutline
  {
    if questions.Some? && |questions.value| > 0 then OutlineHead + Join(Lines(questions.value), OutlineSep)
    else GenericOutline
  }

  /** A text contained in the tail is contained in the whole. */
  lemma ContainsInTail(h: string, t: string, w: string)
    requires Contains(t, w)
    ensures Contains(h + t, w)
  {
    ContainsIffOccurs(t, w);
    var k :| OccursAt(t, w, k);
    assert (h + t)[|h| + k..|h| + k + |w|] == t[k..k + |w|];
    assert OccursAt(h + t, w, |h| + k);
    ContainsIffOccurs(h + t, w);
  }

  /** Every element of a join occurs in it. */
  lemma {:induction false} JoinHasEach(xs: seq<string>, sep: string, i: int)
    requires 0 <= i < |xs|
    ensures Contains(Join(xs, sep), xs[i])
    decreases |xs|
  {
    var s := Join(xs, sep);
    if |xs| == 1 || i == 0 {
      assert s[..|xs[0]|] == xs[0];
      assert OccursAt(s, xs[0], 0);
      ContainsIffOccurs(s, xs[i]);
    } else {
      JoinHasEach(xs[1..], sep, i - 1);
      assert s == (xs[0] + sep) + Join(xs[1..], sep);
      ContainsInTail(xs[0] + sep, Join(xs[1..], sep), xs[i]);
    }
  }

  /** The outline lists every question under its own number. */
  lemma OutlineListsEveryQuestion(qs: seq<OcrQuestion>, i: int)
    requires 0 <= i < |qs|
    ensures Contains(QuestionsContext(Some(qs)), QuestionLine(i, qs[i]))
  {
    var ls := Lines(qs);
    JoinHasEach(ls, OutlineSep, i);
    ContainsInTail(OutlineHead, Join(ls, OutlineSep), ls[i]);
  }

  /** `totalQuestions`. */
  function TotalQuestions(questions: Option<seq<OcrQuestion>>): (r: nat)
    ensures questions.None? ==> r == 0
    ensures questions.Some? ==> r == |questions.value|
  {
    if questions.Some? then |questions.value| else 0
  }

  // ---------------------------------------------------------------------------
  // The route

  /** The request body: `imageBase64` is `None` when missing; `questions`
      and `focusQuestionNums` are `None` when they are not arrays. */
  datatype OcrRequest = OcrRequest(imageBase64: Option<string>, questions: Option<seq<OcrQuestion>>,
                                   pageNumber: Value, focus: Option<seq<Value>>)

  /** What the route sends the model. */
  datatype OcrCall = OcrCall(key: string, image: OcrVision.ImagePart, focusLine: string, outline: string, total: nat)

  datatype OcrStep = NeedImage | NoApiKey | CallModel(call: OcrCall)

  function Prepare(req: OcrRequest, env: Env, toNumber: Value -> Option<int>): (r: OcrStep)
    ensures r.NeedImage? <==> req.imageBase64.None? || req.imageBase64.value == ""
    ensures r.NoApiKey? <==> !r.NeedImage? && FirstSet(env, OcrKeys).None?
    ensures r.CallModel? ==> Some(r.call.key) == FirstSet(env, OcrKeys)
    ensures r.CallModel? ==> (r.call.image.mimeType == "image/jpeg"
                              && r.call.image.data == StripImagePrefix(req.imageBase64.value))
    ensures r.CallModel? ==> (r.call.focusLine == "" <==> FocusNums(req.focus, toNumber) == [])
    ensures r.CallModel? ==> r.call.total == TotalQuestions(req.questions) && r.call.outline == QuestionsContext(req.questions)
  {
    if req.imageBase64.None? || req.imageBase64.value == "" then NeedImage
    else
      match FirstSet(env, OcrKeys)
      case None => NoApiKey
      case Some(key) =>
        CallModel(OcrCall(
          key,
          OcrVision.ImagePart("image/jpeg", StripImagePrefix(req.imageBase64.value)),
          FocusLine(FocusNums(req.focus, toNumber)),
          QuestionsContext(req.questions),
          TotalQuestions(req.questions)))
  }

  /** The range "from 1 to N" the prompt asks for agrees with the outline:
      each of the first `total` questions is listed as `P1`..`PN`, and with
      no total the outline is the generic hint. */
  lemma OutlineMatchesTotal(req: OcrRequest, env: Env, toNumber: Value -> Option<int>, i: int)
    requires Prepare(req, env, toNumber).CallModel?
    ensures var call := Prepare(req, env, toNumber).call;
      (call.total == 0 ==> call.outline == GenericOutline)
      && (0 <= i < call.total ==>
            req.questions.Some? && i < |req.questions.value|
            && Contains(call.outline, QuestionLine(i, req.questions.value[i])))
  {
    var call := Prepare(req, env, toNumber).call;
    if 0 <= i < call.total {
      OutlineListsEveryQuestion(req.questions.value, i);
    }
  }

  datatype OcrResponse<J> =
    | Rejected                               // 400, 'La imagen es requerida'
    | NotConfigured                          // 200, success false, fallback true
    | Analysed(analysis: J, page: Value)     // 200, success true
    | Unparsed(raw: string)                  // 200, success false
    | Failed(message: string)                // 500, success false, fallback true

  function Status<J>(r: OcrResponse<J>): int {
    match r
    case Rejected => 400
    case Failed(_) => 500
    case _ => 200
  }

  /** The answer to a prepared step; the reply is parsed once, with no
      search for braces. `logs(j)` says that the log line written after the
      parse evaluates on the analysis `j` without throwing. That line reads
      `analysis.questionsFound` and filters `analysis.answers` by `a.val`. It
      throws for `null`, for `answers` that is neither absent, null nor an
      array, and for an `answers` array holding `null`. A throw there lands
      in the same `catch` as a failed parse. */
  function Respond<J>(step: OcrStep, page: Value, reply: Result<string, string>, parse: string -> Option<J>,
                      logs: J -> bool): (r: OcrResponse<J>)
    ensures r.Rejected? <==> step.NeedImage?
    ensures r.NotConfigured? <==> step.NoApiKey?
    ensures r.Failed? <==> step.CallModel? && reply.Err?
    ensures r.Failed? ==> r.message == reply.error
    ensures r.Analysed? <==>
      step.CallModel? && reply.Ok? && parse(CleanReply(reply.value)).Some? && logs(parse(CleanReply(reply.value)).value)
    ensures r.Analysed? ==> r.analysis == parse(CleanReply(reply.value)).value && r.page == page
    ensures r.Unparsed? <==>
      step.CallModel? && reply.Ok? && !(parse(CleanReply(reply.value)).Some? && logs(parse(CleanReply(reply.value)).value))
    ensures r.Unparsed? ==> r.raw == reply.value
  {
    match step
    case NeedImage => Rejected
    case NoApiKey => NotConfigured
    case CallModel(_) =>
      match reply
      case Err(message) => Failed(message)
      case Ok(text) =>
        match parse(CleanReply(text))
        case Some(j) => if logs(j) then Analysed(j, page) else Unparsed(text)
        case None => Unparsed(text)
  }

  /** The route: 400 without an image; "not configured" without a key;
      otherwise the analysis, echoing the page number. */
  function Post<J>(req: OcrRequest, env: Env, toNumber: Value -> Option<int>,
                   reply: Result<string, string>, parse: string -> Option<J>, logs: J -> bool): (r: OcrResponse<J>)
    ensures r.Rejected? <==> req.imageBase64.None? || req.imageBase64.value == ""
    ensures r.NotConfigured? <==> !r.Rejected? && FirstSet(env, OcrKeys).None?
    ensures r.Analysed? ==>
      reply.Ok? && parse(CleanReply(reply.value)) == Some(r.analysis) && logs(r.analysis) && r.page == req.pageNumber
    ensures r.Failed? <==> !r.Rejected? && FirstSet(env, OcrKeys).Some? && reply.Err?
  {
    Respond(Prepare(req, env, toNumber), req.pageNumber, reply, parse, logs)
  }

  /** A reply that parses but makes the log line throw is reported as
      unreadable, with the raw text. */
  lemma LogThrowIsParseError<J>(req: OcrRequest, env: Env, toNumber: Value -> Option<int>, text: string,
                                parse: string -> Option<J>, logs: J -> bool)
    requires Prepare(req, env, toNumber).CallModel?
    requires parse(CleanReply(text)).Some? && !logs(parse(CleanReply(text)).value)
    ensures Post(req, env, toNumber, Ok(text), parse, logs) == Unparsed(text)
  {
  }

  /** Without an image or a key the model is never consulted. */
  lemma NoModelCallWithoutInputOrKey<J>(req: OcrRequest, env: Env, toNumber: Value -> Option<int>,
                                        reply1: Result<string, string>, reply2: Result<string, string>,
                                        parse: string -> Option<J>, logs: J -> bool)
    requires req.imageBase64.None? || req.imageBase64.value == "" || FirstSet(env, OcrKeys).None?
    ensures Post(req, env, toNumber, reply1, parse, logs) == Post(req, env, toNumber, reply2, parse, logs)
    ensures Status(Post(req, env, toNumber, reply1, parse, logs)) == (if req.imageBase64.None? || req.imageBase64.value == "" then 400 else 200)
  {
  }

  /** Where the vision route recovers an object wrapped in prose, this
      route reports the reply as unreadable. */
  lemma ProseDefeatsStrictParse<J>(req: OcrRequest, env: Env, toNumber: Value -> Option<int>, text: string,
                                   before: string, obj: string, after: string, parse: string -> Option<J>,
                                   logs: J -> bool)
    requires Prepare(req, env, toNumber).CallModel?
    requires CleanReply(text) == before + obj + after
    requires OcrVision.NoChar(before, '{') && OcrVision.NoChar(after, '}')
    requires |obj| >= 2 && obj[0] == '{' && obj[|obj| - 1] == '}'
    requires parse(CleanReply(text)).None? && parse(obj).Some?
    ensures Post(req, env, toNumber, Ok(text), parse, logs) == Unparsed(text)
    ensures OcrVision.SafeJsonParse(text, parse) == Ok(parse(obj).value)
  {
    OcrVision.ProseAroundObjectIgnored(text, before, obj, after, parse);
  }
}

=== FILE: ocr_vision.dfy ===
/** The multi-page answer-sheet route (`POST /api/analyze-ocr-vision`): input
    guards, the request it builds for the vision model, and the tolerant
    parsing of the model's reply. The model call itself is an input: the
    text it returned, or the message of the error it threw. */
module OcrVision {
  import opened Js
  import opened Strings
  import opened Fences
  import opened Env

  // ---------------------------------------------------------------------------
  // Tolerant JSON parsing

  /** Why a reply could not be read: no braces at all, or the text between
      the outermost braces is not JSON either. */
  datatype ParseFailure = NoJsonFound | BadJsonSlice

  /** The text holds a '{' with a '}' somewhere after it. */
  predicate HasBraces(clean: string) {
    var start := IndexOf(clean, '{');
    var end := LastIndexOf(clean, '}');
    start >= 0 && end > start
  }

  /** From the first '{' to the last '}', both included. */
  function BraceSlice(clean: string): (r: string)
    requires HasBraces(clean)
    ensures |r| >= 2 && r[0] == '{' && r[|r| - 1] == '}'
  {
    clean[IndexOf(clean, '{')..LastIndexOf(clean, '}') + 1]
  }

  /** `safeJsonParse`: clean the fences, try the whole text, then the slice
      between the outermost braces. `parse` is `JSON.parse`, `None` where
      it throws. */
  function SafeJsonParse<J>(text: string, parse: string -> Option<J>): (r: Result<J, ParseFailure>)
    ensures parse(CleanReply(text)).Some? ==> r == Ok(parse(CleanReply(text)).value)
    ensures r == Err(NoJsonFound) <==> parse(CleanReply(text)).None? && !HasBraces(CleanReply(text))
    ensures r.Ok? && parse(CleanReply(text)).None? ==> HasBraces(CleanReply(text)) && parse(BraceSlice(CleanReply(text))) == Some(r.value)
  {
    var clean := CleanReply(text);
    match parse(clean)
    case Some(j) => Ok(j)
    case None =>
      if HasBraces(clean) then
        match parse(BraceSlice(clean))
        case Some(j) => Ok(j)
        case None => Err(BadJsonSlice)
      else Err(NoJsonFound)
  }

  predicate NoChar(s: string, c: char) {
    forall i :: 0 <= i < |s| ==> s[i] != c
  }

  /** In `before + obj + after`, the outermost braces delimit `obj`. */
  lemma OutermostBraces(before: string, obj: string, after: string)
    requires NoChar(before, '{') && NoChar(after, '}')
    requires |obj| >= 2 && obj[0] == '{' && obj[|obj| - 1] == '}'
    ensures HasBraces(before + obj + after) && BraceSlice(before + obj + after) == obj
  {
    var clean := before + obj + after;
    var e := |before| + |obj| - 1;
    FirstOpen(clean, |before|);
    LastClose(clean, e);
    assert clean[|before|..e + 1] == obj;
  }

  lemma FirstOpen(s: string, k: int)
    requires 0 <= k < |s| && s[k] == '{' && NoChar(s[..k], '{')
    ensures IndexOf(s, '{') == k
  {
    assert forall j :: 0 <= j < k ==> s[j] == s[..k][j];
  }

  lemma LastClose(s: string, k: int)
    requires 0 <= k < |s| && s[k] == '}' && NoChar(s[k + 1..], '}')
    ensures LastIndexOf(s, '}') == k
  {
    assert forall j :: k < j < |s| ==> s[j] == s[k + 1..][j - k - 1];
  }

  /** Prose before and after one JSON object is ignored: with no '{' before
      the object and no '}' after it, the object is what gets parsed. */
  lemma ProseAroundObjectIgnored<J>(text: string, before: string, obj: string, after: string, parse: string -> Option<J>)
    requires CleanReply(text) == before + obj + after
    requires NoChar(before, '{') && NoChar(after, '}')
    requires |obj| >= 2 && obj[0] == '{' && obj[|obj| - 1] == '}'
    requires parse(CleanReply(text)).None?
    ensures SafeJsonParse(text, parse) == if parse(obj).Some? then Ok(parse(obj).value) else Err(BadJsonSlice)
  {
    OutermostBraces(before, obj, after);
  }

  /** A reply wrapped in a "```json" fence reads like the bare reply. */
  lemma FencedReplyReadsAsBody<J>(body: string, parse: string -> Option<J>)
    requires NoBacktick(body)
    ensures SafeJsonParse(JsonFence + "\n" + body + Fence, parse) == SafeJsonParse(body, parse)
  {
    CleanFencedReply(body);
    CleanPlainReply(body);
  }

  // ---------------------------------------------------------------------------
  // Data URLs

  /** An image as the model request carries it. */
  datatype ImagePart = ImagePart(mimeType: string, data: string)

  /** The characters `.` does not match in a JavaScript regular expression. */
  predicate LineBreak(c: char) {
    c == '\n' || c == '\r' || c == '\U{2028}' || c == '\U{2029}'
  }

  predicate NoLineBreak(s: string) {
    forall i :: 0 <= i < |s| ==> !LineBreak(s[i])
  }

  const DataPrefix: string := "data:"
  const Base64Marker: string := ";base64,"

  /** `stripDataUrl`: split `data:<mime>;base64,<payload>` (a mime type
      without ';', a payload of one line); anything else is taken as a PNG
      payload unchanged. */
  function StripDataUrl(dataUrl: string): (r: ImagePart)
    ensures r == ImagePart("image/png", dataUrl)
         || (dataUrl == DataPrefix + r.mimeType + Base64Marker + r.data
             && |r.mimeType| > 0 && NoChar(r.mimeType, ';') && |r.data| > 0 && NoLineBreak(r.data))
  {
    var k := IndexOf(dataUrl, ';');
    if StartsWith(dataUrl, DataPrefix) && k > 5 && StartsWith(dataUrl[k..], Base64Marker)
       && |dataUrl| > k + 8 && NoLineBreak(dataUrl[k + 8..])
    then
      var m, d := dataUrl[5..k], dataUrl[k + 8..];
      assert dataUrl == dataUrl[..5] + dataUrl[5..k] + dataUrl[k..k + 8] + dataUrl[k + 8..];
      ImagePart(m, d)
    else ImagePart("image/png", dataUrl)
  }

  /** Every well-formed data URL is split into its two parts. */
  lemma DataUrlRoundTrip(mime: string, payload: string)
    requires |mime| > 0 && NoChar(mime, ';') && |payload| > 0 && NoLineBreak(payload)
    ensures StripDataUrl(DataPrefix + mime + Base64Marker + payload) == ImagePart(mime, payload)
  {
    var s := DataPrefix + mime + Base64Marker + payload;
    var k := 5 + |mime|;
    assert s[k] == ';';
    assert IndexOf(s, ';') == k by {
      forall j | 0 <= j < k ensures s[j] != ';' {
        if j >= 5 { assert s[j] == mime[j - 5]; }
      }
    }
    assert s[..5] == DataPrefix;
    assert s[k..][..8] == Base64Marker;
    assert s[5..k] == mime;
    assert s[k + 8..] == payload;
  }

  /** Text that is not a data URL is passed on as a PNG payload. */
  lemma PlainPayloadIsPng(s: string)
    requires !StartsWith(s, DataPrefix)
    ensures StripDataUrl(s) == ImagePart("image/png", s)
  {
  }

  // ---------------------------------------------------------------------------
  // The request

  /** The request body: `images` is `None` when it is not an array; each
      image is its `dataUrl`. */
  datatype VisionRequest = VisionRequest(images: Option<seq<string>>, questionsCount: Value,
                                         title: Option<string>, topic: Option<string>, subjectName: Option<string>)

  /** `qCount`: a positive number, or 0. */
  function QuestionCount(v: Value): (r: nat)
    ensures r > 0 <==> v.Num? && v.n > 0
    ensures r > 0 ==> r == v.n
  {
    if v.Num? && v.n > 0 then v.n else 0
  }

  /** The values that are truthy, in order. */
  function Present(xs: seq<Option<string>>): (r: seq<string>)
    ensures |r| <= |xs|
    ensures forall i :: 0 <= i < |r| ==> r[i] != ""
    ensures r == [] <==> forall i :: 0 <= i < |xs| ==> xs[i].None? || xs[i].value == ""
  {
    if |xs| == 0 then []
    else
      var rest := Present(xs[1..]);
      assert forall i :: 0 < i < |xs| ==> xs[i] == xs[1..][i - 1];
      (if xs[0].Some? && xs[0].value != "" then [xs[0].value] else []) + rest
  }

  /** `[title, subjectName, topic].filter(Boolean).join(' | ')`. */
  function ContextLine(title: Option<string>, subjectName: Option<string>, topic: Option<string>): string {
    Join(Present([title, subjectName, topic]), " | ")
  }

  predicate Falsy(v: Option<string>) {
    v.None? || v.value == ""
  }

  /** The context line is empty exactly when all three fields are falsy. */
  lemma ContextLineEmpty(title: Option<string>, subjectName: Option<string>, topic: Option<string>)
    ensures ContextLine(title, subjectName, topic) == "" <==> Falsy(title) && Falsy(subjectName) && Falsy(topic)
  {
    var xs := [title, subjectName, topic];
    assert xs[0] == title && xs[1] == subjectName && xs[2] == topic;
    var p := Present(xs);
    if |p| == 1 {
      assert Join(p, " | ") == p[0] != "";
    } else if |p| > 1 {
      assert StartsWith(Join(p, " | "), p[0] + " | ");
    }
  }

  lemma PresentOfThree(a: Option<string>, b: Option<string>, c: Option<string>)
    ensures Present([a, b, c])
         == (if Falsy(a) then [] else [a.value]) + (if Falsy(b) then [] else [b.value]) + (if Falsy(c) then [] else [c.value])
  {
    assert [a, b, c][1..] == [b, c];
    assert [b, c][1..] == [c];
    assert [c][1..] == [];
    assert Present([c]) == (if Falsy(c) then [] else [c.value]);
    assert Present([b, c]) == (if Falsy(b) then [] else [b.value]) + Present([c]);
  }

  /** Present fields appear in order, separated by " | ". */
  lemma ContextLineJoinsPresent(title: Option<string>, subjectName: Option<string>, topic: Option<string>)
    ensures !Falsy(title) && Falsy(subjectName) && Falsy(topic) ==> ContextLine(title, subjectName, topic) == title.value
    ensures Falsy(title) && !Falsy(subjectName) && !Falsy(topic)
            ==> ContextLine(title, subjectName, topic) == subjectName.value + " | " + topic.value
    ensures !Falsy(title) && !Falsy(subjectName) && !Falsy(topic)
            ==> ContextLine(title, subjectName, topic) == title.value + " | " + subjectName.value + " | " + topic.value
  {
    PresentOfThree(title, subjectName, topic);
    if !Falsy(title) && !Falsy(subjectName) && !Falsy(topic) {
      var p := [title.value, subjectName.value, topic.value];
      assert p[1..] == [subjectName.value, topic.value];
      assert p[1..][1..] == [topic.value];
      assert Join(p[1..], " | ") == subjectName.value + " | " + topic.value;
      assert Present([title, subjectName, topic]) == p;
      assert Join(p, " | ") == title.value + " | " + (subjectName.value + " | " + topic.value);
    } else if Falsy(title) && !Falsy(subjectName) && !Falsy(topic) {
      var p := [subjectName.value, topic.value];
      assert p[1..] == [topic.value];
    }
  }

  /** What the route sends the model. */
  datatype VisionCall = VisionCall(key: string, context: string, expected: string, parts: seq<ImagePart>)

  datatype VisionStep = NeedImages | NoApiKey | CallModel(call: VisionCall)

  /** The guards, in order, and the model request. */
  function Prepare(req: VisionRequest, env: Env): (r: VisionStep)
    ensures r.NeedImages? <==> req.images.None? || |req.images.value| == 0
    ensures r.NoApiKey? <==> !r.NeedImages? && FirstSet(env, GoogleKeys).None?
    ensures r.CallModel? ==> r.call.key != "" && Some(r.call.key) == FirstSet(env, GoogleKeys)
    ensures r.CallModel? ==> r.call.context != "" && r.call.expected != ""
    ensures r.CallModel? ==> (|r.call.parts| == |req.images.value|
                              && forall i :: 0 <= i < |r.call.parts| ==> r.call.parts[i] == StripDataUrl(req.images.value[i]))
  {
    if req.images.None? || |req.images.value| == 0 then NeedImages
    else
      match FirstSet(env, GoogleKeys)
      case None => NoApiKey
      case Some(key) =>
        var q := QuestionCount(req.questionsCount);
        var images := req.images.value;
        CallModel(VisionCall(
          key,
          Or(ContextLine(req.title, req.subjectName, req.topic), "N/D"),
          if q > 0 then NatToString(q) else "Se detectará automáticamente",
          seq(|images|, i requires 0 <= i < |images| => StripDataUrl(images[i]))))
  }

  // ---------------------------------------------------------------------------
  // The response

  datatype VisionResponse<J> =
    | Rejected                               // 400, 'Se requieren imágenes'
    | NotConfigured                          // 200, success false, fallback true
    | Analysed(analysis: J, raw: string)     // 200, success true
    | Unparsed(raw: string)                  // 200, success false
    | Failed(message: string)                // 500, success false, fallback true

  function Status<J>(r: VisionResponse<J>): int {
    match r
    case Rejected => 400
    case Failed(_) => 500
    case _ => 200
  }

  /** The answer to a prepared step, given what the model call produced:
      its text, or the message of the error it threw. */
  function Respond<J>(step: VisionStep, reply: Result<string, string>, parse: string -> Option<J>): (r: VisionResponse<J>)
    ensures r.Rejected? <==> step.NeedImages?
    ensures r.NotConfigured? <==> step.NoApiKey?
    ensures r.Failed? <==> step.CallModel? && reply.Err?
    ensures r.Failed? ==> r.message != "" && (reply.error != "" ==> r.message == reply.error)
    ensures r.Analysed? <==> step.CallModel? && reply.Ok? && SafeJsonParse(reply.value, parse).Ok?
    ensures r.Analysed? ==> r.analysis == SafeJsonParse(reply.value, parse).value && r.raw == reply.value
    ensures r.Unparsed? ==> reply.Ok? && r.raw == reply.value
  {
    match step
    case NeedImages => Rejected
    case NoApiKey => NotConfigured
    case CallModel(_) =>
      match reply
      case Err(message) => Failed(Or(message, "Error al analizar OCR"))
      case Ok(text) =>
        match SafeJsonParse(text, parse)
        case Ok(j) => Analysed(j, text)
        case Err(_) => Unparsed(text)
  }

  /** The route: 400 without images; "not configured" without a key;
      otherwise the analysis of the tolerant parse. */
  function Post<J>(req: VisionRequest, env: Env, reply: Result<string, string>, parse: string -> Option<J>): (r: VisionResponse<J>)
    ensures r.Rejected? <==> req.images.None? || |req.images.value| == 0
    ensures r.NotConfigured? <==> !r.Rejected? && FirstSet(env, GoogleKeys).None?
    ensures r.Analysed? ==> reply.Ok? && SafeJsonParse(reply.value, parse) == Ok(r.analysis)
    ensures r.Failed? <==> !r.Rejected? && FirstSet(env, GoogleKeys).Some? && reply.Err?
  {
    Respond(Prepare(req, env), reply, parse)
  }

  /** Without images or without a key the model is never consulted: the
      answer does not depend on its reply. */
  lemma NoModelCallWithoutInputOrKey<J>(req: VisionRequest, env: Env, reply1: Result<string, string>,
                                        reply2: Result<string, string>, parse: string -> Option<J>)
    requires req.images.None? || |req.images.value| == 0 || FirstSet(env, GoogleKeys).None?
    ensures Post(req, env, reply1, parse) == Post(req, env, reply2, parse)
    ensures Post(req, env, reply1, parse) == if req.images.None? || |req.images.value| == 0 then Rejected else NotConfigured
  {
  }

  /** 400 exactly for missing images, 500 exactly when the model call threw;
      every failure after the guards says why. */
  lemma StatusCodes<J>(req: VisionRequest, env: Env, reply: Result<string, string>, parse: string -> Option<J>)
    ensures Status(Post(req, env, reply, parse)) == 400 <==> req.images.None? || |req.images.value| == 0
    ensures Status(Post(req, env, reply, parse)) == 500
        <==> Prepare(req, env).CallModel? && reply.Err?
    ensures Post(req, env, reply, parse).Failed? ==> Post(req, env, reply, parse).message != ""
  {
  }
}

=== FILE: openrouter.dfy ===
/** The OpenRouter client: its configuration, the chat-completion request it
    sends, how it reads the answer, and the JSON variant that asks for and
    unwraps a JSON reply. The HTTP exchange is an input: the reply the
    server gave to the request. */
module OpenRouter {
  import opened Js
  import opened Strings
  import opened Env
  import opened Fences

  const DefaultBaseUrl: string := "https://openrouter.ai/api/v1"
  const DefaultModel: string := "openai/gpt-4o-mini"
  const DefaultSiteUrl: string := "http://localhost:3000"
  const DefaultSiteName: string := "ELIVAS Education Platform"

  /** The constructor's options; `None` where not given. */
  datatype Config = Config(apiKey: Option<string>, baseUrl: Option<string>, model: Option<string>,
                           siteUrl: Option<string>, siteName: Option<string>)

  datatype Client = Client(apiKey: string, baseUrl: string, defaultModel: string, siteUrl: string, siteName: string)

  /** `given || fromEnv || fallback`. */
  function Choose(given: Option<string>, fromEnv: string, fallback: string): (r: string)
    ensures given.Some? && given.value != "" ==> r == given.value
    ensures (given.None? || given.value == "") && fromEnv != "" ==> r == fromEnv
    ensures (given.None? || given.value == "") && fromEnv == "" ==> r == fallback
  {
    OptOr(given, Or(fromEnv, fallback))
  }

  /** The constructor. The site name has no environment variable. */
  function NewClient(config: Config, env: Env): (c: Client)
    ensures c.baseUrl != "" && c.defaultModel != "" && c.siteUrl != "" && c.siteName != ""
    ensures c.apiKey == "" <==> (config.apiKey.None? || config.apiKey.value == "") && Lookup(env, "OPENROUTER_API_KEY") == ""
  {
    Client(
      Choose(config.apiKey, Lookup(env, "OPENROUTER_API_KEY"), ""),
      Choose(config.baseUrl, Lookup(env, "OPENROUTER_BASE_URL"), DefaultBaseUrl),
      Choose(config.model, Lookup(env, "OPENROUTER_MODEL"), DefaultModel),
      Choose(config.siteUrl, Lookup(env, "NEXT_PUBLIC_SITE_URL"), DefaultSiteUrl),
      OptOr(config.siteName, DefaultSiteName))
  }

  predicate Given(v: Option<string>) {
    v.Some? && v.value != ""
  }

  /** Options given in full make the environment irrelevant. */
  lemma ConfigOverridesEnv(config: Config, env1: Env, env2: Env)
    requires Given(config.apiKey) && Given(config.baseUrl) && Given(config.model) && Given(config.siteUrl)
    ensures NewClient(config, env1) == NewClient(config, env2)
    ensures NewClient(config, env1).apiKey == config.apiKey.value
  {
  }

  /** The shared instance, built without options, reads the environment
      and otherwise the defaults. */
  lemma SharedClientFromEnv(env: Env)
    ensures NewClient(Config(None, None, None, None, None), env).apiKey == Lookup(env, "OPENROUTER_API_KEY")
    ensures Lookup(env, "OPENROUTER_MODEL") == "" ==> NewClient(Config(None, None, None, None, None), env).defaultModel == DefaultModel
    ensures Lookup(env, "OPENROUTER_MODEL") != "" ==> NewClient(Config(None, None, None, None, None), env).defaultModel == Lookup(env, "OPENROUTER_MODEL")
    ensures NewClient(Config(None, None, None, None, None), env).siteName == DefaultSiteName
  {
  }

  /** `isConfigured`. */
  predicate IsConfigured(c: Client) {
    c.apiKey != ""
  }

  datatype Role = System | User | Assistant
  datatype Message = Message(role: Role, content: string)
  datatype Format = JsonObject | Text

  /** The options of `chat`; `None` where not given. */
  datatype ChatOptions = ChatOptions(model: Option<string>, temperature: Option<real>, maxTokens: Option<int>,
                                     responseFormat: Option<Format>)

  /** The POST the client sends. */
  datatype Request = Request(url: string, authorization: string, referer: string, title: string, model: string,
                             messages: seq<Message>, temperature: real, maxTokens: int, responseFormat: Option<Format>)

  const NotConfiguredError: string := "OpenRouter API key not configured. Set OPENROUTER_API_KEY in .env.local"
  const DefaultTemperature: real := 0.7
  const DefaultMaxTokens: int := 4096

  /** The request of `chat`, or the error it throws before sending. The
      temperature and token limit default with `??`, so an explicit 0 is
      kept; the model defaults with `||`. */
  function ChatRequest(c: Client, messages: seq<Message>, opts: ChatOptions): (r: Result<Request, string>)
    ensures r.Err? <==> !IsConfigured(c)
    ensures r.Err? ==> r.error == NotConfiguredError
    ensures r.Ok? ==> r.value.messages == messages && r.value.responseFormat == opts.responseFormat
    ensures r.Ok? ==> r.value.url == c.baseUrl + "/chat/completions" && r.value.authorization == "Bearer " + c.apiKey
    ensures r.Ok? ==> r.value.temperature == opts.temperature.GetOr(DefaultTemperature)
                      && r.value.maxTokens == opts.maxTokens.GetOr(DefaultMaxTokens)
    ensures r.Ok? && !Given(opts.model) ==> r.value.model == c.defaultModel
  {
    if !IsConfigured(c) then Err(NotConfiguredError)
    else
      Ok(Request(
        c.baseUrl + "/chat/completions",
        "Bearer " + c.apiKey,
        c.siteUrl,
        c.siteName,
        OptOr(opts.model, c.defaultModel),
        messages,
        opts.temperature.GetOr(DefaultTemperature),
        opts.maxTokens.GetOr(DefaultMaxTokens),
        opts.responseFormat))
  }

  /** What the server answered: an HTTP error, or a body whose `choices`
      (`None` when missing) hold the message contents. */
  datatype Reply = HttpError(status: nat, body: string) | Completion(choices: Option<seq<string>>)

  const NoResponseError: string := "No response from OpenRouter"

  /** How `chat` reads the answer: the first choice, or an error. */
  function ReadReply(reply: Reply): (r: Result<string, string>)
    ensures r.Ok? <==> reply.Completion? && reply.choices.Some? && |reply.choices.value| > 0
    ensures r.Ok? ==> r.value == reply.choices.value[0]
    ensures reply.Completion? && r.Err? ==> r.error == NoResponseError
    ensures reply.HttpError? ==> StartsWith(r.error, "OpenRouter API error: ")
  {
    match reply
    case HttpError(status, body) => Err("OpenRouter API error: " + NatToString(status) + " - " + body)
    case Completion(None) => Err(NoResponseError)
    case Completion(Some(choices)) => if |choices| == 0 then Err(NoResponseError) else Ok(choices[0])
  }

  /** `chat`: nothing is sent, and any reply is irrelevant, without a key;
      with one, the answer is the server's first choice or its error. */
  function Chat(c: Client, messages: seq<Message>, opts: ChatOptions, reply: Reply): (r: Result<string, string>)
    ensures !IsConfigured(c) ==> r == Err(NotConfiguredError)
    ensures r.Ok? <==> IsConfigured(c) && reply.Completion? && reply.choices.Some? && |reply.choices.value| > 0
    ensures r.Ok? ==> r.value == reply.choices.value[0]
    ensures IsConfigured(c) && reply.HttpError? ==> StartsWith(r.error, "OpenRouter API error: ")
  {
    match ChatRequest(c, messages, opts)
    case Err(e) => Err(e)
    case Ok(_) => ReadReply(reply)
  }

  /** The options of `generateContent`; `None` where not given. */
  datatype ContentOptions = ContentOptions(model: Option<string>, systemPrompt: Option<string>, temperature: Option<real>,
                                           maxTokens: Option<int>, jsonMode: bool)

  /** The conversation `generateContent` sends: the system prompt first
      when one is given, then the prompt as the user's turn. */
  function Messages(prompt: string, systemPrompt: Option<string>): (r: seq<Message>)
    ensures |r| == if Given(systemPrompt) then 2 else 1
    ensures r[|r| - 1] == Message(User, prompt)
    ensures |r| == 2 ==> r[0] == Message(System, systemPrompt.value)
  {
    (if Given(systemPrompt) then [Message(System, systemPrompt.value)] else []) + [Message(User, prompt)]
  }

  function ToChatOptions(o: ContentOptions): (r: ChatOptions)
    ensures r.responseFormat.Some? <==> o.jsonMode
    ensures r.responseFormat.Some? ==> r.responseFormat.value == JsonObject
  {
    ChatOptions(o.model, o.temperature, o.maxTokens, if o.jsonMode then Some(JsonObject) else None)
  }

  function GenerateContentRequest(c: Client, prompt: string, o: ContentOptions): Result<Request, string> {
    ChatRequest(c, Messages(prompt, o.systemPrompt), ToChatOptions(o))
  }

  /** The closing words of both JSON system prompts. */
  const JsonOnly: string := "No markdown, no explanations, just the JSON."
  const JsonSuffix: string := "\n\nIMPORTANT: Always respond with valid JSON only. " + JsonOnly
  const JsonDefaultPrompt: string := "You are a helpful assistant that always responds with valid JSON. " + JsonOnly

  /** The system prompt of `generateJSON`. */
  function JsonSystemPrompt(systemPrompt: Option<string>): (r: string)
    ensures Given(systemPrompt) ==> StartsWith(r, systemPrompt.value)
    ensures EndsWith(r, JsonOnly)
    ensures !Given(systemPrompt) ==> r == JsonDefaultPrompt
  {
    if Given(systemPrompt) then
      var r := systemPrompt.value + JsonSuffix;
      assert r[..|systemPrompt.value|] == systemPrompt.value;
      assert r[|r| - |JsonOnly|..] == JsonOnly;
      r
    else
      var r := JsonDefaultPrompt;
      assert r[|r| - |JsonOnly|..] == JsonOnly;
      r
  }

  function JsonOptions(o: ContentOptions): ContentOptions {
    o.(systemPrompt := Some(JsonSystemPrompt(o.systemPrompt)), jsonMode := true)
  }

  /** Every JSON request asks for a JSON object, opens with a system turn
      that demands JSON, and ends with the prompt. */
  lemma JsonRequestShape(c: Client, prompt: string, o: ContentOptions)
    ensures GenerateContentRequest(c, prompt, JsonOptions(o)).Err? <==> !IsConfigured(c)
    ensures GenerateContentRequest(c, prompt, JsonOptions(o)).Ok? ==>
      var req := GenerateContentRequest(c, prompt, JsonOptions(o)).value;
      req.responseFormat == Some(JsonObject) && |req.messages| == 2
      && req.messages[0].role == System && EndsWith(req.messages[0].content, JsonOnly)
      && req.messages[1] == Message(User, prompt)
  {
    var sp := JsonSystemPrompt(o.systemPrompt);
    assert sp != "" by { assert EndsWith(sp, JsonOnly); }
  }

  const ParseError: string := "Failed to parse JSON response from OpenRouter"

  /** `JSON.parse` of the cleaned reply, as `generateJSON` reports it;
      `parse` is `JSON.parse`, `None` where it throws. */
  function ParseCleaned<J>(clean: string, parse: string -> Option<J>): (r: Result<J, string>)
    ensures r.Err? ==> r.error == ParseError
    ensures r.Ok? <==> parse(clean).Some?
    ensures r.Ok? ==> r.value == parse(clean).value
  {
    match parse(clean)
    case Some(j) => Ok(j)
    case None => Err(ParseError)
  }

  /** The parsing step of `generateJSON`: strip the fences, then parse. */
  function ParseJsonReply<J>(text: string, parse: string -> Option<J>): Result<J, string> {
    ParseCleaned(StripFences(text), parse)
  }

  /** `generateJSON`: the first choice of the reply, stripped of its fences
      and parsed; a readable reply that does not parse is the parse error. */
  function GenerateJson<J>(c: Client, prompt: string, o: ContentOptions, reply: Reply, parse: string -> Option<J>): (r: Result<J, string>)
    ensures !IsConfigured(c) ==> r == Err(NotConfiguredError)
    ensures r.Ok? <==> IsConfigured(c) && reply.Completion? && reply.choices.Some? && |reply.choices.value| > 0
                       && parse(StripFences(reply.choices.value[0])).Some?
    ensures r.Ok? ==> r.value == parse(StripFences(reply.choices.value[0])).value
    ensures IsConfigured(c) && reply.Completion? && reply.choices.Some? && |reply.choices.value| > 0
            && parse(StripFences(reply.choices.value[0])).None?
            ==> r == Err(ParseError)
  {
    var opts := JsonOptions(o);
    match Chat(c, Messages(prompt, opts.systemPrompt), ToChatOptions(opts), reply)
    case Err(e) => Err(e)
    case Ok(text) => ParseJsonReply(text, parse)
  }

  /** Without a key every call fails the same way, whatever the server
      would have said. */
  lemma UnconfiguredNeverSends<J>(c: Client, prompt: string, o: ContentOptions, reply: Reply, parse: string -> Option<J>)
    requires !IsConfigured(c)
    ensures GenerateJson(c, prompt, o, reply, parse) == Err(NotConfiguredError)
    ensures Chat(c, Messages(prompt, o.systemPrompt), ToChatOptions(o), reply) == Err(NotConfiguredError)
  {
  }

  /** A reply fenced as "```json" ... "```" is read as its trimmed body. */
  lemma FencedJsonReplyParses<J>(body: string, parse: string -> Option<J>)
    requires body == [] || body[0] != '`'
    ensures ParseJsonReply(JsonFence + body + Fence, parse) == ParseCleaned(Trim(body), parse)
  {
    JsonFenceRoundTrip(body);
  }
}

=== FILE: patterns.dfy ===
/** The regular expressions the platform uses for keyword detection are
    alternations of words built from literal characters, character classes
    such as `[aá]`, optional characters (`[oa]?`, `s?`) and `\s*`. This module
    gives those a direct matcher: an unanchored search for any alternative. */
module Patterns {
  import opened Strings

  datatype Atom =
    | One(cs: set<char>)    // exactly one character from the class
    | Maybe(cs: set<char>)  // zero or one character from the class (`[..]?`)
    | Spaces                // `\s*`

  type Pattern = seq<Atom>

  function CharSet(cs: string): set<char> {
    set i | 0 <= i < |cs| :: cs[i]
  }

  /** A literal word. */
  function Lit(w: string): (p: Pattern)
    ensures |p| == |w|
  {
    seq(|w|, i requires 0 <= i < |w| => One({w[i]}))
  }

  /** A class such as `[aá]`. */
  function Cls(cs: string): Pattern {
    [One(CharSet(cs))]
  }

  /** An optional class such as `[oa]?`. */
  function Opt(cs: string): Pattern {
    [Maybe(CharSet(cs))]
  }

  const Ws: Pattern := [Spaces]

  /** Reads the regular-expression source syntax used here: `\s*`, a class
      `[..]`, a literal character, each of the last two optionally followed by
      `?`. */
  function Parse(src: string): (p: Pattern)
    ensures |p| <= |src|
    decreases |src|
  {
    if |src| == 0 then []
    else if |src| >= 3 && src[..3] == "\\s*" then [Spaces] + Parse(src[3..])
    else if src[0] == '[' && IndexOf(src, ']') > 0 then
      var k := IndexOf(src, ']');
      var cs := CharSet(src[1..k]);
      if k + 1 < |src| && src[k + 1] == '?' then [Maybe(cs)] + Parse(src[k + 2..])
      else [One(cs)] + Parse(src[k + 1..])
    else if |src| >= 2 && src[1] == '?' then [Maybe({src[0]})] + Parse(src[2..])
    else [One({src[0]})] + Parse(src[1..])
  }

  /** The alternatives of `/a|b|.../`, each in source syntax. */
  function Alts(srcs: seq<string>): (ps: seq<Pattern>)
    ensures |ps| == |srcs|
    ensures forall k :: 0 <= k < |srcs| ==> ps[k] == Parse(srcs[k])
  {
    seq(|srcs|, k requires 0 <= k < |srcs| => Parse(srcs[k]))
  }

  /** A word without special characters reads as itself. */
  lemma {:induction false} ParsePlainWord(w: string)
    requires forall i :: 0 <= i < |w| ==> w[i] != '[' && w[i] != '?' && w[i] != '\\'
    ensures Parse(w) == Lit(w)
    decreases |w|
  {
    if |w| > 0 {
      ParsePlainWord(w[1..]);
      assert Lit(w) == [One({w[0]})] + Lit(w[1..]);
    }
  }

  /** `p` matches a prefix of `s[i..]` (with backtracking over the optional
      parts). */
  predicate MatchFrom(p: Pattern, s: string, i: nat)
    requires i <= |s|
    decreases |p|, |s| - i
  {
    if |p| == 0 then true
    else match p[0]
      case One(cs) => i < |s| && s[i] in cs && MatchFrom(p[1..], s, i + 1)
      case Maybe(cs) => (i < |s| && s[i] in cs && MatchFrom(p[1..], s, i + 1)) || MatchFrom(p[1..], s, i)
      case Spaces => MatchFrom(p[1..], s, i) || (i < |s| && IsSpace(s[i]) && MatchFrom(p, s, i + 1))
  }

  /** `p` matches somewhere in `s[i..]`. */
  predicate SearchFrom(p: Pattern, s: string, i: nat)
    requires i <= |s|
    decreases |s| - i
  {
    MatchFrom(p, s, i) || (i < |s| && SearchFrom(p, s, i + 1))
  }

  /** `/alt1|alt2|.../.test(s)`. */
  predicate Test(alts: seq<Pattern>, s: string) {
    exists k :: 0 <= k < |alts| && SearchFrom(alts[k], s, 0)
  }

  /** A literal pattern matches exactly where the word occurs. */
  lemma {:induction false} LitMatchesOccurrence(w: string, s: string, i: nat)
    requires i <= |s|
    ensures MatchFrom(Lit(w), s, i) <==> OccursAt(s, w, i)
    decreases |w|
  {
    if |w| > 0 {
      assert Lit(w)[1..] == Lit(w[1..]);
      if i < |s| {
        LitMatchesOccurrence(w[1..], s, i + 1);
        if OccursAt(s, w, i) {
          assert s[i + 1..i + |w|] == s[i..i + |w|][1..];
        }
        if s[i] == w[0] && OccursAt(s, w[1..], i + 1) {
          assert s[i..i + |w|] == [s[i]] + s[i + 1..i + |w|];
        }
      }
    }
  }

  lemma {:induction false} SearchMeansSomeMatch(p: Pattern, s: string, i: nat)
    requires i <= |s|
    ensures SearchFrom(p, s, i) <==> exists j :: i <= j <= |s| && MatchFrom(p, s, j)
    decreases |s| - i
  {
    if j :| i <= j <= |s| && MatchFrom(p, s, j) {
      if j > i {
        SearchMeansSomeMatch(p, s, i + 1);
        assert i + 1 <= j <= |s| && MatchFrom(p, s, j);
      }
    }
    if MatchFrom(p, s, i) {
      assert i <= i <= |s| && MatchFrom(p, s, i);
      assert SearchFrom(p, s, i);
      assert exists j :: i <= j <= |s| && MatchFrom(p, s, j);
    } else if SearchFrom(p, s, i) {
      SearchMeansSomeMatch(p, s, i + 1);
      var j :| i + 1 <= j <= |s| && MatchFrom(p, s, j);
      assert i <= j <= |s| && MatchFrom(p, s, j);
    }
  }

  /** Searching for a literal word is `includes`. */
  lemma LitSearchIsContains(w: string, s: string)
    ensures SearchFrom(Lit(w), s, 0) <==> Contains(s, w)
  {
    SearchMeansSomeMatch(Lit(w), s, 0);
    ContainsIffOccurs(s, w);
    if SearchFrom(Lit(w), s, 0) {
      var j :| 0 <= j <= |s| && MatchFrom(Lit(w), s, j);
      LitMatchesOccurrence(w, s, j);
    }
    if Contains(s, w) {
      var j :| OccursAt(s, w, j);
      LitMatchesOccurrence(w, s, j);
    }
  }
}

=== FILE: sorting.dfy ===
/** Two collection idioms the grade analyses are built from: a stable sort in
    ascending order of a numeric key (JavaScript's `Array.prototype.sort` with a
    comparator `(a, b) => key(a) - key(b)`, stable since ES2019), and grouping
    into a `Map` whose keys keep their first-insertion order. */
module Sorting {

  predicate SortedBy<T>(xs: seq<T>, key: T -> real) {
    forall i, j :: 0 <= i < j < |xs| ==> key(xs[i]) <= key(xs[j])
  }

  /** The elements of `xs` whose key is `v`, in order. */
  function WithKey<T>(xs: seq<T>, key: T -> real, v: real): (r: seq<T>)
    ensures |r| <= |xs|
  {
    if |xs| == 0 then []
    else WithKey(xs[..|xs| - 1], key, v) + (if key(xs[|xs| - 1]) == v then [xs[|xs| - 1]] else [])
  }

  /** Inserts `x` after every element whose key is not larger than its own. */
  function Insert<T>(x: T, xs: seq<T>, key: T -> real): (r: seq<T>)
    requires SortedBy(xs, key)
    ensures |r| == |xs| + 1
    ensures SortedBy(r, key)
    ensures multiset(r) == multiset(xs) + multiset{x}
  {
    if |xs| == 0 then [x]
    else if key(x) < key(xs[0]) then [x] + xs
    else
      var rest := Insert(x, xs[1..], key);
      assert xs == [xs[0]] + xs[1..];
      LowerBoundOfInsert(xs[0], x, xs[1..], rest, key);
      SortedCons(xs[0], rest, key);
      [xs[0]] + rest
  }

  /** A key not above `x`'s nor any key of `xs` bounds every key of a
      rearrangement of `xs` plus `x`. */
  lemma LowerBoundOfInsert<T>(h: T, x: T, xs: seq<T>, rest: seq<T>, key: T -> real)
    requires key(h) <= key(x)
    requires forall k :: 0 <= k < |xs| ==> key(h) <= key(xs[k])
    requires multiset(rest) == multiset(xs) + multiset{x}
    ensures forall k :: 0 <= k < |rest| ==> key(h) <= key(rest[k])
  {
    forall k | 0 <= k < |rest|
      ensures key(h) <= key(rest[k])
    {
      assert rest[k] in multiset(rest);
      if rest[k] != x {
        assert rest[k] in multiset(xs);
        var j :| 0 <= j < |xs| && xs[j] == rest[k];
      }
    }
  }

  lemma SortedCons<T>(h: T, xs: seq<T>, key: T -> real)
    requires SortedBy(xs, key)
    requires forall k :: 0 <= k < |xs| ==> key(h) <= key(xs[k])
    ensures SortedBy([h] + xs, key)
  {
    var r := [h] + xs;
    forall i, j | 0 <= i < j < |r|
      ensures key(r[i]) <= key(r[j])
    {
      assert r[j] == xs[j - 1];
      if i > 0 {
        assert r[i] == xs[i - 1];
      }
    }
  }

  /** Stable ascending sort: equal keys keep their input order. */
  function SortBy<T>(xs: seq<T>, key: T -> real): (r: seq<T>)
    ensures |r| == |xs|
    ensures SortedBy(r, key)
    ensures multiset(r) == multiset(xs)
  {
    if |xs| == 0 then []
    else
      assert xs == xs[..|xs| - 1] + [xs[|xs| - 1]];
      Insert(xs[|xs| - 1], SortBy(xs[..|xs| - 1], key), key)
  }

  lemma {:induction false} WithKeyConcat<T>(a: seq<T>, b: seq<T>, key: T -> real, v: real)
    ensures WithKey(a + b, key, v) == WithKey(a, key, v) + WithKey(b, key, v)
    decreases |b|
  {
    if |b| == 0 {
      assert a + b == a;
    } else {
      assert (a + b)[..|a + b| - 1] == a + b[..|b| - 1];
      WithKeyConcat(a, b[..|b| - 1], key, v);
    }
  }

  lemma {:induction false} WithKeyInsert<T>(x: T, xs: seq<T>, key: T -> real, v: real)
    requires SortedBy(xs, key)
    ensures WithKey(Insert(x, xs, key), key, v)
         == WithKey(xs, key, v) + (if key(x) == v then [x] else [])
    decreases |xs|
  {
    if |xs| == 0 {
      assert Insert(x, xs, key) == [] + [x];
    } else if key(x) < key(xs[0]) {
      WithKeyInsertFront(x, xs, key, v);
    } else {
      var rest := Insert(x, xs[1..], key);
      assert Insert(x, xs, key) == [xs[0]] + rest;
      WithKeyInsert(x, xs[1..], key, v);
      WithKeyCons(xs[0], rest, xs[1..], key, v, if key(x) == v then [x] else []);
      assert [xs[0]] + xs[1..] == xs;
    }
  }

  /** Putting the same element in front of two sequences keeps a relation
      between their elements of one key. */
  lemma WithKeyCons<T>(h: T, a: seq<T>, b: seq<T>, key: T -> real, v: real, extra: seq<T>)
    requires WithKey(a, key, v) == WithKey(b, key, v) + extra
    ensures WithKey([h] + a, key, v) == WithKey([h] + b, key, v) + extra
  {
    WithKeyConcat([h], a, key, v);
    WithKeyConcat([h], b, key, v);
  }

  lemma WithKeyInsertFront<T>(x: T, xs: seq<T>, key: T -> real, v: real)
    requires SortedBy(xs, key) && |xs| > 0 && key(x) < key(xs[0])
    ensures WithKey([x] + xs, key, v)
         == WithKey(xs, key, v) + (if key(x) == v then [x] else [])
  {
    WithKeyConcat([x], xs, key, v);
    assert WithKey([x], key, v) == WithKey([x][..0], key, v) + (if key(x) == v then [x] else []);
    if key(x) == v {
      assert forall i :: 0 <= i < |xs| ==> key(xs[0]) <= key(xs[i]);
      WithKeyNone(xs, key, v);
    }
  }

  lemma {:induction false} WithKeyNone<T>(xs: seq<T>, key: T -> real, v: real)
    requires forall i :: 0 <= i < |xs| ==> key(xs[i]) != v
    ensures WithKey(xs, key, v) == []
    decreases |xs|
  {
    if |xs| > 0 {
      WithKeyNone(xs[..|xs| - 1], key, v);
    }
  }

  /** Stability: restricted to any one key value, the sorted sequence lists the
      elements in their input order. */
  lemma {:induction false} SortIsStable<T>(xs: seq<T>, key: T -> real, v: real)
    ensures WithKey(SortBy(xs, key), key, v) == WithKey(xs, key, v)
    decreases |xs|
  {
    if |xs| > 0 {
      SortIsStable(xs[..|xs| - 1], key, v);
      WithKeyInsert(xs[|xs| - 1], SortBy(xs[..|xs| - 1], key), key, v);
    }
  }

  /** One entry of an insertion-ordered map from a string key to the list of
      values pushed under it. */
  datatype Bucket<T> = Bucket(key: string, items: seq<T>)

  function Keys<T>(bs: seq<Bucket<T>>): set<string> {
    if |bs| == 0 then {} else {bs[0].key} + Keys(bs[1..])
  }

  /** No key is stored twice. */
  predicate DistinctKeys<T>(bs: seq<Bucket<T>>) {
    |bs| == 0 || (bs[0].key !in Keys(bs[1..]) && DistinctKeys(bs[1..]))
  }

  /** The first components of the pairs, as a set. */
  function Firsts<T>(xs: seq<(string, T)>): set<string> {
    if |xs| == 0 then {} else Firsts(xs[..|xs| - 1]) + {xs[|xs| - 1].0}
  }

  predicate NonEmptyBuckets<T>(bs: seq<Bucket<T>>) {
    forall i :: 0 <= i < |bs| ==> bs[i].items != []
  }

  /** The values stored under `k` (`map.get(k) ?? []`). */
  function Lookup<T>(bs: seq<Bucket<T>>, k: string): seq<T> {
    if |bs| == 0 then []
    else if bs[0].key == k then bs[0].items
    else Lookup(bs[1..], k)
  }

  /** The values paired with `k`, in input order. */
  function Select<T>(xs: seq<(string, T)>, k: string): seq<T> {
    if |xs| == 0 then []
    else Select(xs[..|xs| - 1], k) + (if xs[|xs| - 1].0 == k then [xs[|xs| - 1].1] else [])
  }

  /** Pushes `x` under `k`, creating the entry at the end when `k` is new. */
  function Push<T>(bs: seq<Bucket<T>>, k: string, x: T): (r: seq<Bucket<T>>)
    requires DistinctKeys(bs)
    ensures DistinctKeys(r)
    ensures Keys(r) == Keys(bs) + {k}
    ensures Lookup(r, k) == Lookup(bs, k) + [x]
    ensures forall k' :: k' != k ==> Lookup(r, k') == Lookup(bs, k')
    ensures NonEmptyBuckets(bs) ==> NonEmptyBuckets(r)
  {
    if |bs| == 0 then [Bucket(k, [x])]
    else if bs[0].key == k then
      LookupAbsent(bs[1..], k);
      [bs[0].(items := bs[0].items + [x])] + bs[1..]
    else
      var rest := Push(bs[1..], k, x);
      assert ([bs[0]] + rest)[1..] == rest;
      [bs[0]] + rest
  }

  lemma {:induction false} LookupAbsent<T>(bs: seq<Bucket<T>>, k: string)
    requires k !in Keys(bs)
    ensures Lookup(bs, k) == []
    decreases |bs|
  {
    if |bs| > 0 {
      LookupAbsent(bs[1..], k);
    }
  }

  /** `for (x of xs) map.get(k) ? push : set(k, [v])`. */
  function Group<T>(xs: seq<(string, T)>): (r: seq<Bucket<T>>)
    ensures DistinctKeys(r) && NonEmptyBuckets(r)
    ensures Keys(r) == Firsts(xs)
    ensures forall k :: Lookup(r, k) == Select(xs, k)
  {
    if |xs| == 0 then []
    else
      var init := xs[..|xs| - 1];
      Push(Group(init), xs[|xs| - 1].0, xs[|xs| - 1].1)
  }

  /** In a grouping without repeated keys, each bucket is what `Lookup` finds. */
  lemma {:induction false} BucketIsLookup<T>(bs: seq<Bucket<T>>, i: int)
    requires DistinctKeys(bs) && 0 <= i < |bs|
    ensures Lookup(bs, bs[i].key) == bs[i].items
    decreases |bs|
  {
    if i > 0 {
      KeyInKeys(bs[1..], i - 1);
      BucketIsLookup(bs[1..], i - 1);
    }
  }

  lemma {:induction false} KeyInKeys<T>(bs: seq<Bucket<T>>, i: int)
    requires 0 <= i < |bs|
    ensures bs[i].key in Keys(bs)
    decreases |bs|
  {
    if i > 0 {
      KeyInKeys(bs[1..], i - 1);
    }
  }

  lemma {:induction false} KeyIndex<T>(bs: seq<Bucket<T>>, k: string) returns (i: int)
    requires k in Keys(bs)
    ensures 0 <= i < |bs| && bs[i].key == k
    decreases |bs|
  {
    if bs[0].key == k {
      i := 0;
    } else {
      var j := KeyIndex(bs[1..], k);
      i := j + 1;
    }
  }
}

=== FILE: strings.dfy ===
/** Text helpers with the semantics of the JavaScript string methods the
    platform relies on: `trim`, `toLowerCase`/`toUpperCase` (per character),
    `startsWith`, `endsWith`, `includes`, `indexOf`, `lastIndexOf`,
    `substring(0, n)`, `join` and decimal rendering of non-negative integers. */
module Strings {

  /** ECMAScript WhiteSpace and LineTerminator code points: exactly what
      `String.prototype.trim` removes and what the regular expression `\s`
      matches. */
  predicate IsSpace(c: char) {
    c == ' ' || c == '\t' || c == '\n' || c == '\r' || c == '\U{000B}' || c == '\U{000C}'
    || c == '\U{00A0}' || c == '\U{FEFF}' || c == '\U{1680}'
    || ('\U{2000}' <= c <= '\U{200A}')
    || c == '\U{2028}' || c == '\U{2029}' || c == '\U{202F}' || c == '\U{205F}' || c == '\U{3000}'
  }

  /** The string has no white space at either end (the shape `trim` produces). */
  predicate IsTrimmed(s: string) {
    s == [] || (!IsSpace(s[0]) && !IsSpace(s[|s| - 1]))
  }

  /** `trimStart`: drops the longest all-space prefix. */
  function TrimStart(s: string): (r: string)
    ensures |r| <= |s| && r == s[|s| - |r|..]
    ensures r == [] || !IsSpace(r[0])
    ensures forall i :: 0 <= i < |s| - |r| ==> IsSpace(s[i])
  {
    if |s| > 0 && IsSpace(s[0]) then TrimStart(s[1..]) else s
  }

  /** `trimEnd`: drops the longest all-space suffix. */
  function TrimEnd(s: string): (r: string)
    ensures |r| <= |s| && r == s[..|r|]
    ensures r == [] || !IsSpace(r[|r| - 1])
    ensures forall i :: |r| <= i < |s| ==> IsSpace(s[i])
  {
    if |s| > 0 && IsSpace(s[|s| - 1]) then TrimEnd(s[..|s| - 1]) else s
  }

  /** `trim`: the unique infix of `s` obtained by removing the space runs at both
      ends. */
  function Trim(s: string): (r: string)
    ensures |r| <= |s|
    ensures IsTrimmed(r)
  {
    var t := TrimStart(s);
    var r := TrimEnd(t);
    assert r != [] ==> r[0] == t[0];
    r
  }

  lemma TrimStartOfTrimmed(s: string)
    requires s == [] || !IsSpace(s[0])
    ensures TrimStart(s) == s
  {
  }

  lemma TrimEndOfTrimmed(s: string)
    requires s == [] || !IsSpace(s[|s| - 1])
    ensures TrimEnd(s) == s
  {
  }

  /** A trimmed string is a fixed point of `trim`, so `trim` is idempotent. */
  lemma TrimOfTrimmed(s: string)
    requires IsTrimmed(s)
    ensures Trim(s) == s
  {
    TrimStartOfTrimmed(s);
    TrimEndOfTrimmed(s);
  }

  lemma TrimIdempotent(s: string)
    ensures Trim(Trim(s)) == Trim(s)
  {
    TrimOfTrimmed(Trim(s));
  }

  /** `trim` returns an infix, so any property of every character survives. */
  lemma TrimKeepsEvery(s: string, P: char -> bool)
    requires forall i :: 0 <= i < |s| ==> P(s[i])
    ensures forall i :: 0 <= i < |Trim(s)| ==> P(Trim(s)[i])
  {
    var t := TrimStart(s);
    assert forall i :: 0 <= i < |t| ==> P(t[i]) by {
      forall i | 0 <= i < |t| ensures P(t[i]) {
        assert t[i] == s[|s| - |t| + i];
      }
    }
    var r := TrimEnd(t);
    assert forall i :: 0 <= i < |r| ==> r[i] == t[i];
  }

  /** Appending a string that ends in a non-space character to any text makes
      the trimmed text at least as long as the non-space part of the appendix. */
  lemma {:induction false} TrimAppendGrows(t: string, v: string)
    requires |v| > 0 && !IsSpace(v[|v| - 1])
    ensures |Trim(t + v)| >= |Trim(t)| + |TrimStart(v)|
  {
    var ts := TrimStart(t);
    if ts == [] {
      // t is all spaces: trimming t + v starts inside v
      TrimStartSkipsSpaces(t, v);
      assert TrimStart(t + v) == TrimStart(v);
      TrimEndOfTrimmed(TrimStart(v));
    } else {
      TrimStartKeepsTail(t, v);
      assert TrimStart(t + v) == ts + v;
      assert (ts + v)[|ts + v| - 1] == v[|v| - 1];
      TrimEndOfTrimmed(ts + v);
      assert |Trim(t)| <= |ts|;
    }
  }

  lemma {:induction false} TrimStartSkipsSpaces(t: string, v: string)
    requires forall i :: 0 <= i < |t| ==> IsSpace(t[i])
    ensures TrimStart(t + v) == TrimStart(v)
    decreases |t|
  {
    if |t| > 0 {
      assert (t + v)[1..] == t[1..] + v;
      TrimStartSkipsSpaces(t[1..], v);
    } else {
      assert t + v == v;
    }
  }

  lemma {:induction false} TrimStartKeepsTail(t: string, v: string)
    requires TrimStart(t) != []
    ensures TrimStart(t + v) == TrimStart(t) + v
    decreases |t|
  {
    if IsSpace(t[0]) {
      assert (t + v)[1..] == t[1..] + v;
      TrimStartKeepsTail(t[1..], v);
    }
  }

  /** `toLowerCase` on one code point, for ASCII and the Latin-1 letters
      (`À`..`Þ` except `×`). */
  function Lower(c: char): (r: char)
    ensures 'A' <= c <= 'Z' ==> r as int == c as int + 32
    ensures !('A' <= c <= 'Z') && !('\U{00C0}' <= c <= '\U{00DE}') ==> r == c
  {
    if 'A' <= c <= 'Z' || ('\U{00C0}' <= c <= '\U{00DE}' && c != '\U{00D7}') then (c as int + 32) as char else c
  }

  /** `toUpperCase` on one code point, for ASCII and the Latin-1 letters
      (`à`..`þ` except `÷`). */
  function Upper(c: char): (r: char)
    ensures 'a' <= c <= 'z' ==> r as int == c as int - 32
    ensures !('a' <= c <= 'z') && !('\U{00E0}' <= c <= '\U{00FE}') ==> r == c
  {
    if 'a' <= c <= 'z' || ('\U{00E0}' <= c <= '\U{00FE}' && c != '\U{00F7}') then (c as int - 32) as char else c
  }

  function LowerStr(s: string): (r: string)
    ensures |r| == |s|
    ensures forall i :: 0 <= i < |s| ==> r[i] == Lower(s[i])
  {
    seq(|s|, i requires 0 <= i < |s| => Lower(s[i]))
  }

  function UpperStr(s: string): (r: string)
    ensures |r| == |s|
    ensures forall i :: 0 <= i < |s| ==> r[i] == Upper(s[i])
  {
    seq(|s|, i requires 0 <= i < |s| => Upper(s[i]))
  }

  /** `s.trim().toLowerCase()`, peeling one space at a time; the recursive
      shape keeps the verifier from unfolding it eagerly, and
      `TrimLowerIsLowerOfTrim` connects it to `LowerStr` and `Trim`. */
  function TrimLower(s: string): (r: string)
    ensures |r| <= |s|
    decreases |s|
  {
    if s != [] && IsSpace(s[0]) then TrimLower(s[1..])
    else if s != [] && IsSpace(s[|s| - 1]) then TrimLower(s[..|s| - 1])
    else LowerStr(s)
  }

  lemma TrimSkipsLeadingSpace(s: string)
    requires s != [] && IsSpace(s[0])
    ensures Trim(s) == Trim(s[1..])
  {
  }

  lemma TrimSkipsTrailingSpace(s: string)
    requires s != [] && !IsSpace(s[0]) && IsSpace(s[|s| - 1])
    ensures Trim(s) == Trim(s[..|s| - 1])
  {
    TrimStartOfTrimmed(s);
    TrimStartOfTrimmed(s[..|s| - 1]);
  }

  lemma {:induction false} TrimLowerIsLowerOfTrim(s: string)
    ensures TrimLower(s) == LowerStr(Trim(s))
    decreases |s|
  {
    if s != [] && IsSpace(s[0]) {
      TrimLowerIsLowerOfTrim(s[1..]);
      TrimSkipsLeadingSpace(s);
    } else if s != [] && IsSpace(s[|s| - 1]) {
      TrimLowerIsLowerOfTrim(s[..|s| - 1]);
      TrimSkipsTrailingSpace(s);
    } else {
      TrimOfTrimmed(s);
    }
  }

  lemma LowerIdempotent(s: string)
    ensures LowerStr(LowerStr(s)) == LowerStr(s)
  {
  }

  /** Case mapping never turns a space into a non-space or back. */
  lemma LowerKeepsSpaces(c: char)
    ensures IsSpace(Lower(c)) == IsSpace(c)
  {
  }

  /** Canonical decomposition (NFD) followed by removal of the combining
      marks U+0300..U+036F, on the lower-case Latin-1 letters: the accented
      vowels, `ç`, `ñ`, `ý` and `ÿ` lose their diacritic; every other
      character is unchanged. */
  function StripAccent(c: char): (r: char)
    ensures r == c || 'a' <= r <= 'z'
    ensures 'a' <= c <= 'z' ==> r == c
    ensures c < '\U{00E0}' ==> r == c
  {
    if '\U{00E0}' <= c <= '\U{00E5}' then 'a'
    else if c == '\U{00E7}' then 'c'
    else if '\U{00E8}' <= c <= '\U{00EB}' then 'e'
    else if '\U{00EC}' <= c <= '\U{00EF}' then 'i'
    else if c == '\U{00F1}' then 'n'
    else if '\U{00F2}' <= c <= '\U{00F6}' then 'o'
    else if '\U{00F9}' <= c <= '\U{00FC}' then 'u'
    else if c == '\U{00FD}' || c == '\U{00FF}' then 'y'
    else c
  }

  /** `toLowerCase` then accent removal, on one character. */
  function Fold(c: char): char {
    StripAccent(Lower(c))
  }

  lemma FoldIdempotent(c: char)
    ensures Fold(Fold(c)) == Fold(c)
  {
  }

  lemma FoldKeepsSpaces(c: char)
    ensures IsSpace(Fold(c)) == IsSpace(c)
  {
  }

  function FoldStr(s: string): (r: string)
    ensures |r| == |s|
    ensures forall i :: 0 <= i < |s| ==> r[i] == Fold(s[i])
  {
    seq(|s|, i requires 0 <= i < |s| => Fold(s[i]))
  }

  predicate StartsWith(s: string, p: string) {
    |p| <= |s| && s[..|p|] == p
  }

  predicate EndsWith(s: string, p: string) {
    |p| <= |s| && s[|s| - |p|..] == p
  }

  /** `p` occurs in `s` at position `i`. */
  predicate OccursAt(s: string, p: string, i: int) {
    0 <= i && i + |p| <= |s| && s[i..i + |p|] == p
  }

  /** `s.includes(p)`. */
  predicate Contains(s: string, p: string)
    decreases |s|
  {
    StartsWith(s, p) || (|s| > 0 && Contains(s[1..], p))
  }

  lemma {:induction false} ContainsIffOccurs(s: string, p: string)
    ensures Contains(s, p) <==> exists i :: OccursAt(s, p, i)
    decreases |s|
  {
    if StartsWith(s, p) {
      assert OccursAt(s, p, 0);
    } else if |s| > 0 {
      ContainsIffOccurs(s[1..], p);
      if Contains(s[1..], p) {
        var i :| OccursAt(s[1..], p, i);
        assert s[1..][i..i + |p|] == s[i + 1..i + 1 + |p|];
        assert OccursAt(s, p, i + 1);
      }
      if i :| OccursAt(s, p, i) && i > 0 {
        assert s[1..][i - 1..i - 1 + |p|] == s[i..i + |p|];
        assert OccursAt(s[1..], p, i - 1);
      }
    }
  }

  /** Whoever contains `a + b` contains `b`. */
  lemma ContainsSuffixOfOccurrence(s: string, a: string, b: string)
    requires Contains(s, a + b)
    ensures Contains(s, b)
  {
    ContainsIffOccurs(s, a + b);
    var i :| OccursAt(s, a + b, i);
    assert s[i + |a|..i + |a| + |b|] == (a + b)[|a|..];
    assert OccursAt(s, b, i + |a|);
    ContainsIffOccurs(s, b);
  }

  lemma PrefixOfAppend(p: string, rest: string)
    ensures StartsWith(p + rest, p)
  {
    assert (p + rest)[..|p|] == p;
  }

  /** The middle of `h + x + t` is determined by the whole. */
  lemma CancelFrame(h: string, x: string, y: string, t: string)
    requires h + x + t == h + y + t
    ensures x == y
  {
    assert |x| == |y|;
    assert x == (h + x + t)[|h|..|h| + |x|];
    assert y == (h + y + t)[|h|..|h| + |y|];
  }

  /** A text built as `h + m + b + c` starts with `h` and contains `b`. */
  lemma Framed(h: string, m: string, b: string, c: string)
    ensures StartsWith(h + m + b + c, h) && Contains(h + m + b + c, b)
  {
    var s := h + m + b + c;
    assert s == h + (m + b + c);
    assert s[..|h|] == h;
    assert s == (h + m) + b + c;
    assert s[|h + m|..|h + m| + |b|] == b;
    assert OccursAt(s, b, |h + m|);
    ContainsIffOccurs(s, b);
  }

  /** The text contains at least one of the words. */
  predicate ContainsAny(s: string, words: seq<string>) {
    exists k :: 0 <= k < |words| && Contains(s, words[k])
  }

  /** `s.indexOf(c)`: the first position of `c`, or -1. */
  function IndexOf(s: string, c: char): (r: int)
    ensures -1 <= r < |s|
    ensures r >= 0 ==> s[r] == c && forall j :: 0 <= j < r ==> s[j] != c
    ensures r == -1 ==> forall j :: 0 <= j < |s| ==> s[j] != c
  {
    if |s| == 0 then -1
    else if s[0] == c then 0
    else var k := IndexOf(s[1..], c); if k < 0 then -1 else k + 1
  }

  /** `s.lastIndexOf(c)`: the last position of `c`, or -1. */
  function LastIndexOf(s: string, c: char): (r: int)
    ensures -1 <= r < |s|
    ensures r >= 0 ==> s[r] == c && forall j :: r < j < |s| ==> s[j] != c
    ensures r == -1 ==> forall j :: 0 <= j < |s| ==> s[j] != c
  {
    if |s| == 0 then -1
    else if s[|s| - 1] == c then |s| - 1
    else LastIndexOf(s[..|s| - 1], c)
  }

  /** `s.substring(0, n)` / `s.slice(0, n)` for a non-negative `n`. */
  function Prefix(s: string, n: nat): (r: string)
    ensures |r| == if n < |s| then n else |s|
    ensures r == s[..|r|]
  {
    if n < |s| then s[..n] else s
  }

  /** `s.replace(/c/g, '')`. */
  function RemoveChar(s: string, c: char): (r: string)
    ensures |r| <= |s|
    ensures forall x :: x in r ==> x in s
    ensures forall i :: 0 <= i < |r| ==> r[i] != c
    ensures (forall i :: 0 <= i < |s| ==> s[i] != c) ==> r == s
  {
    if |s| == 0 then []
    else (if s[0] == c then [] else [s[0]]) + RemoveChar(s[1..], c)
  }

  /** Removal works piecewise over a concatenation. */
  lemma {:induction false} RemoveCharAppend(a: string, b: string, c: char)
    ensures RemoveChar(a + b, c) == RemoveChar(a, c) + RemoveChar(b, c)
    decreases |a|
  {
    if |a| == 0 {
      assert a + b == b;
    } else {
      assert (a + b)[1..] == a[1..] + b;
      RemoveCharAppend(a[1..], b, c);
    }
  }

  /** The removed character vanishes wherever it stands. */
  lemma {:induction false} RemoveCharSkips(a: string, b: string, c: char)
    ensures RemoveChar(a + [c] + b, c) == RemoveChar(a + b, c)
    decreases |a|
  {
    if |a| == 0 {
      assert (a + [c] + b)[1..] == b;
      assert a + b == b;
    } else {
      assert (a + [c] + b)[1..] == a[1..] + [c] + b;
      assert (a + b)[1..] == a[1..] + b;
      RemoveCharSkips(a[1..], b, c);
    }
  }

  /** Any other character stays where it stands. */
  lemma {:induction false} RemoveCharKeeps(a: string, b: string, x: char, c: char)
    requires x != c
    ensures RemoveChar(a + [x] + b, c) == RemoveChar(a, c) + [x] + RemoveChar(b, c)
    decreases |a|
  {
    if |a| == 0 {
      assert (a + [x] + b)[1..] == b;
    } else {
      assert (a + [x] + b)[1..] == a[1..] + [x] + b;
      RemoveCharKeeps(a[1..], b, x, c);
    }
  }

  predicate IsDigit(c: char) {
    '0' <= c <= '9'
  }

  function Digit(d: nat): (c: char)
    requires d < 10
    ensures IsDigit(c) && c as int - '0' as int == d
  {
    ('0' as int + d) as char
  }

  /** Decimal rendering of a non-negative integer, as `String(n)` prints it. */
  function NatToString(n: nat): (r: string)
    ensures |r| > 0
    ensures forall i :: 0 <= i < |r| ==> IsDigit(r[i])
    ensures n < 10 <==> |r| == 1
    ensures r[|r| - 1] == Digit(n % 10)
  {
    if n < 10 then [Digit(n)] else NatToString(n / 10) + [Digit(n % 10)]
  }

  /** Distinct numbers print differently. */
  lemma {:induction false} NatToStringInjective(m: nat, n: nat)
    requires NatToString(m) == NatToString(n)
    ensures m == n
    decreases m
  {
    var sm, sn := NatToString(m), NatToString(n);
    assert sm[|sm| - 1] == sn[|sn| - 1];
    assert m % 10 == n % 10;
    if m >= 10 {
      assert n >= 10;
      assert NatToString(m / 10) == sm[..|sm| - 1] == sn[..|sn| - 1] == NatToString(n / 10);
      NatToStringInjective(m / 10, n / 10);
    }
  }

  /** `xs.join(sep)`. */
  function Join(xs: seq<string>, sep: string): (r: string)
    ensures |xs| == 0 ==> r == []
    ensures |xs| == 1 ==> r == xs[0]
    ensures |xs| > 1 ==> StartsWith(r, xs[0] + sep)
  {
    if |xs| == 0 then []
    else if |xs| == 1 then xs[0]
    else
      var r := xs[0] + sep + Join(xs[1..], sep);
      assert r[..|xs[0] + sep|] == xs[0] + sep;
      r
  }
}

=== FILE: tests_page.dfy ===
/** The tests page of the teacher dashboard: the per-user storage key, the
    list updates applied while a test is generated, the local question
    generator (course level and subject detection, template rotation, the
    mathematics essay routing) and the splice that combines a model reply with
    locally generated questions. Shuffles, clocks and random ids are
    parameters; template texts are abstract tables. */
module TestsPage {
  import opened Strings
  import opened Js
  import opened Patterns

  // ---------------------------------------------------------------------------
  // Storage key

  const TestsBaseKey: string := "smart-student-tests"

  /** The user name as the key uses it: trimmed and lower-cased, empty for a
      missing or empty name. */
  function KeyName(username: Option<string>): string {
    if username.Some? && username.value != [] then TrimLower(username.value) else ""
  }

  /** `getTestsKey`. */
  function TestsKey(username: Option<string>): (k: string)
    ensures KeyName(username) == [] ==> k == TestsBaseKey
    ensures KeyName(username) != [] ==> k == TestsBaseKey + "_" + KeyName(username)
  {
    var uname := KeyName(username);
    if uname != [] then TestsBaseKey + "_" + uname else TestsBaseKey
  }

  /** Two users share a history exactly when their normalised names agree. */
  lemma TestsKeyIdentifiesUser(a: Option<string>, b: Option<string>)
    ensures TestsKey(a) == TestsKey(b) <==> KeyName(a) == KeyName(b)
  {
    var ka, kb := TestsKey(a), TestsKey(b);
    var n := |TestsBaseKey| + 1;
    if ka == kb && KeyName(a) != [] && KeyName(b) != [] {
      assert KeyName(a) == ka[n..];
      assert KeyName(b) == kb[n..];
    }
    if KeyName(a) != [] && KeyName(b) == [] {
      assert |ka| > |kb|;
    }
    if KeyName(a) == [] && KeyName(b) != [] {
      assert |ka| < |kb|;
    }
  }

  // ---------------------------------------------------------------------------
  // Questions and stored tests

  datatype MsOption = MsOption(text: string, correct: bool)

  datatype Item =
    | TfItem(id: string, text: string, answer: bool)
    | McItem(id: string, text: string, options: seq<string>, correctIndex: int)
    | MsItem(id: string, text: string, msOptions: seq<MsOption>)
    | DesItem(id: string, prompt: string, sampleAnswer: Option<string>)

  datatype ItemType = Tf | Mc | Ms | Des

  function TypeOf(q: Item): ItemType {
    match q
    case TfItem(_, _, _) => Tf
    case McItem(_, _, _, _) => Mc
    case MsItem(_, _, _) => Ms
    case DesItem(_, _, _) => Des
  }

  datatype Status = Generating | Ready

  datatype TestItem = TestItem(id: string, title: string, questions: seq<Item>,
                               status: Option<Status>, progress: Option<int>)

  /** The fields a `Partial<TestItem>` patch sets. */
  datatype Patch = Patch(questions: Option<seq<Item>>, status: Option<Status>, progress: Option<int>)

  /** `{ ...t, ...patch }`. */
  function Apply(t: TestItem, p: Patch): TestItem {
    TestItem(t.id, t.title,
             if p.questions.Some? then p.questions.value else t.questions,
             if p.status.Some? then p.status else t.status,
             if p.progress.Some? then p.progress else t.progress)
  }

  /** `patchTest`: only the items with the given id change. */
  function PatchTest(tests: seq<TestItem>, id: string, p: Patch): (r: seq<TestItem>)
    ensures |r| == |tests|
    ensures forall i :: 0 <= i < |r| ==> r[i].id == tests[i].id && r[i].title == tests[i].title
    ensures forall i :: 0 <= i < |r| && tests[i].id != id ==> r[i] == tests[i]
    ensures forall i :: 0 <= i < |r| && tests[i].id == id ==>
      (p.questions.Some? ==> r[i].questions == p.questions.value)
      && (p.status.Some? ==> r[i].status == p.status)
      && (p.progress.Some? ==> r[i].progress == p.progress)
  {
    seq(|tests|, i requires 0 <= i < |tests| => if tests[i].id == id then Apply(tests[i], p) else tests[i])
  }

  /** Applying the same patch twice is applying it once. */
  lemma PatchTestIdempotent(tests: seq<TestItem>, id: string, p: Patch)
    ensures PatchTest(PatchTest(tests, id, p), id, p) == PatchTest(tests, id, p)
  {
  }

  function Min(a: int, b: int): int {
    if a <= b then a else b
  }

  function Max(a: int, b: int): int {
    if a >= b then a else b
  }

  /** One simulated progress step of a test being generated. */
  function TickItem(t: TestItem, inc: int): (r: TestItem)
    ensures t.status != Some(Generating) ==> r == t
    ensures t.status == Some(Generating) ==>
      r.progress == Some(Min(100, t.progress.GetOr(0) + inc))
      && (r.status == Some(Ready) <==> t.progress.GetOr(0) + inc >= 100)
      && r.status.Some? && r == t.(progress := r.progress, status := r.status)
  {
    if t.status == Some(Generating) then
      var next := Min(100, t.progress.GetOr(0) + inc);
      t.(progress := Some(next), status := Some(if next >= 100 then Ready else Generating))
    else t
  }

  /** The interval callback: every generating test advances by its own
      increment `inc(i)`, which the source draws from 3..10. */
  function Tick(tests: seq<TestItem>, inc: nat -> int): (r: seq<TestItem>)
    ensures |r| == |tests|
    ensures forall i :: 0 <= i < |r| ==> r[i] == TickItem(tests[i], inc(i))
  {
    seq(|tests|, i requires 0 <= i < |tests| => TickItem(tests[i], inc(i)))
  }

  /** `n` interval callbacks; round `k` uses increments `inc(k, _)`. */
  function Ticks(tests: seq<TestItem>, n: nat, inc: (nat, nat) -> int): (r: seq<TestItem>)
    ensures |r| == |tests|
  {
    if n == 0 then tests
    else
      var round: nat := n - 1;
      Tick(Ticks(tests, round, inc), (i: nat) => inc(round, i))
  }

  /** After `n` rounds a test still generating has advanced by at least 3
      per round and has stayed below 100. */
  lemma {:induction false} TicksAdvance(tests: seq<TestItem>, n: nat, inc: (nat, nat) -> int, i: nat)
    requires forall k, j :: 3 <= inc(k, j) <= 10
    requires i < |tests| && tests[i].progress.GetOr(0) >= 0
    ensures var t := Ticks(tests, n, inc)[i];
      t.status == Some(Generating) ==> 3 * n <= t.progress.GetOr(0) && (n > 0 ==> t.progress.GetOr(0) < 100)
    decreases n
  {
    if n > 0 {
      TicksAdvance(tests, n - 1, inc, i);
      var before := Ticks(tests, n - 1, inc)[i];
      var after := Ticks(tests, n, inc)[i];
      assert after == TickItem(before, inc(n - 1, i));
      if before.status != Some(Generating) {
        assert after == before;
      }
    }
  }

  /** Every test being generated is ready after 34 callbacks. */
  lemma AllReadyAfter34Ticks(tests: seq<TestItem>, inc: (nat, nat) -> int)
    requires forall k, j :: 3 <= inc(k, j) <= 10
    requires forall i :: 0 <= i < |tests| ==> tests[i].progress.GetOr(0) >= 0
    ensures forall i :: 0 <= i < |tests| ==> Ticks(tests, 34, inc)[i].status != Some(Generating)
  {
    forall i | 0 <= i < |tests|
      ensures Ticks(tests, 34, inc)[i].status != Some(Generating)
    {
      TicksAdvance(tests, 34, inc, i);
    }
  }

  // ---------------------------------------------------------------------------
  // Course level and subject detection

  /** The level bands, tried in this order. */
  const LevelBands: seq<seq<Pattern>> := [
    Alts(["1r[oa]?\\s*b[aá]sic", "2d[oa]?\\s*b[aá]sic", "primero\\s*b", "segundo\\s*b"]),
    Alts(["3r[oa]?\\s*b[aá]sic", "4t[oa]?\\s*b[aá]sic", "tercero\\s*b", "cuarto\\s*b"]),
    Alts(["5t[oa]?\\s*b[aá]sic", "6t[oa]?\\s*b[aá]sic", "quinto\\s*b", "sexto\\s*b"]),
    Alts(["7m[oa]?\\s*b[aá]sic", "8v[oa]?\\s*b[aá]sic", "s[eé]ptimo", "octavo"]),
    Alts(["1r[oa]?\\s*medi", "2d[oa]?\\s*medi", "3r[oa]?\\s*medi", "4t[oa]?\\s*medi",
          "primero\\s*m", "segundo\\s*m", "tercero\\s*m", "cuarto\\s*m"])
  ]

  /** The course level of a course name: the first band that matches, else 3. */
  function CourseLevel(courseName: Option<string>): (level: int)
    ensures 1 <= level <= 5
  {
    var text := LowerStr(courseName.GetOr(""));
    if Test(LevelBands[0], text) then 1
    else if Test(LevelBands[1], text) then 2
    else if Test(LevelBands[2], text) then 3
    else if Test(LevelBands[3], text) then 4
    else if Test(LevelBands[4], text) then 5
    else 3
  }

  /** The index of the first band among `bands[from..]` that matches, or -1. */
  function FirstBand(bands: seq<seq<Pattern>>, text: string, from: nat): (k: int)
    requires from <= |bands|
    ensures k == -1 || from <= k < |bands|
    ensures k >= 0 ==> Test(bands[k], text) && forall j :: from <= j < k ==> !Test(bands[j], text)
    ensures k == -1 ==> forall j :: from <= j < |bands| ==> !Test(bands[j], text)
    decreases |bands| - from
  {
    if from == |bands| then -1
    else if Test(bands[from], text) then from
    else FirstBand(bands, text, from + 1)
  }

  /** The level is the number of the first matching band, 3 when none does. */
  lemma CourseLevelIsFirstBand(courseName: Option<string>)
    ensures var k := FirstBand(LevelBands, LowerStr(courseName.GetOr("")), 0);
      CourseLevel(courseName) == (if k >= 0 then k + 1 else 3)
  {
    var text := LowerStr(courseName.GetOr(""));
    var k := FirstBand(LevelBands, text, 0);
    if k >= 0 {
      assert forall j :: 0 <= j < k ==> !Test(LevelBands[j], text);
    }
  }

  const MathWords: seq<Pattern> := Alts(["matem[aá]tica", "math", "algebra", "geometr[ií]a", "aritm[eé]tica",
    "c[aá]lculo", "ecuacion", "fracci[oó]n", "porcentaje", "trigonometr", "sumas?", "restas?", "multiplic",
    "divisi", "n[uú]mero"])
  const PhysicsWords: seq<Pattern> := Alts(["f[ií]sica", "physics", "mec[aá]nica", "cin[eé]tica", "din[aá]mica",
    "fuerza", "velocidad", "aceleraci[oó]n", "energ[ií]a", "trabajo", "potencia"])
  const ScienceWords: seq<Pattern> := Alts(["ciencia", "biolog[ií]a", "qu[ií]mica", "naturaleza", "ambiente",
    "ecolog", "sistema", "c[eé]lula", "planeta"])
  const HistoryWords: seq<Pattern> := Alts(["historia", "geograf[ií]a", "social", "civica", "ciudadan", "gobierno",
    "pa[ií]s", "cultura", "civilizaci"])

  datatype Detection = Detection(isMath: bool, isExactScience: bool, isScience: bool, isHistory: bool)

  /** Subject detection on `(topic + ' ' + (subjectName || '')).toLowerCase()`. */
  function Detect(topic: string, subjectName: Option<string>): (d: Detection)
    ensures d.isMath ==> d.isExactScience
  {
    var text := LowerStr(topic + " " + subjectName.GetOr(""));
    var isMath := Test(MathWords, text);
    Detection(isMath, isMath || Test(PhysicsWords, text), Test(ScienceWords, text), Test(HistoryWords, text))
  }

  /** Which template table a question type draws from. `Exact(b)` is the
      mathematics/physics table of band `b`. */
  datatype Family = Exact(band: int) | Science | History | General

  /** True/false: exact science by level (1, 2, 3, then one table for 4-5),
      else science, else history, else general. */
  function TfFamily(d: Detection, level: int): Family {
    if d.isExactScience then Exact(if 1 <= level <= 3 then level else 4)
    else if d.isScience then Science
    else if d.isHistory then History
    else General
  }

  /** Single choice: as for true/false, but history has no table of its own. */
  function McFamily(d: Detection, level: int): Family {
    if d.isExactScience then Exact(if 1 <= level <= 3 then level else 4)
    else if d.isScience then Science
    else General
  }

  /** Multiple selection: exact science by level (1, 2, then one table for
      3-5), otherwise the general table. */
  function MsFamily(d: Detection, level: int): Family {
    if d.isExactScience then Exact(if 1 <= level <= 2 then level else 3)
    else General
  }

  /** Exact science takes priority over science, science over history, and
      anything else gets the general tables. */
  lemma FamilyPriority(d: Detection, level: int)
    ensures d.isExactScience ==> TfFamily(d, level).Exact? && McFamily(d, level).Exact? && MsFamily(d, level).Exact?
    ensures !d.isExactScience && d.isScience ==> TfFamily(d, level) == Science && McFamily(d, level) == Science
    ensures !d.isExactScience && !d.isScience && d.isHistory ==> TfFamily(d, level) == History && McFamily(d, level) == General
    ensures !d.isExactScience ==> MsFamily(d, level) == General
    ensures TfFamily(d, level) == General ==> !d.isExactScience && !d.isScience && !d.isHistory
  {
  }

  // ---------------------------------------------------------------------------
  // Mathematics essay prompts

  datatype MathFamily = Sums(band: int) | Products | Division | Fractions | Percentages | Equations | Geometry | NoFamily

  const MathFamilies: seq<seq<Pattern>> := [
    Alts(["suma", "resta", "adici[oó]n", "sustracci[oó]n"]),
    Alts(["multiplic", "producto", "veces"]),
    Alts(["divisi[oó]n", "dividir", "cociente", "reparto"]),
    Alts(["fracci[oó]n", "numerador", "denominador", "quebrado"]),
    Alts(["porcentaje", "%", "descuento", "aumento"]),
    Alts(["ecuaci[oó]n", "inc[oó]gnita", "variable", "despej"]),
    Alts(["geometr", "[aá]rea", "per[ií]metro", "tri[aá]ngulo", "rect[aá]ngulo", "c[ií]rculo", "cuadrado"])
  ]

  /** The family of `getMathProblemWithAnswer`: the first that matches the
      lower-cased topic; sums and subtractions also depend on the level. */
  function MathFamilyOf(topic: string, level: int): (f: MathFamily)
    ensures f.Sums? ==> f.band in {1, 2, 3}
  {
    var text := LowerStr(topic);
    if Test(MathFamilies[0], text) then Sums(if level == 1 || level == 2 then level else 3)
    else if Test(MathFamilies[1], text) then Products
    else if Test(MathFamilies[2], text) then Division
    else if Test(MathFamilies[3], text) then Fractions
    else if Test(MathFamilies[4], text) then Percentages
    else if Test(MathFamilies[5], text) then Equations
    else if Test(MathFamilies[6], text) then Geometry
    else NoFamily
  }

  /** The family is the first matching one in the order of the source. */
  lemma MathFamilyIsFirstMatch(topic: string, level: int)
    ensures var k := FirstBand(MathFamilies, LowerStr(topic), 0);
      var f := MathFamilyOf(topic, level);
      (k == -1 <==> f == NoFamily) && (k == 0 <==> f.Sums?)
      && (k == 1 <==> f == Products) && (k == 2 <==> f == Division)
      && (k == 3 <==> f == Fractions) && (k == 4 <==> f == Percentages)
      && (k == 5 <==> f == Equations) && (k == 6 <==> f == Geometry)
      && (f.Sums? ==> f.band == if level == 1 then 1 else if level == 2 then 2 else 3)
  {
    var text := LowerStr(topic);
    var k := FirstBand(MathFamilies, text, 0);
    if k >= 0 {
      assert forall j :: 0 <= j < k ==> !Test(MathFamilies[j], text);
    }
  }

  /** The family of band `k` of `MathFamilies`, as an independent reading of
      the source's `if` chain: band 0 is sums (level 1, level 2, or the
      rest), bands 1-6 the other families in order, anything else none. */
  function FamilyAt(k: int, level: int): MathFamily {
    match k
    case 0 => Sums(if level == 1 then 1 else if level == 2 then 2 else 3)
    case 1 => Products
    case 2 => Division
    case 3 => Fractions
    case 4 => Percentages
    case 5 => Equations
    case 6 => Geometry
    case _ => NoFamily
  }

  /** The problem asked is that of the first matching band: problem
      `num mod n` of its table, or the generic prompt when none matches. */
  lemma MathProblemOfFirstBand(t: Tables, topic: string, num: nat, level: int)
    ensures var f := FamilyAt(FirstBand(MathFamilies, LowerStr(topic), 0), level);
      MathProblem(t, topic, num, level) ==
        if f == NoFamily then DesTemplate(GenericMathPrompt(num, topic), t.genericMathAnswer)
        else t.math(f, num)[num % |t.math(f, num)|]
  {
    MathFamilyIsFirstMatch(topic, level);
  }

  datatype TfTemplate = TfTemplate(text: string, answer: bool)
  datatype McTemplate = McTemplate(text: string, options: seq<string>, correctIndex: int)
  datatype MsTemplate = MsTemplate(text: string, options: seq<MsOption>)
  datatype DesTemplate = DesTemplate(prompt: string, sampleAnswer: string)

  /** The template tables are literal arrays in the code, none of them empty. */
  type TfTable = ts: seq<TfTemplate> | |ts| > 0 witness [TfTemplate("", false)]
  type McTable = ts: seq<McTemplate> | |ts| > 0 witness [McTemplate("", [], 0)]
  type MsTable = ts: seq<MsTemplate> | |ts| > 0 witness [MsTemplate("", [])]
  type DesTable = ts: seq<DesTemplate> | |ts| > 0 witness [DesTemplate("", "")]
  /** The general essay templates: the code lists exactly five. */
  type EssayTable = ts: seq<DesTemplate> | |ts| == 5
    witness [DesTemplate("", ""), DesTemplate("", ""), DesTemplate("", ""), DesTemplate("", ""), DesTemplate("", "")]

  /** The literal template tables, as functions of the table and of the
      cleaned topic (or, for mathematics problems, of the family and the
      problem number the prompts embed). */
  datatype Tables = Tables(
    tf: (Family, string) -> TfTable,
    mc: (Family, string) -> McTable,
    ms: (Family, string) -> MsTable,
    des: string -> EssayTable,
    math: (MathFamily, nat) -> DesTable,
    genericMathAnswer: string)

  const GenericMathTask: string :=
    ": Plantea un problema práctico relacionado con el tema, identifica los datos, resuelve paso a paso y verifica tu respuesta."

  /** The prompt for a mathematics topic of no known family: it starts with
      the problem number and names the topic. */
  function GenericMathPrompt(num: nat, topic: string): (prompt: string)
    ensures StartsWith(prompt, "Problema " + NatToString(num)) && Contains(prompt, topic)
  {
    var head := "Problema " + NatToString(num);
    Framed(head, " - ", topic, GenericMathTask);
    head + " - " + topic + GenericMathTask
  }

  /** `getMathProblemWithAnswer(topic, num, level)`: problem `num mod n` of the
      family's table, or the generic prompt. */
  function MathProblem(t: Tables, topic: string, num: nat, level: int): (p: DesTemplate)
    ensures MathFamilyOf(topic, level) != NoFamily ==> p in t.math(MathFamilyOf(topic, level), num)
    ensures var f := MathFamilyOf(topic, level);
      f != NoFamily ==> p == t.math(f, num)[num % |t.math(f, num)|]
    ensures MathFamilyOf(topic, level) == NoFamily ==> p == DesTemplate(GenericMathPrompt(num, topic), t.genericMathAnswer)
  {
    var f := MathFamilyOf(topic, level);
    if f != NoFamily then
      var ps := t.math(f, num);
      ps[num % |ps|]
    else DesTemplate(GenericMathPrompt(num, topic), t.genericMathAnswer)
  }

  // ---------------------------------------------------------------------------
  // Local generation

  /** The random shuffles: of each template table, and of the options of the
      `i`-th multiple-selection question. */
  datatype Shuffles = Shuffles(
    tf: TfTable -> TfTable,
    mc: McTable -> McTable,
    ms: MsTable -> MsTable,
    options: (nat, seq<MsOption>) -> seq<MsOption>)

  /** Each shuffle is some permutation of its input. */
  ghost predicate Permutes(r: Shuffles) {
    (forall xs :: multiset(r.tf(xs)) == multiset(xs)) && (forall xs :: multiset(r.mc(xs)) == multiset(xs))
    && (forall xs :: multiset(r.ms(xs)) == multiset(xs))
    && (forall i, xs :: multiset(r.options(i, xs)) == multiset(xs))
  }

  datatype Counts = Counts(tf: Option<int>, mc: Option<int>, ms: Option<int>, des: Option<int>)

  /** Everything `generateLocalQuestions` reads besides the counts; `ids(p, i)`
      stands for the random id of the `i`-th question of type `p`. */
  datatype Generator = Generator(topic: string, subjectName: Option<string>, courseName: Option<string>,
                                 tables: Tables, shuffles: Shuffles, ids: (string, nat) -> string)

  /** `(topic || 'el tema').trim()`. */
  function CleanTopic(topic: string): string {
    Trim(if topic != [] then topic else "el tema")
  }

  /** What one call of the generator draws on once the tables are chosen and
      shuffled: the three rotations, the essay prompt of each position, the
      option shuffle and the ids. */
  datatype Plan = Plan(tfs: TfTable, mcs: McTable, mss: MsTable, essay: nat -> DesTemplate,
                       options: (nat, seq<MsOption>) -> seq<MsOption>, ids: (string, nat) -> string)

  /** The essay prompt of position `i`: mathematics problem `i + 1` for a
      mathematics subject, else the rotating general templates. */
  function EssayAt(g: Generator, i: nat): DesTemplate {
    if Detect(g.topic, g.subjectName).isMath then MathProblem(g.tables, g.topic, i + 1, CourseLevel(g.courseName))
    else
      g.tables.des(CleanTopic(g.topic))[i % 5]
  }

  /** The tables the detection selects, shuffled. */
  function PlanOf(g: Generator): Plan {
    var d, level, topic := Detect(g.topic, g.subjectName), CourseLevel(g.courseName), CleanTopic(g.topic);
    Plan(g.shuffles.tf(g.tables.tf(TfFamily(d, level), topic)),
         g.shuffles.mc(g.tables.mc(McFamily(d, level), topic)),
         g.shuffles.ms(g.tables.ms(MsFamily(d, level), topic)),
         (i: nat) => EssayAt(g, i), g.shuffles.options, g.ids)
  }

  /** With permuting shuffles, the rotations hold exactly the selected
      templates. */
  lemma PlanPermutesTables(g: Generator)
    requires Permutes(g.shuffles)
    ensures var d, level, topic := Detect(g.topic, g.subjectName), CourseLevel(g.courseName), CleanTopic(g.topic);
      var p := PlanOf(g);
      multiset(p.tfs) == multiset(g.tables.tf(TfFamily(d, level), topic))
      && multiset(p.mcs) == multiset(g.tables.mc(McFamily(d, level), topic))
      && multiset(p.mss) == multiset(g.tables.ms(MsFamily(d, level), topic))
  {
  }

  function TfItems(p: Plan, count: nat): (r: seq<Item>)
    ensures |r| == count
    ensures forall i :: 0 <= i < count ==>
      r[i] == TfItem(p.ids("tf", i), p.tfs[i % |p.tfs|].text, p.tfs[i % |p.tfs|].answer)
  {
    seq(count, i requires 0 <= i < count => TfItem(p.ids("tf", i), p.tfs[i % |p.tfs|].text, p.tfs[i % |p.tfs|].answer))
  }

  function McItems(p: Plan, count: nat): (r: seq<Item>)
    ensures |r| == count
    ensures forall i :: 0 <= i < count ==>
      var t := p.mcs[i % |p.mcs|]; r[i] == McItem(p.ids("mc", i), t.text, t.options, t.correctIndex)
  {
    seq(count, i requires 0 <= i < count =>
      var t := p.mcs[i % |p.mcs|]; McItem(p.ids("mc", i), t.text, t.options, t.correctIndex))
  }

  function MsItems(p: Plan, count: nat): (r: seq<Item>)
    ensures |r| == count
    ensures forall i :: 0 <= i < count ==>
      var t := p.mss[i % |p.mss|]; r[i] == MsItem(p.ids("ms", i), t.text, p.options(i, t.options))
  {
    seq(count, i requires 0 <= i < count =>
      var t := p.mss[i % |p.mss|]; MsItem(p.ids("ms", i), t.text, p.options(i, t.options)))
  }

  function DesItems(p: Plan, count: nat): (r: seq<Item>)
    ensures |r| == count
    ensures forall i :: 0 <= i < count ==>
      r[i] == DesItem(p.ids("des", i), p.essay(i).prompt, Some(p.essay(i).sampleAnswer))
  {
    seq(count, i requires 0 <= i < count => DesItem(p.ids("des", i), p.essay(i).prompt, Some(p.essay(i).sampleAnswer)))
  }

  /** `counts.x || 0`, as a loop bound. */
  function CountOf(c: Option<int>): nat {
    Times(c.GetOr(0))
  }

  /** The four loops of the generator, in order. */
  function Build(p: Plan, c: Counts): (res: seq<Item>)
    ensures |res| == CountOf(c.tf) + CountOf(c.mc) + CountOf(c.ms) + CountOf(c.des)
  {
    TfItems(p, CountOf(c.tf)) + McItems(p, CountOf(c.mc)) + MsItems(p, CountOf(c.ms)) + DesItems(p, CountOf(c.des))
  }

  /** `generateLocalQuestions`: nothing without counts, otherwise one item per
      requested question. */
  function GenerateLocal(g: Generator, counts: Option<Counts>): (res: seq<Item>)
    ensures counts.None? ==> res == []
    ensures counts.Some? ==>
      |res| == CountOf(counts.value.tf) + CountOf(counts.value.mc) + CountOf(counts.value.ms) + CountOf(counts.value.des)
  {
    match counts
    case None => []
    case Some(c) => Build(PlanOf(g), c)
  }

  /** The type expected at position `k` for the given counts. */
  function TypeAt(c: Counts, k: int): ItemType {
    if k < CountOf(c.tf) then Tf
    else if k < CountOf(c.tf) + CountOf(c.mc) then Mc
    else if k < CountOf(c.tf) + CountOf(c.mc) + CountOf(c.ms) then Ms
    else Des
  }

  lemma ConcatAt4<T>(a: seq<T>, b: seq<T>, c: seq<T>, d: seq<T>, k: int)
    requires 0 <= k < |a| + |b| + |c| + |d|
    ensures (a + b + c + d)[k] ==
      if k < |a| then a[k]
      else if k < |a| + |b| then b[k - |a|]
      else if k < |a| + |b| + |c| then c[k - |a| - |b|]
      else d[k - |a| - |b| - |c|]
  {
  }

  /** Position `k` of a batch, read off the loop that produced it. */
  lemma BuildAt(p: Plan, c: Counts, k: int)
    requires 0 <= k < |Build(p, c)|
    ensures var a, b, m := CountOf(c.tf), CountOf(c.mc), CountOf(c.ms);
      Build(p, c)[k] ==
        if k < a then TfItems(p, a)[k]
        else if k < a + b then McItems(p, b)[k - a]
        else if k < a + b + m then MsItems(p, m)[k - a - b]
        else DesItems(p, CountOf(c.des))[k - a - b - m]
  {
    ConcatAt4(TfItems(p, CountOf(c.tf)), McItems(p, CountOf(c.mc)), MsItems(p, CountOf(c.ms)), DesItems(p, CountOf(c.des)), k);
  }

  /** Items come in type order: all true/false, then single choice, then
      multiple selection, then essays. */
  lemma BuildTypeOrder(p: Plan, c: Counts, k: int)
    requires 0 <= k < |Build(p, c)|
    ensures TypeOf(Build(p, c)[k]) == TypeAt(c, k)
  {
    BuildAt(p, c, k);
  }

  /** The `i`-th single-choice item copies the text, options and correct
      index of template `i mod n` of the shuffled table. */
  lemma BuildChoiceCopiesTemplate(p: Plan, c: Counts, i: int)
    requires 0 <= i < CountOf(c.mc)
    ensures var t := p.mcs[i % |p.mcs|]; var q := Build(p, c)[CountOf(c.tf) + i];
      q.McItem? && q.text == t.text && q.options == t.options && q.correctIndex == t.correctIndex
  {
    BuildAt(p, c, CountOf(c.tf) + i);
  }

  /** The `i`-th multiple-selection item keeps its template's text and, with
      a permuting shuffle, a permutation of its options. */
  lemma BuildSelectionPermutesOptions(p: Plan, c: Counts, i: int)
    requires forall j, xs :: multiset(p.options(j, xs)) == multiset(xs)
    requires 0 <= i < CountOf(c.ms)
    ensures var t := p.mss[i % |p.mss|]; var q := Build(p, c)[CountOf(c.tf) + CountOf(c.mc) + i];
      q.MsItem? && q.text == t.text && multiset(q.msOptions) == multiset(t.options)
  {
    BuildAt(p, c, CountOf(c.tf) + CountOf(c.mc) + i);
  }

  /** Essay `i` is mathematics problem `i + 1` for a mathematics subject and
      general template `i mod 5` otherwise, always with its sample answer. */
  lemma GenerateLocalEssayRouting(g: Generator, c: Counts, i: int)
    requires 0 <= i < CountOf(c.des)
    ensures var q := GenerateLocal(g, Some(c))[CountOf(c.tf) + CountOf(c.mc) + CountOf(c.ms) + i];
      q.DesItem? && q == DesItem(g.ids("des", i), EssayAt(g, i).prompt, Some(EssayAt(g, i).sampleAnswer))
    ensures Detect(g.topic, g.subjectName).isMath ==>
      EssayAt(g, i) == MathProblem(g.tables, g.topic, i + 1, CourseLevel(g.courseName))
    ensures !Detect(g.topic, g.subjectName).isMath ==> EssayAt(g, i) == g.tables.des(CleanTopic(g.topic))[i % 5]
  {
    assert GenerateLocal(g, Some(c)) == Build(PlanOf(g), c);
    BuildEssayAt(PlanOf(g), c, i);
  }

  /** Essay `i` sits after the other three loops' items. */
  lemma BuildEssayAt(p: Plan, c: Counts, i: int)
    requires 0 <= i < CountOf(c.des)
    ensures Build(p, c)[CountOf(c.tf) + CountOf(c.mc) + CountOf(c.ms) + i] == DesItems(p, CountOf(c.des))[i]
  {
    FourthOf(TfItems(p, CountOf(c.tf)), McItems(p, CountOf(c.mc)), MsItems(p, CountOf(c.ms)), DesItems(p, CountOf(c.des)), i);
  }

  lemma FourthOf<T>(a: seq<T>, b: seq<T>, c: seq<T>, d: seq<T>, i: int)
    requires 0 <= i < |d|
    ensures (a + b + c + d)[|a| + |b| + |c| + i] == d[i]
  {
  }

  // ---------------------------------------------------------------------------
  // Splicing a model reply

  /** A question of the model reply, with the fields the mapping reads. */
  datatype AiQuestion = AiQuestion(
    qtype: string, questionText: Option<string>, text: Option<string>, correctAnswer: Value,
    options: Option<seq<string>>, choices: Option<seq<string>>,
    correctAnswerIndex: Value, correctAnswerIndices: Value)

  /** `q.questionText || q.text || ''`. */
  function AiText(q: AiQuestion): string {
    OptOr(q.questionText, OptOr(q.text, ""))
  }

  /** `typeof q.correctAnswerIndex === 'number' ? q.correctAnswerIndex : 0`. */
  function AiCorrectIndex(q: AiQuestion): int {
    if q.correctAnswerIndex.Num? then q.correctAnswerIndex.n else 0
  }

  /** `Array.isArray(q.correctAnswerIndices) ? q.correctAnswerIndices : []`. */
  function AiCorrects(q: AiQuestion): seq<Value> {
    if q.correctAnswerIndices.Arr? then q.correctAnswerIndices.items else []
  }

  function AiId(prefix: string, now: nat, idx: nat): string {
    prefix + "_" + NatToString(now) + "_" + NatToString(idx)
  }

  /** The mapping of the reply's question at position `idx`. */
  function MapAi(q: AiQuestion, now: nat, idx: nat): (r: Item)
    ensures q.qtype == "TRUE_FALSE" ==> r == TfItem(AiId("tf", now, idx), AiText(q), Truthy(q.correctAnswer))
    ensures q.qtype == "MULTIPLE_CHOICE" ==>
      r.McItem? && r.correctIndex == AiCorrectIndex(q)
      && r.options == (if q.options.Some? then q.options.value else if q.choices.Some? then q.choices.value else [])
    ensures q.qtype == "MULTIPLE_SELECTION" ==>
      r.MsItem? && |r.msOptions| == |q.options.GetOr([])|
      && forall i :: 0 <= i < |r.msOptions| ==>
           r.msOptions[i].text == q.options.value[i] && (r.msOptions[i].correct <==> Num(i) in AiCorrects(q))
    ensures q.qtype !in {"TRUE_FALSE", "MULTIPLE_CHOICE", "MULTIPLE_SELECTION"} ==>
      r == DesItem(AiId("des", now, idx), AiText(q), None)
  {
    if q.qtype == "TRUE_FALSE" then TfItem(AiId("tf", now, idx), AiText(q), Truthy(q.correctAnswer))
    else if q.qtype == "MULTIPLE_CHOICE" then
      var options := if q.options.Some? then q.options.value else if q.choices.Some? then q.choices.value else [];
      McItem(AiId("mc", now, idx), AiText(q), options, AiCorrectIndex(q))
    else if q.qtype == "MULTIPLE_SELECTION" then
      var options := q.options.GetOr([]);
      MsItem(AiId("ms", now, idx), AiText(q),
             seq(|options|, i requires 0 <= i < |options| => MsOption(options[i], Num(i) in AiCorrects(q))))
    else DesItem(AiId("des", now, idx), AiText(q), None)
  }

  function MapAll(qs: seq<AiQuestion>, now: nat): (r: seq<Item>)
    ensures |r| == |qs|
    ensures forall i :: 0 <= i < |qs| ==> r[i] == MapAi(qs[i], now, i)
  {
    seq(|qs|, i requires 0 <= i < |qs| => MapAi(qs[i], now, i))
  }

  /** `xs.filter(q => q.type === t)`. */
  function OfType(xs: seq<Item>, t: ItemType): (r: seq<Item>)
    ensures |r| <= |xs|
    ensures forall i :: 0 <= i < |r| ==> TypeOf(r[i]) == t
  {
    if |xs| == 0 then []
    else OfType(xs[..|xs| - 1], t) + (if TypeOf(xs[|xs| - 1]) == t then [xs[|xs| - 1]] else [])
  }

  /** `xs.slice(0, end)`: a negative end counts from the back. */
  function SliceTo<T>(xs: seq<T>, end: int): (r: seq<T>)
    ensures |r| <= |xs| && r == xs[..|r|]
    ensures end >= 0 ==> |r| == Min(end, |xs|)
    ensures end < 0 ==> |r| == Max(|xs| + end, 0)
  {
    var e := if end >= 0 then Min(end, |xs|) else if |xs| + end > 0 then |xs| + end else 0;
    xs[..e]
  }

  /** The counts requested for the test. */
  datatype Requested = Requested(tf: int, mc: int, ms: int, des: int)

  /** The questions of the reply that are kept: those of each type, cut to
      the requested count, true/false first. No essay of the reply is kept. */
  function Kept(mapped: seq<Item>, req: Requested): (r: seq<Item>)
    ensures forall i :: 0 <= i < |r| ==> TypeOf(r[i]) != Des
  {
    var tfs, mcs, mss := SliceTo(OfType(mapped, Tf), req.tf), SliceTo(OfType(mapped, Mc), req.mc), SliceTo(OfType(mapped, Ms), req.ms);
    assert forall i :: 0 <= i < |tfs| ==> tfs[i] == OfType(mapped, Tf)[i];
    assert forall i :: 0 <= i < |mcs| ==> mcs[i] == OfType(mapped, Mc)[i];
    assert forall i :: 0 <= i < |mss| ==> mss[i] == OfType(mapped, Ms)[i];
    tfs + mcs + mss
  }

  /** The counts of the local call that makes up the shortfall: for a
      non-negative request, what the reply lacks of each type, and no essays. */
  function Shortfall(mapped: seq<Item>, req: Requested): (c: Counts)
    ensures c.des == Some(0)
    ensures req.tf >= 0 ==> c.tf == Some(Max(req.tf - |OfType(mapped, Tf)|, 0))
    ensures req.mc >= 0 ==> c.mc == Some(Max(req.mc - |OfType(mapped, Mc)|, 0))
    ensures req.ms >= 0 ==> c.ms == Some(Max(req.ms - |OfType(mapped, Ms)|, 0))
  {
    Counts(Some(req.tf - |SliceTo(OfType(mapped, Tf), req.tf)|),
           Some(req.mc - |SliceTo(OfType(mapped, Mc), req.mc)|),
           Some(req.ms - |SliceTo(OfType(mapped, Ms), req.ms)|),
           Some(0))
  }

  /** The `done` handler once the reply is mapped: the kept questions, then
      local questions for every shortfall (when there is one), then the
      local essays (when any are requested). `extras` and `essays` are the
      plans of the two local calls. */
  function SpliceOf(mapped: seq<Item>, req: Requested, extras: Plan, essays: Plan): seq<Item> {
    Kept(mapped, req) + Extras(mapped, req, extras) + Essays(req, essays)
  }

  /** The first local call: the shortfall of each type, when there is one. */
  function Extras(mapped: seq<Item>, req: Requested, extras: Plan): seq<Item> {
    var c := Shortfall(mapped, req);
    if c.tf.value > 0 || c.mc.value > 0 || c.ms.value > 0 then Build(extras, c) else []
  }

  /** The second local call: the requested essays, when any are asked for. */
  function Essays(req: Requested, essays: Plan): seq<Item> {
    if req.des > 0 then Build(essays, Counts(Some(0), Some(0), Some(0), Some(req.des))) else []
  }

  /** The `done` handler: maps `aiOut?.questions || []` and splices in the
      local questions of two calls of the generator. Whatever the reply, the
      test holds exactly the requested number of questions of each type. */
  function Done(ai: Option<seq<AiQuestion>>, now: nat, req: Requested, extras: Generator, essays: Generator): (r: seq<Item>)
    ensures req.tf >= 0 && req.mc >= 0 && req.ms >= 0 ==>
      CountType(r, Tf) == req.tf && CountType(r, Mc) == req.mc && CountType(r, Ms) == req.ms
      && CountType(r, Des) == Times(req.des)
  {
    var mapped := MapAll(ai.GetOr([]), now);
    if req.tf >= 0 && req.mc >= 0 && req.ms >= 0 then
      SpliceCounts(mapped, req, PlanOf(extras), PlanOf(essays), Tf);
      SpliceCounts(mapped, req, PlanOf(extras), PlanOf(essays), Mc);
      SpliceCounts(mapped, req, PlanOf(extras), PlanOf(essays), Ms);
      SpliceCounts(mapped, req, PlanOf(extras), PlanOf(essays), Des);
      SpliceOf(mapped, req, PlanOf(extras), PlanOf(essays))
    else SpliceOf(mapped, req, PlanOf(extras), PlanOf(essays))
  }

  /** The number of items of type `t`. */
  function CountType(xs: seq<Item>, t: ItemType): (n: nat)
    ensures n <= |xs|
  {
    if |xs| == 0 then 0
    else CountType(xs[..|xs| - 1], t) + (if TypeOf(xs[|xs| - 1]) == t then 1 else 0)
  }

  lemma {:induction false} CountTypeConcat(a: seq<Item>, b: seq<Item>, t: ItemType)
    ensures CountType(a + b, t) == CountType(a, t) + CountType(b, t)
    decreases |b|
  {
    if |b| == 0 {
      assert a + b == a;
    } else {
      assert (a + b)[..|a + b| - 1] == a + b[..|b| - 1];
      CountTypeConcat(a, b[..|b| - 1], t);
    }
  }

  lemma {:induction false} CountTypeUniform(xs: seq<Item>, u: ItemType, t: ItemType)
    requires forall i :: 0 <= i < |xs| ==> TypeOf(xs[i]) == u
    ensures CountType(xs, t) == if t == u then |xs| else 0
    decreases |xs|
  {
    if |xs| > 0 {
      CountTypeUniform(xs[..|xs| - 1], u, t);
    }
  }

  /** The number of items of each type in a batch of the generator. */
  function Requests(c: Counts, t: ItemType): nat {
    match t
    case Tf => CountOf(c.tf)
    case Mc => CountOf(c.mc)
    case Ms => CountOf(c.ms)
    case Des => CountOf(c.des)
  }

  /** A batch holds exactly the requested number of each type. */
  lemma BuildCounts(p: Plan, c: Counts, t: ItemType)
    ensures CountType(Build(p, c), t) == Requests(c, t)
  {
    var a, b, m, d := TfItems(p, CountOf(c.tf)), McItems(p, CountOf(c.mc)), MsItems(p, CountOf(c.ms)), DesItems(p, CountOf(c.des));
    CountTypeUniform(a, Tf, t);
    CountTypeUniform(b, Mc, t);
    CountTypeUniform(m, Ms, t);
    CountTypeUniform(d, Des, t);
    CountTypeConcat(a, b, t);
    CountTypeConcat(a + b, m, t);
    CountTypeConcat(a + b + m, d, t);
  }

  /** The kept questions of the reply number `min(available, requested)` per
      type and include no essay. */
  lemma KeptCounts(mapped: seq<Item>, req: Requested, t: ItemType)
    ensures CountType(Kept(mapped, req), t) ==
      match t
      case Tf => |SliceTo(OfType(mapped, Tf), req.tf)|
      case Mc => |SliceTo(OfType(mapped, Mc), req.mc)|
      case Ms => |SliceTo(OfType(mapped, Ms), req.ms)|
      case Des => 0
  {
    var tfs, mcs, mss := SliceTo(OfType(mapped, Tf), req.tf), SliceTo(OfType(mapped, Mc), req.mc), SliceTo(OfType(mapped, Ms), req.ms);
    assert forall i :: 0 <= i < |tfs| ==> tfs[i] == OfType(mapped, Tf)[i];
    assert forall i :: 0 <= i < |mcs| ==> mcs[i] == OfType(mapped, Mc)[i];
    assert forall i :: 0 <= i < |mss| ==> mss[i] == OfType(mapped, Ms)[i];
    CountTypeUniform(tfs, Tf, t);
    CountTypeUniform(mcs, Mc, t);
    CountTypeUniform(mss, Ms, t);
    CountTypeConcat(tfs, mcs, t);
    CountTypeConcat(tfs + mcs, mss, t);
  }

  /** The spliced test holds exactly the requested number of questions of each
      type, whatever the reply contains; in particular essays of the reply are
      dropped. */
  lemma SpliceCounts(mapped: seq<Item>, req: Requested, extras: Plan, essays: Plan, t: ItemType)
    requires req.tf >= 0 && req.mc >= 0 && req.ms >= 0
    ensures CountType(SpliceOf(mapped, req, extras, essays), t) ==
      match t
      case Tf => req.tf
      case Mc => req.mc
      case Ms => req.ms
      case Des => Times(req.des)
  {
    var dc := Counts(Some(0), Some(0), Some(0), Some(req.des));
    ShortfallCounts(mapped, req, extras, t);
    assert CountType(Essays(req, essays), t) == if t == Des then Times(req.des) else 0 by {
      if req.des > 0 {
        BuildCounts(essays, dc, t);
      }
    }
    CountTypeConcat(Kept(mapped, req) + Extras(mapped, req, extras), Essays(req, essays), t);
  }

  /** The kept questions and the local extras together hold the requested
      numbers of true/false, single-choice and multiple-selection questions. */
  lemma ShortfallCounts(mapped: seq<Item>, req: Requested, extras: Plan, t: ItemType)
    requires req.tf >= 0 && req.mc >= 0 && req.ms >= 0
    ensures CountType(Kept(mapped, req) + Extras(mapped, req, extras), t) ==
      match t
      case Tf => req.tf
      case Mc => req.mc
      case Ms => req.ms
      case Des => 0
  {
    KeptCounts(mapped, req, t);
    ExtrasCounts(mapped, req, extras, t);
    CountTypeConcat(Kept(mapped, req), Extras(mapped, req, extras), t);
  }

  /** The local extras make up exactly what the kept questions lack. */
  lemma ExtrasCounts(mapped: seq<Item>, req: Requested, extras: Plan, t: ItemType)
    requires req.tf >= 0 && req.mc >= 0 && req.ms >= 0
    ensures CountType(Extras(mapped, req, extras), t) ==
      match t
      case Tf => req.tf - |SliceTo(OfType(mapped, Tf), req.tf)|
      case Mc => req.mc - |SliceTo(OfType(mapped, Mc), req.mc)|
      case Ms => req.ms - |SliceTo(OfType(mapped, Ms), req.ms)|
      case Des => 0
  {
    var c := Shortfall(mapped, req);
    assert |SliceTo(OfType(mapped, Tf), req.tf)| <= req.tf;
    assert |SliceTo(OfType(mapped, Mc), req.mc)| <= req.mc;
    assert |SliceTo(OfType(mapped, Ms), req.ms)| <= req.ms;
    if c.tf.value > 0 || c.mc.value > 0 || c.ms.value > 0 {
      BuildCounts(extras, c, t);
    }
  }

  /** The reply's true/false questions that are kept come first, in reply
      order. */
  lemma SpliceKeepsReplyOrder(mapped: seq<Item>, req: Requested, extras: Plan, essays: Plan)
    requires req.tf >= 0
    ensures var kept := OfType(mapped, Tf);
      var n := Min(|kept|, req.tf);
      n <= |SpliceOf(mapped, req, extras, essays)| && SpliceOf(mapped, req, extras, essays)[..n] == kept[..n]
  {
    var tfs := SliceTo(OfType(mapped, Tf), req.tf);
    var r := SpliceOf(mapped, req, extras, essays);
    var rest := r[|tfs|..];
    assert r == tfs + rest;
    assert r[..|tfs|] == tfs;
  }

  /** The spliced test opens with the kept questions of the reply, and is
      nothing more when the reply covers every type and no essay is asked. */
  lemma SpliceKeptFirst(mapped: seq<Item>, req: Requested, extras: Plan, essays: Plan)
    ensures var r, k := SpliceOf(mapped, req, extras, essays), Kept(mapped, req);
      |k| <= |r| && r[..|k|] == k
    ensures req.tf >= 0 && req.mc >= 0 && req.ms >= 0 && req.des <= 0
            && |OfType(mapped, Tf)| >= req.tf && |OfType(mapped, Mc)| >= req.mc && |OfType(mapped, Ms)| >= req.ms
            ==> SpliceOf(mapped, req, extras, essays) == Kept(mapped, req)
  {
    var k := Kept(mapped, req);
    var r := SpliceOf(mapped, req, extras, essays);
    assert r == k + r[|k|..];
    assert r[..|k|] == k;
  }

  /** The subject test of `handleCreate` that sends mathematics and physics
      straight to the local generator: the mathematics alternatives followed
      by "f[ií]sica" and "physics". */
  const MathSubjectWords: seq<Pattern> := MathWords + Alts(["f[ií]sica", "physics"])

  /** An alternation of two lists tests as either list. */
  lemma TestConcat(a: seq<Pattern>, b: seq<Pattern>, s: string)
    ensures Test(a + b, s) <==> Test(a, s) || Test(b, s)
  {
    if Test(a + b, s) {
      var k :| 0 <= k < |a + b| && SearchFrom((a + b)[k], s, 0);
      if k < |a| {
        assert a[k] == (a + b)[k];
      } else {
        assert b[k - |a|] == (a + b)[k];
      }
    }
    if Test(b, s) {
      var k :| 0 <= k < |b| && SearchFrom(b[k], s, 0);
      assert (a + b)[|a| + k] == b[k];
    }
    if Test(a, s) {
      var k :| 0 <= k < |a| && SearchFrom(a[k], s, 0);
      assert (a + b)[k] == a[k];
    }
  }

  /** "f[ií]sica" and "physics" open the physics list of the generator. */
  lemma PhysicsHeadWords(s: string)
    ensures Test(Alts(["f[ií]sica", "physics"]), s) ==> Test(PhysicsWords, s)
  {
    var head := Alts(["f[ií]sica", "physics"]);
    if Test(head, s) {
      var k :| 0 <= k < |head| && SearchFrom(head[k], s, 0);
      assert PhysicsWords[k] == head[k];
    }
  }

  /** A subject `handleCreate` sends to the local generator is one the
      generator itself treats as exact science, and every subject the
      generator treats as mathematics is sent there. */
  predicate IsMathSubject(topic: string, bookTitle: string)
    ensures Detect(topic, Some(bookTitle)).isMath ==> IsMathSubject(topic, bookTitle)
    ensures IsMathSubject(topic, bookTitle) ==> Detect(topic, Some(bookTitle)).isExactScience
  {
    var text := LowerStr(topic + " " + bookTitle);
    TestConcat(MathWords, Alts(["f[ií]sica", "physics"]), text);
    PhysicsHeadWords(text);
    Test(MathSubjectWords, text)
  }
}
